=== FILE: README.md ===
# Contextify runtime core in Dafny

Contextify is a tool-calling agent runtime. An `Agent` keeps a chat
transcript and a set of tools. Each time it is invoked, it sends the
transcript and the tools' JSON schemas to a language model. It then
appends the model's reply and runs every tool call the reply makes. Two
loops drive the agent:

- **ReAct** invokes the agent until a reply calls no tool, optionally
  reading user feedback between answers.
- **Short-term memory** steps in when the transcript grows past a token
  budget. A fork of the agent is prompted to record the context to files
  with the view and edit tools, and the transcript is then cut down to its
  first message and the fork's answer. The model follows the fork's
  transcript and answer; the files its tools write are not part of the
  model (see "Left out").

This project models that core:

- **Tools.** The tool abstraction (`Tool.execute`, JSON definitions,
  argument binding) and the two generations of dispatch:
  - the `ToolExecutor` and `ToolRegistry` over tool objects;
  - the older `ToolKit` and `ToolRegistry` over tool specs.
- **Agent transcript operations** (token counting, system prompt, invoke,
  truncation), the ReAct loop and the short-term memory manager.
- **File tools:** the text viewing functions and tool (`read_file`,
  `view_directory`, `view`), and the editing functions (`insert_file`,
  `replace_file`) with the tools built on them (`create_file`,
  `insert_file`, `replace_file`).
- **Shell:** the persistent bash terminal and the bash tool.
- **Todo list:** the todo item model and the todo tool that persists it
  as JSON.
- **Configuration:** the nested-key lookup of `ConfigParser.get`.

The model takes each source file's own form:

- **Pure code** becomes functions on datatypes. This covers schemas,
  clamping, line splicing, filters and lookups.
- **Objects whose fields change** become classes with `modifies` clauses:
  `ToolKit`, `Agent`, `BashTerminal`, `BashTool`, `TodoTool`,
  `ConfigParser`, `ShortTermMemoryManager` and `ReAct`.
- **Loops in the source** become methods whose loops carry invariants.
  These are `read_file`'s rendering loop, `view_directory`'s listing loop,
  `calc_token_nums`, `ConfigParser.get`, the bash poll loop, the MCP loop
  of the older registry, and the two `while True` loops. Each such method
  is proved equal to a specification function, and the properties the
  source promises are proved as lemmas about that function.

What the runtime leaves to the outside world enters the model as
parameters:

- The language model is a function from (transcript, tool schemas) to a
  response. The client memoises, so the same request always gets the same
  reply.
- The file system is a map from paths to files and directories, threaded
  through tool executions as a value. A directory lists its entries. The
  tree is well formed when every path other than `.` and `/` sits in an
  existing directory that lists it (`Files.WellFormed`), and every
  operation that makes files or directories keeps it so.
- These are uninterpreted functions: the token counter, JSON
  serialisation of tool calls, `difflib`, JSON text encoding and
  decoding, and the todo id factory. Pydantic validation of the todo
  arguments and items is defined outright (`Todos.TodoFromJson`,
  `TodoTools.ParseArgs`), with simplified error texts.
- The shell's output is a sequence of arrivals, one per poll.
- The MCP tool listings are input sequences.

## Model

| member | source | states |
|---|---|---|
| Tools.FunctionSchema | src/tools/base.py:117-128 | The JSON definition has exactly the keys `type` (= "function") and `function`. `function` has exactly `name`, `description` and `parameters`, holding the tool's own values. |
| Tools.BindArgs | src/tools/base.py:155-177 | The base class's `_execute(self, args)` accepts keyword arguments only when they are exactly one key `args`, and then receives that key's value. A non-dict raises the `**` mapping error. A dict with any key other than `args` raises the unexpected-keyword error, even when `args` is missing too. Only the empty dict raises the missing-argument error. |
| Tools.Execute | src/tools/base.py:130-163 | The result always carries the call's id and starts from the default failed result. A parse failure leaves the world unchanged and reports "Validating the tool `name` with args `args` failed: e". Otherwise the world is what the tool left. The tool's output, error and flag are copied under the call's id, and an exception becomes "Executing the tool …". Success implies that the arguments parsed. |
| Tools.UnimplementedToolFails | src/tools/base.py:161-177 | A tool with neither a callback nor an overridden `_execute` never succeeds and never changes the world. Given the argument dict `{"args": null}`, its error is the execution error "Must implement _execute method". |
| Tools.ValidationFailureReported | src/tools/base.py:151-153 | Arguments that fail to parse give an unsuccessful result with empty output, whose error starts with the validation prefix naming the tool and its arguments. This is what the tests check (base.py:231-251). |
| Indexing.Index | src/tools/executor.py:24 | A dict built from (key, value) pairs has exactly the listed keys. |
| Indexing.IndexKeepsLast | src/tools/tool.py:43-44 | In a dict comprehension a repeated key holds the value of its last occurrence. |
| Indexing.IndexSnoc | src/tools/tool.py:50-51 | Building from one more pair is the earlier dict with that key overwritten. |
| Executor.NameMap | src/tools/executor.py:22-24 | The name map's keys are exactly the registered tools' names. |
| Executor.ExecuteToolCall | src/tools/executor.py:42-61 | The result carries the call's id. An unknown name gives an unsuccessful result with the "unavailable" error and leaves the world alone. A known name is executed by the last tool registered under that name. |
| Executor.UnavailableErrorListsEveryTool | src/tools/executor.py:53-58 | For an unknown name, every registered tool's name appears in the error, written as its `repr`. |
| Executor.ThreadRunsInOrder | src/tools/executor.py:90-91 | In a loop that awaits each step before the next, step i runs on the state the first i steps left. |
| Executor.ThreadAppend | src/tools/executor.py:90-91 | Threading a + b threads a, then b from the state a left, and the results are concatenated. |
| Executor.ThreadStateless | src/tools/executor.py:63-91 | When no step changes the state, the state is kept and result i is step i on the first state. |
| Executor.SequentialToolCall | src/tools/executor.py:78-91 | One result per call. |
| Executor.SequentialRunsInOrder | src/tools/executor.py:90-91 | Result i is call i executed on the world left by calls 0..i-1. |
| Executor.SequentialKeepsIds | src/tools/executor.py:90-91 | Result i carries call i's id. |
| Executor.SequentialAppend | src/tools/executor.py:90-91 | Running a + b equals running a, then b on the world a left. The results are concatenated. |
| Executor.ParallelToolCall | src/tools/executor.py:63-76 | The results are as many as the calls, and positionally aligned. Result i is call i executed on the initial world and carries call i's id. |
| Executor.ParallelMatchesSequential | src/tools/executor.py:63-91 | When no call changes the world, the parallel and sequential batches give the same results, and the world is unchanged. |
| Executor.CloseTools | src/tools/executor.py:26-40 | There is one close result per registered tool. The world afterwards is every tool's `close` applied in registration order (`CloseAll`); with no tools it is untouched. |
| Executor.CloseAllSingleton | src/tools/executor.py:26-40 | Closing a single tool is that tool's `close`. |
| Executor.CloseAllAppend | src/tools/executor.py:26-40 | Closing a concatenation closes the first part, then the second on the world the first left. |
| Executor.KeepByName | src/tools/registry.py:21-24 | Every kept tool's name-membership equals `keep`, and no more tools come out than went in. |
| Executor.KeepByNameMembers | src/tools/registry.py:21-24 | Every kept tool is one of the given tools, and every given tool whose name-membership equals `keep` is kept. |
| Executor.KeepByNameAppend | src/tools/registry.py:21-24 | The comprehension keeps order and multiplicity: the kept tools of a concatenation are the kept tools of each part, in order. |
| Executor.KeepByNameSingleton | src/tools/registry.py:21-24 | A single tool is kept exactly when its name's membership equals `keep`. |
| Executor.RegistryFilterAdmits | src/tools/registry.py:19-24 | The include pass followed by the exclude pass is the one order-preserving filter by `ToolKits.Admitted`. |
| Executor.AdmittedToolsMembers | src/tools/registry.py:19-24 | A tool is admitted exactly when it is one of the tools and `ToolKits.Admitted` accepts its name. |
| Executor.NewToolRegistry | src/tools/registry.py:10-26 | The caller's list is extended by the MCP tools when asked, and the extended list is returned. The executor holds only tools from that list that pass include-then-exclude, and every such tool is held. Its tools are exactly that list's admitted tools, in order and with repeats (`AdmittedTools`). |
| Executor.RegistryWithoutFilters | src/tools/registry.py:10-26 | With no filters and no MCP, the executor holds exactly the given tools. |
| ToolKits.ToolSchema | src/tools/tool.py:21-34 | A spec's schema has the same `{type, function: {name, description, parameters}}` shape, holding the spec's values. |
| ToolKits.AnswerUnavailable | src/tools/tool.py:56-74 | An unknown name gets "The tool name X is unavailable…" listing the names. A known name is answered as by a kit holding only the last spec under that name. |
| ToolKits.AnswerCallShadowing | src/tools/tool.py:46-51 | After adding a spec, calls to its name are answered by that spec alone. |
| ToolKits.AnswerCallFrame | src/tools/tool.py:46-51 | Adding a spec under another name leaves the answers for existing names unchanged. |
| ToolKits.ToolKit.constructor | src/tools/tool.py:39-44 | The kit holds the given specs. Names and schemas follow their order, and the arg and callback dicts are keyed by name, with the last spec winning. |
| ToolKits.ToolKit.AddTool | src/tools/tool.py:46-51 | Appends to tools, names and schemas, and overwrites the dict entries for the name. The kit stays consistent. |
| ToolKits.ToolKit.GetToolSchemas | src/tools/tool.py:53-54 | Schema i is tool i's schema. |
| ToolKits.ToolKit.ExecuteTool | src/tools/tool.py:56-74 | Answers exactly as the kit's specs answer the call. The reply covers the unavailable text, the "Validating the the tool" text, the "Executing the tool" text and the callback's own return value. |
| ToolKits.FilterSpecsMembers | src/tools/tool_registry.py:14-33 | A spec survives filtering exactly when its name is admitted: named by a non-empty include list, or no include list; and not excluded. No other spec appears. |
| ToolKits.FilterSpecsAppend | src/tools/tool_registry.py:14-33 | Filtering distributes over concatenation, so local specs keep their order and come before the MCP specs. |
| ToolKits.LocalFilters | src/tools/tool_registry.py:14-23 | The include comprehension followed by the exclude comprehension equals the admission filter. |
| ToolKits.NewToolRegistry | src/tools/tool_registry.py:8-33 | The new kit is consistent and holds the admitted local specs followed by the admitted MCP specs, in order. A missing spec list counts as empty. |
| ToolKits.AddAdmittedMcpTools | src/tools/tool_registry.py:25-33 | The MCP loop appends exactly the admitted MCP specs in listing order, keeping the kit consistent. |
| ToolKits.AddUnlessFiltered | src/tools/tool_registry.py:26-33 | One pass of the MCP loop appends the spec exactly when its name is admitted. |
| Agents.Agent.constructor | src/llms/agent.py:11-29 | A missing or empty transcript starts empty. A given kit is used as is. Without one, a fresh registry holds the MCP specs. |
| Agents.Agent.CalcTokenNums | src/llms/agent.py:31-42 | The loop's total is the transcript's token count. |
| Agents.TranscriptTokensAppend | src/llms/agent.py:31-42 | The token count of a concatenation is the sum of the parts' counts. |
| Agents.BareMessageCostsNothing | src/llms/agent.py:31-42 | A message with no reasoning, no content and no tool calls adds nothing to the count. |
| Agents.TokensGrowWithTranscript | src/llms/agent.py:31-42 | Appending messages never lowers the count. |
| Agents.WithSystemPrompt | src/llms/agent.py:44-48 | The result starts with a system entry holding the prompt. A system head has only its content replaced, and the length and the rest are kept. Otherwise a system message is inserted in front of the unchanged transcript. |
| Agents.SystemPromptLastWins | src/llms/agent.py:44-48 | Setting two prompts in a row equals setting the second alone. |
| Agents.Agent.SetSystemPrompt | src/llms/agent.py:44-48 | The transcript becomes `WithSystemPrompt` of the old one. |
| Agents.Agent.AppendUserMessage | src/llms/agent.py:50-52 | Exactly one user entry with the input is appended. |
| Agents.Asked | src/llms/agent.py:55-56 | A non-empty input is appended as one user entry. Otherwise the transcript is unchanged. |
| Agents.Agent.Invoke | src/llms/agent.py:54-116 | The reply is the model's answer to the asked transcript and the kit's schemas. The transcript becomes: the asked transcript, then the assistant entry, then one tool entry per call. |
| Agents.InvokeAnswersEveryCall | src/llms/agent.py:91-107 | After invoke, the transcript extends the asked one by the assistant entry carrying the reply's content, reasoning and calls. Then comes one tool entry per call, in model order, carrying that call's id and the kit's answer to it. |
| Agents.InvokeTokens | src/llms/agent.py:31-42 | The count after invoke is the count of the asked transcript plus the counts of the new entries. |
| Agents.Agent.ClearReasoningContent | src/llms/agent.py:118-121 | Dict entries have no `reasoning_content` attribute, so the transcript is unchanged. |
| Agents.WithoutLast | src/llms/agent.py:127-128 | Python's `[:-k]`: for 1 ≤ k ≤ n the first n-k entries remain. k ≥ n gives [], k = 0 gives [], and a negative k keeps the first -k entries. |
| Agents.Agent.RemoveLastKMessages | src/llms/agent.py:127-128 | The transcript becomes `WithoutLast` of the old one. |
| ShortTermMemory.CompactionTools | src/tools/compact/short_term_memory.py:12-20 | The recording registry holds exactly view, create_file, insert_file and replace_file, in that order, with no shell. |
| ShortTermMemory.ShortTermMemoryManager.constructor | src/tools/compact/short_term_memory.py:10-20 | The manager keeps the agent and the recording prompt, and its registry holds the recording tools with no MCP tools. |
| ShortTermMemory.RunUntilAnswerShape | src/tools/compact/short_term_memory.py:22-26 | The loop never crashes and only appends to the transcript. An answer is the content of a final assistant entry that calls no tool. Running out of turns with turns to spend has added entries. |
| ShortTermMemory.ShortTermMemoryManager.Solve | src/tools/compact/short_term_memory.py:22-26 | The loop ends exactly as `RunUntilAnswer` does, on the same transcript. |
| ShortTermMemory.Compacted | src/tools/compact/short_term_memory.py:28-37 | The fork runs on the transcript plus the recording prompt. Its outcome is returned, except that on an empty transcript an answer becomes the crash "list index out of range". On an answer, the transcript becomes [its first message, an assistant entry with the answer]. A fork that does not answer leaves it unchanged. |
| ShortTermMemory.ShortTermMemoryManager.Summarize | src/tools/compact/short_term_memory.py:28-37 | The fork gets a copy of the transcript plus the recording prompt, and the agent's transcript ends as `Compacted` says. |
| ReActLoop.BudgetCheck | src/agents/react.py:18-23 | Compaction runs exactly when the token count is strictly over the budget. A transcript within budget is untouched. One over budget that compacts is cut to its first message and an assistant answer. A compaction that does not answer ends the loop with the transcript as it was. |
| ReActLoop.CompactionCrashes | src/agents/react.py:18-23 | A compaction crashes only on the first message of an empty transcript. |
| ReActLoop.TurnStep | src/agents/react.py:31-39 | Replies that call tools continue the loop. With feedback off, a reply that calls no tool ends the loop with its content. With feedback on, an exhausted input is the EOF error, a blank stripped line ends the loop with the content, and a non-blank line is appended as a user entry and the loop continues. |
| ReActLoop.ReActAnswerShape | src/agents/react.py:15-39 | A run that answers ends on an assistant entry that calls no tool and carries the answer. |
| ReActLoop.ReActCrashCause | src/agents/react.py:15-39 | A run crashes only through a compaction's index error or, with feedback on, through end of input. |
| ReActLoop.NoFeedbackReadsNothing | src/agents/react.py:34-39 | With feedback off, the run does not depend on what input is available. |
| ReActLoop.ReAct.constructor | src/agents/react.py:11-13 | The loop keeps the agent and a memory manager carrying the recording prompt. |
| ReActLoop.ReAct.Solve | src/agents/react.py:15-39 | The answer and final transcript are those of `ReActRun`: a budget check and compaction before every invoke, then the feedback step. |
| Config.Step | src/config/parser.py:13-16 | One key step follows Python's `value and key in value`. A falsy value gives the default. A dict with the key gives its value, and one without it gives the default. A list or string that contains the key raises, as does a truthy number or bool. |
| Config.ConfigParser.constructor | src/config/parser.py:6-8 | The parser holds the given document. |
| Config.ConfigParser.Get | src/config/parser.py:10-17 | The loop's outcome is `Lookup` of the keys. No keys returns the whole document. A result other than the default is the value the key path reaches. The document is not modified. |
| Config.LookupNestedPath | src/config/parser.py:12-14 | A path of keys all present through dicts returns the nested value. |
| Config.LookupFallsBack | src/config/parser.py:15-16 | A falsy document, or a dict missing the first key, returns the default. |
| Config.FalsyIntermediateFallsBack | src/config/parser.py:13-17 | A falsy value reached before the last key returns the default. |
| Config.LookupThroughScalarRaises | src/config/parser.py:13 | Looking a key up in a truthy number or bool raises, because `in` needs an iterable. |
| Config.PrefixWalkStops | src/base/config.py:11-18 | Once the walk stops before the end of the path, the remaining keys change nothing. |
| Files.ReadText | src/tools/text/read_file.py:6-13 | Reading succeeds exactly on a file and returns its text. |
| Files.WriteFile | src/tools/text/write_file.py:5-14 | The path now holds the new text, which reads back. No other path changes. The returned diff is the differ applied to the path, the old text and the new text. |
| Files.WriteFileWellFormed | src/tools/text/write_file.py:7 | Rewriting an existing file keeps the directory tree well formed. |
| Files.ParentOfChild | src/tools/text/view_dir.py:9-14 | The parent of an entry's path is its directory, and its name is the entry name. |
| Files.ParentOf | src/tools/text/edit_tool.py:52 | A path without "/" has parent "."; a path whose only "/" comes first has parent "/". |
| Files.LastSlash | src/tools/text/edit_tool.py:52 | Finds the last "/" of the path, or none when it has no "/". |
| Files.FirstPresent | src/tools/plan/todo_tool.py:68 | The walk up from a path stops at the nearest existing path, or at a root; the stop is the path or one of its ancestors. |
| Files.AddEntry | src/tools/plan/todo_tool.py:96 | A new name is listed in its directory, after the existing entries; no path is added or removed and nothing else changes. |
| Files.MakeDirs | src/tools/plan/todo_tool.py:68 | `os.makedirs(dir, exist_ok=True)`: afterwards `dir` is a directory. An existing directory changes nothing and an existing file raises "[Errno 17] File exists". It raises exactly when the nearest existing path is a file, naming with "[Errno 20] Not a directory" the path just below that file. |
| Files.MakeDirsGrows | src/tools/plan/todo_tool.py:68 | What existed stays, files unchanged and directories keeping their entries; every new path is a directory at or above `dir`. |
| Files.MakeDirsWellFormed | src/tools/plan/todo_tool.py:68 | Every new directory is listed in its parent, so a well-formed tree stays well formed. |
| Files.FirstPresentIsFile | src/tools/plan/todo_tool.py:68 | In a well-formed tree the nearest existing path is a file exactly when the path or one of its ancestors is a file, so `MakeDirs` raises exactly then. |
| Files.AncestorsAreDirs | src/tools/plan/todo_tool.py:68 | In a well-formed tree everything above an existing path is a directory. |
| Files.AddEntryWellFormed | src/tools/plan/todo_tool.py:96 | Listing a name in a directory keeps the tree well formed. |
| Files.WriteText | src/tools/plan/todo_tool.py:96 | `open(path, "w")` and a write: succeeds exactly on a file, or on a new path in an existing directory. The text then reads back, only the path is added, it is listed in its directory, and nothing else changes. A directory raises "[Errno 21] Is a directory"; a new path raises "[Errno 20] Not a directory" under a file and "[Errno 2] No such file or directory" otherwise. |
| Files.WriteTextWellFormed | src/tools/plan/todo_tool.py:96 | A successful write keeps the tree well formed. |
| Files.WriteTextTwice | src/tools/plan/todo_tool.py:96-98 | Writing a path twice leaves what the second write alone leaves. |
| Files.MakeParents | src/tools/text/edit_tool.py:52 | `Path.mkdir(parents=True, exist_ok=True)` makes the same directories as `os.makedirs`, and fails in the same cases, but the error names the requested directory: "File exists" when it is a file, "Not a directory" when a file lies above it. |
| TextView.ClampStart | src/tools/text/read_file.py:16 | The start is at least 1 and at least the requested start, and is unchanged when already ≥ 1. |
| TextView.ClampEnd | src/tools/text/read_file.py:17 | -1 means the last line. Any other value is capped at the line count. |
| TextView.Entries | src/tools/text/read_file.py:19-21 | One rendered "k: text" line per position of the window, and none when start > end. |
| TextView.NumberLines | src/tools/text/read_file.py:19-22 | The loop's accumulated text is the numbered window lines, each ending with a newline. |
| TextView.ReadFile | src/tools/text/read_file.py:5-34 | Returns exactly on a file, and then returns the rendering `RenderFile` describes. |
| TextView.ReadFileShowsWindow | src/tools/text/read_file.py:15-34 | Inside the `<file path=…>` wrapper, the rendering splits into exactly the window's lines: the head note when start > 1, the numbered lines from start to end, and the tail note when end < N. |
| TextView.WindowHasNoBreaks | src/tools/text/read_file.py:19-32 | Every rendered line, note or numbered line, is a single line. |
| TextView.ReadWholeFile | src/tools/text/read_file.py:5 | With the default start and end, every line is shown numbered and no note is added. |
| TextView.TreeLines | src/tools/text/view_dir.py:11-16 | One tree line per directory entry, in iteration order. Each line is the branch, the entry name, and a "/" when the entry's path as `iterdir` yields it (`Files.Child`: the bare name in ".", "/name" in the root) is a directory. |
| TextView.TreeLineMark | src/tools/text/view_dir.py:13-15 | A tree line ends with "/" exactly when the entry's own path is a directory. |
| TextView.ListingMarksTopLevelDirs | src/tools/text/view_dir.py:9-15 | A sub-directory of "." or of "/" is listed with its "/" mark. |
| TextView.ViewDirectory | src/tools/text/view_dir.py:4-18 | A non-directory raises. Otherwise the loop builds the listing `DirectoryListing` describes. |
| TextView.TreeLineShape | src/tools/text/view_dir.py:11-16 | A tree line starts with its branch, and has no line break when the entry name has none. |
| TextView.DirectoryListingLines | src/tools/text/view_dir.py:8-18 | The listing body splits into exactly one tree line per entry. The last line starts "└─ " and the others "├─ ". Line i ends with "/" exactly when entry i's path is a directory. An empty directory gives an empty body. |
| TextView.StrArg | src/tools/text/view_tool.py:33-36 | A string keyword argument binds exactly when present as a string. Otherwise a missing-argument error is raised. |
| TextView.RequiredIntArg | src/tools/text/edit_tool.py:70-73 | An integer keyword argument binds exactly when present as a number. Otherwise a missing-argument error is raised. |
| TextView.ViewBody | src/tools/text/view_tool.py:33-45 | Viewing never changes the file system. A directory returns its listing, with every sub-directory marked "/" (also in "." and "/"). A file returns its rendering with start 1 and end -1 by default. Every returned result is successful. |
| TextView.ViewTool | src/tools/text/view_tool.py:10-31 | The tool is registered as "view". Its parameters are the `model_json_schema()` of `ViewArgs`: "path" is a required string; "start_line" and "end_line" are integers with defaults 1 and -1; each field has its title and description. |
| TextEdit.InsertionPoint | src/tools/text/insert_file.py:16-17 | -1 becomes line count + 1, which appends. Other values are kept. |
| TextEdit.Inserted | src/tools/text/insert_file.py:24 | One more line. The new text is line k, earlier lines are unchanged, and lines k.. shift down by one. |
| TextEdit.InsertedContent | src/tools/text/insert_file.py:11-25 | Raises exactly when the point is outside [1, N+1], with "insert_line must be in range [1, N+1], but got k". Otherwise it is the inserted lines joined by "\n". |
| TextEdit.InsertFile | src/tools/text/insert_file.py:6-31 | A failure leaves the file system unchanged. On success the path was a file, now holds the inserted content, and the diff is that of old against new. |
| TextEdit.InsertReadsBack | src/tools/text/insert_file.py:14-25 | Splitting the written file gives back exactly the inserted line sequence. |
| TextEdit.InsertDefaultAppends | src/tools/text/insert_file.py:16-17 | With -1 the text is appended after the last line. |
| TextEdit.ReplacedAsWrittenShape | src/tools/text/replace_file.py:19-32 | The written text is always prefix + "\n" + new + "\n" + suffix. The prefix is the lines before `start_line` and the suffix the lines after `end_line`, after clamping. |
| TextEdit.ReplaceInteriorReadsBack | src/tools/text/replace_file.py:15-32 | For a range strictly inside the file, splitting the written text gives the kept lines, the new line and the kept lines. |
| TextEdit.ReplaceFromFirstLineAddsBlankLine | src/tools/text/replace_file.py:19-32 | Replacing from line 1 writes a text that starts with "\n", so an empty first line appears. |
| TextEdit.ReplaceFirstLineExample | src/tools/text/replace_file.py:26-32 | Replacing line 1 of "a\nb" with "x" writes "\nx\nb", which splits as ["", "x", "b"]. |
| TextEdit.ReplaceReadsBack | src/tools/text/replace_file.py:15-32 | The corrected splice reads back as kept lines, new line, kept lines for every range, including one at either end of the file. |
| TextEdit.ReplaceFile | src/tools/text/replace_file.py:6-37 | Returns exactly on a file. A failure changes nothing. On success the path holds the corrected splice, and the diff is that of old against new. |
| TextEdit.MakeEmptyFile | src/tools/text/edit_tool.py:52-53 | Fails exactly when the parent or a directory above it is a file (or the path is a root), naming the parent. Otherwise the missing directories above the path are made and an empty file is created and listed in its directory. What existed stays, every new path other than the file is a directory above it, and a well-formed tree stays well formed. |
| TextEdit.TouchAfterMakeDirs | src/tools/text/edit_tool.py:52-53 | Once its directories are made, a new path can be created, only it and those directories are new, and well-formedness is kept. |
| TextEdit.CreateBody | src/tools/text/edit_tool.py:43-58 | An existing path gives "File <path> already exists." and writes nothing. A new path under directories and missing paths gets its directories and the text, the result is successful with the diff against "", and the tree stays well formed. A file above the path raises the mkdir error and changes nothing. |
| TextEdit.CreateNewFile | src/tools/text/edit_tool.py:52-58 | Creating a new path with no file above it succeeds. The text reads back, only directories above the path are new besides it, and a well-formed tree stays well formed. |
| TextEdit.CreateExistingFails | src/tools/text/edit_tool.py:44-50 | Through `execute`, creating an existing path fails with that error and leaves the file system alone. |
| TextEdit.InsertBody | src/tools/text/edit_tool.py:70-78 | Forwards path, text and `insert_line` to `insert_file`. Every returned result is successful. |
| TextEdit.InsertOutOfRangeFails | src/tools/text/insert_file.py:19-22 | Through `execute`, an out-of-range line fails with the range error and changes nothing. |
| TextEdit.ReplaceBody | src/tools/text/edit_tool.py:90-98 | Passes three arguments to the four-parameter `replace_file`, so it always raises and changes nothing. |
| TextEdit.ReplaceToolAlwaysFails | src/tools/text/edit_tool.py:90-98 | Every call to the replace tool fails and leaves the file system unchanged. |
| TextEdit.CreateFileTool | src/tools/text/edit_tool.py:11-41 | The tool is registered as "create_file". Its parameters are the schema of `CreateFileArgs`: "file_path" and "file_text" are required strings, with their titles and descriptions. |
| TextEdit.InsertFileTool | src/tools/text/edit_tool.py:16-21 | The tool is registered as "insert_file". Its parameters are the schema of `InsertFileArgs`: the required string "file_path", integer "insert_line" and string "file_text". |
| TextEdit.ReplaceFileTool | src/tools/text/edit_tool.py:24-31 | The tool is registered as "replace_file". Its parameters are the schema of `ReplaceFileArgs`: the required strings "file_path", "old_content" and "new_content". |
| Strings.SplitJoin | src/tools/text/insert_file.py:14-25 | `splitlines` undoes `"\n".join` when no element holds a break and the last one is non-empty. |
| Strings.Strip | src/tools/bash/bash_terminal.py:70 | The result has no whitespace at either end. An already stripped text is unchanged. |
| Strings.IndexOf | src/tools/bash/bash_terminal.py:104-105 | Gives the first position where the pattern occurs, or None when it does not occur. |
| Strings.PrefixBeforeFirstOccurrence | src/tools/bash/bash_terminal.py:104-105 | The text before the first delimiter is a prefix of the output and does not contain the delimiter. |
| Strings.PyIndex | src/llms/agent.py:128 | Python's slice-bound normalisation of a possibly negative index. |
| Strings.ListReprQuotesEach | src/tools/executor.py:56 | Every element's `repr` appears in the list's `str`. |
| Strings.ReprQuote | src/tools/bash/bash_terminal.py:115-121 | `repr` quotes with `'` or `"`, and uses a quote the text contains only when the text holds both. |
| Strings.Repr | src/tools/bash/bash_terminal.py:115-121 | `repr` of a string starts and ends with the chosen quote. |
| Strings.HexValue | src/tools/bash/bash_terminal.py:115-121 | A lower-case hex digit's value is below 16 and is the digit's position in "0123456789abcdef". |
| Strings.UnescapeChar | src/tools/bash/bash_terminal.py:115-121 | Every character's escape reads back as that character. |
| Strings.EscapeRoundTrip | src/tools/bash/bash_terminal.py:115-121 | The escaped text between the quotes reads back as the original text. |
| Strings.ReprReadsBack | src/tools/bash/bash_terminal.py:115-121 | A `repr` is a literal: it is enclosed in two equal quotes whose inside reads back as the text. |
| Strings.ReprInjective | src/tools/executor.py:56 | Different texts have different reprs. |
| Strings.ReprPlain | src/tools/executor.py:56 | Text without quotes, backslashes or control characters is only wrapped in `'`. |
| Strings.IntToString | src/tools/text/read_file.py:21 | A decimal rendering without breaks, starting with "-" exactly for negatives. |
| Shell.Frame | src/tools/bash/bash_terminal.py:69-74 | The framed command starts with the stripped command, gets ";" only when missing, and ends with the echo of the delimiter. |
| Shell.FrameIgnoresSurroundingSpace | src/tools/bash/bash_terminal.py:70 | Whitespace around the command does not change the frame. |
| Shell.StderrStopsBeforeDelimiter | src/tools/bash/bash_terminal.py:101-102 | The first poll that sees stderr ends the loop, with stdout returned uncut. |
| Shell.NoStderrMeansDelimiterCut | src/tools/bash/bash_terminal.py:104-106 | A loop that ends on the delimiter with no stderr returns the text before the delimiter's first occurrence. |
| Shell.TimeoutReportsNoError | src/tools/bash/bash_terminal.py:108-110 | As written, a timeout with no stderr leaves stderr empty. |
| Shell.RereadBufferDuplicatesOutput | src/tools/bash/bash_terminal.py:95-99 | As written, re-reading the unconsumed buffer reports "aab" where "ab" was emitted. |
| Shell.ConsumingPollReportsEmitted | src/tools/bash/bash_terminal.py:92-110 | A poll loop that consumes what it reads reports a prefix of what was emitted. Success means the delimiter followed the output, and a timeout always sets a non-empty stderr. |
| Shell.ShellProcess.constructor | src/tools/bash/bash_terminal.py:20-28 | A fresh process is running, in the given cwd, with empty input and buffers. |
| Shell.ShellProcess.Terminate | src/tools/bash/bash_terminal.py:57-67 | The process stops running. Its input and buffers are kept. |
| Shell.BashTerminal.constructor | src/tools/bash/bash_terminal.py:7-18 | The terminal holds its cwd and delimiter, and no process. |
| Shell.BashTerminal.Start | src/tools/bash/bash_terminal.py:44-51 | Does nothing when a process exists. Otherwise a fresh running process is spawned. |
| Shell.BashTerminal.Stop | src/tools/bash/bash_terminal.py:53-67 | The process handle is always cleared, and a process that existed is terminated. |
| Shell.BashTerminal.Collect | src/tools/bash/bash_terminal.py:92-110 | The polling loop's stdout and stderr are those `Poll` gives for the buffers as they were. The process's input and running state are untouched. |
| Shell.BashTerminal.Run | src/tools/bash/bash_terminal.py:82-121 | Starts lazily. The framed command is written to the process. The report is the str(dict) of the caller's command with the poll loop's stdout and stderr, each written as its `repr`. Both buffers are cleared. |
| Shell.ReportText | src/tools/bash/bash_terminal.py:115-121 | The report string is longer than two characters. |
| Shell.UnpackPair | src/tools/bash/bash_tool.py:34 | Unpacking a string into two names succeeds exactly when it has two characters. |
| Shell.ReportNeverUnpacks | src/tools/bash/bash_tool.py:34 | Unpacking the terminal's report always raises "too many values to unpack (expected 2)". |
| Shell.BashTool.constructor | src/tools/bash/bash_tool.py:17-23 | The tool owns a fresh terminal with no process. |
| Shell.BashTool.Close | src/tools/bash/bash_tool.py:25-27 | Closing stops the owned terminal: its handle is cleared and a process that existed no longer runs. |
| Shell.BashTool.ExecuteBody | src/tools/bash/bash_tool.py:30-40 | `restart` stops the terminal first. The command is written to a running process, and the unpacking always raises "too many values to unpack (expected 2)". |
| Shell.BashTool.Execute | src/tools/bash/bash_tool.py:29-40 | The result carries the call's id and never succeeds. A bad parse is a validation error. Otherwise `restart` stops the terminal first, the command runs, and the unpacking error is reported. |
| Shell.BashResult | src/tools/bash/bash_tool.py:36-40 | Corrected: success exactly when stderr is empty, with the output and error copied. |
| Shell.CorrectedBashSuccess | src/tools/bash/bash_tool.py:29-40 | With the corrected poll and result, a successful bash call's output is a prefix of what the shell emitted. |
| Todos.ParseStatus | src/tools/plan/todo.py:41-55 | Exactly the four values name a status, and each names the status whose value it is. |
| Todos.StatusRoundTrip | src/tools/plan/todo.py:41-55 | Every status is found again from its value. |
| Todos.ParsePriority | src/tools/plan/todo.py:58-70 | Exactly the three values name a priority, and each names the priority whose value it is. |
| Todos.PriorityRoundTrip | src/tools/plan/todo.py:58-70 | Every priority is found again from its value. |
| Todos.NewTodo | src/tools/plan/todo.py:80-103 | A default item has a fresh id, status pending, priority medium, and empty context and progress. |
| Todos.StrField | src/tools/plan/todo.py:90-98 | An absent string field takes its default. A present one must be a string and is taken as is. |
| Todos.StatusField | src/tools/plan/todo.py:85-88 | An absent status is pending. |
| Todos.PriorityField | src/tools/plan/todo.py:100-103 | An absent priority is medium. |
| Todos.TodoFromJson | src/tools/plan/todo.py:73-111 | Only a dict validates, and an empty dict gives the default item. |
| Todos.TodoRoundTrip | src/tools/plan/todo.py:105-111 | Validating a dumped item, with enum values, gives the item back. Its own id wins over a fresh one. |
| Todos.TodosToJson | src/tools/plan/todo_tool.py:97-98 | The dumped list has one dict per item, in order. |
| Todos.ItemsFromJson | src/tools/plan/todo_tool.py:84-88 | A validated list has one item per dict. |
| Todos.TodosFromJson | src/tools/plan/todo_tool.py:25-32 | Anything but a list fails list validation. |
| Todos.ItemsRoundTrip | src/tools/plan/todo_tool.py:84-98 | Validating the dumped items gives the items back, from any position of the id factory. |
| Todos.TodosRoundTrip | src/tools/plan/todo_tool.py:84-98 | Validating a dumped list gives the list back. |
| TodoTools.PathJoin | src/tools/plan/todo_tool.py:67 | `os.path.join`: an absolute second part wins. Otherwise the result starts with the first part and ends with the second. |
| TodoTools.BaseDir | src/tools/plan/todo_tool.py:62-67 | An absolute base path is the base directory. With an absolute cwd the base directory is absolute. |
| TodoTools.TodoFileUnderBaseDir | src/tools/plan/todo_tool.py:70-72 | With an absolute cwd the storage path is absolute. For a relative session id and a base directory without a trailing "/", it is `base_dir/<session_id>.json`. |
| TodoTools.IterateStored | src/tools/plan/todo_tool.py:84-88 | Iterating the decoded JSON: a list validates as todos. A dict or string iterates its keys or characters, so only an empty one succeeds. null, a bool or a number is not iterable. |
| TodoTools.StoredTodos | src/tools/plan/todo_tool.py:74-88 | A missing file or a whitespace-only file reads as []. A directory raises. |
| TodoTools.WrittenStore | src/tools/plan/todo_tool.py:90-98 | A path that cannot be opened for writing raises `open`'s error and changes nothing; a directory raises "Is a directory". A list writes its serialisation, a new file being listed in its directory. None creates or empties the file and raises "'NoneType' object is not iterable". |
| TodoTools.WrittenStoreWellFormed | src/tools/plan/todo_tool.py:90-98 | Writing the list keeps the directory tree well formed. |
| TodoTools.WriteThenRead | src/tools/plan/todo_tool.py:74-98 | Reading after a write returns the list that was written. |
| TodoTools.NullWriteClearsList | src/tools/plan/todo_tool.py:90-98 | Writing None fails, yet leaves an empty file that reads as []. |
| TodoTools.WriteReplacesWholeList | src/tools/plan/todo_tool.py:90-98 | A write replaces the whole stored list: the earlier write leaves no trace. |
| TodoTools.ParseArgs | src/tools/plan/todo_tool.py:25-32 | Only a dict with `command` validates. `{"command": "write_todo"}` gets the default empty `todos`. |
| TodoTools.TodoTool.constructor | src/tools/plan/todo_tool.py:52-55 | The attributes `__init__` sets: the session, the base directory and the storage path. |
| TodoTools.TodoTool.Create | src/tools/plan/todo_tool.py:40-68 | `TodoTool(...)` runs `os.makedirs` on the base directory: when that raises, no tool is made and the error is returned; otherwise the directories are made and a fresh tool holds the session, base directory and storage path. The tree stays well formed. |
| TodoTools.TodoTool.ReadTodoList | src/tools/plan/todo_tool.py:74-88 | The read is `StoredTodos` of the storage path. |
| TodoTools.TodoTool.WriteTodoList | src/tools/plan/todo_tool.py:90-98 | The file system and outcome are `WrittenStore` of the storage path, and the tree stays well formed. |
| TodoTools.TodoTool.Execute | src/tools/plan/todo_tool.py:100-113 | The result carries the call's id. `read_todo` returns the serialised stored list, and `write_todo` replaces the list and reports "Todo list updated successfully". Failures surface as validation or execution errors. The tree stays well formed. |

`src/base/config.py:5-18` holds the same `get` as `src/config/parser.py:4-17`, differing only in how the document is loaded. The Config members above model both.

## Left out

- ReActLoop.ReActRun, ShortTermMemory.RunUntilAnswer: the source's `while True` loops are bounded by a `fuel` count of invocations, and running out of fuel is a distinct outcome. A model that never stops answering is not captured.
- Shell.PollFrom: the 120 s `asyncio.timeout` and the 0.2 s sleep between polls become the number of arrivals. A timeout is the arrivals running out.
- `Agent.fork` is called by `summarize` but is not defined in agent.py. The fork's kit is therefore a parameter of `Summarize` and `ReAct.Solve`, and the fork is a new agent holding a copy of the transcript.
- react.py and short_term_memory.py `await` the synchronous `Agent.invoke`. The model reads the call as the invocation it names.
- agent.py builds the older `ToolKit` registry while react.py and short_term_memory.py build the executor registry. Each is modelled from its own text: the agent answers calls through its kit, and the memory manager's registry is an executor.
- The `input()` prompts, `print_history`, logging and tracing are out of scope. Feedback lines are a parameter.
- Strings.SplitLines: splits on "\n" only, whereas Python's `splitlines` also splits on "\r", "\r\n" and other line boundaries.
- `expandtabs`, charset detection and encoding errors in reading and writing files are out of scope. Text is taken as is.
- `read_raw_file` is imported by insert_file.py and replace_file.py but is not defined in read_file.py. It is read as a plain read of the file's text (`Files.ReadText`).
- `difflib.unified_diff` is an uninterpreted `Differ` function.
- These are parameters or uninterpreted functions: JSON parsing, `num_tokens`, `json.dumps` of tool calls, the JSON text of the todo file, the uuid factory and the random delimiter. Pydantic validation is not among them: it is defined by the members on the next line.
- Todos.TodoFromJson / Todos.StrField / Todos.StatusField / Todos.PriorityField / Todos.TodosFromJson / TodoTools.ParseArgs: a failed validation gives the bare message of the first failing field (such as "Field required"). Pydantic's `str(ValidationError)` reports every failing field, under a header "N validation error(s) for <model>", each with its location and "[type=…, input_value=…, input_type=…]".
- JsonData.Json / JsonData.TypeName: JSON numbers are integers only. A float such as `1.5` is not modelled, so `TypeName` never gives "float".
- TodoTools.TodoTool.freshIds: the id factory is a fixed sequence read from position 0 at every validation, so items given without an id receive the same ids on every call. The source's `uuid4()` draws a new id each time.
- Tools.BindArgs / ToolKits.CallWithKeywords: the unexpected-keyword error does not name the keyword, because a JSON object is a map with no order and CPython names the first offending key in the dict's order. The `**` mapping error leaves out the module path that CPython puts before the function (for instance "src.tools.base.Tool._execute() argument after ** must be a mapping, not list"), since it depends on how the package is imported. `ToolKits.CallWithKeywords` leaves out the callback's name in front of that error as well.
- Executor.NewToolRegistry: `tools=None` is not modelled. In the source it always raises: `None.extend` fails when MCP tools are requested, and `ToolExecutor` fails iterating `None` otherwise. The model's tool list is a sequence, never `None`.
- The MCP servers (`MCPTools().list_tools()`, `mcp_specs`) are out of scope. Their tools and specs are input sequences.
- The LLM clients, their memoisation and the network are out of scope. The model is a function of the request.
- List aliasing is not captured, because lists are values in the model:
  - `ToolKit` stores the caller's list;
  - the registry's mutable default `tools=[]` is shared across calls and extended in place;
  - `set_system_prompt` mutates a dict the caller may also hold.
- Executor.ParallelToolCall: every call of a `parallel_tool_call` batch runs on the initial world, and the world changes the calls make are discarded, not merged. This is exact only for tools that change nothing.
- Executor.CloseTools: closes the tools one after another, in order, where the source gathers the `close` coroutines concurrently.
- The `Config` classes that read YAML or JSON files at import time (src/base/config.py:21-39, src/config/config.py) are out of scope. Only `get` is modelled.
- Process spawning details are out of scope: the PowerShell branch, `setsid`, the kill and communicate timeouts, and byte decoding of the output.
- TextEdit.ReplaceBody: the tool as written always fails. The source leaves open whether it was meant to replace a line range or a piece of text (the commented-out replace_file.py:40-69 did the latter), so no corrected tool is modelled.
- TextView.ViewTool, TextEdit.CreateFileTool, TextEdit.InsertFileTool, TextEdit.ReplaceFileTool: their contracts state the registered name and the parameter schema. The schema is written out for these four argument models, not generated from field declarations. JSON objects are maps, so the key order of the schema dicts is not modelled. Their behaviour is stated by the `*Body` functions and by the lemmas about `Execute` on them.
- TextView.DirectoryListingLines: entry names are taken to hold no "/" and no line break, as file names on POSIX systems do.
- ToolKits.ToolKit.ExecuteTool / Agents.InvokeAnswersEveryCall: a spec's callback is taken as a pure function from the arguments to a reply. The effects a callback has are not captured, among them the files the short-term memory fork records through its tools.
- Strings.Repr: every non-ASCII character counts as printable, so it is never escaped. Python escapes the non-printable ones (`\x..`, `\u....` or `\U........`).
- TextView.StrArg / TextView.RequiredIntArg: the missing-argument text leaves out the method's qualified name that Python 3.10+ puts in front (`ViewTool._execute() missing …`), and names only the first missing parameter when several are missing.
- Files.ParentOf: paths are not normalised as `pathlib.Path` does (collapsing "//", dropping "." components and a trailing "/"), so `str(Path(p))` is taken to be `p`.
- TextEdit.InsertFileTool: its description says the content goes after the given line number, but `insert_file` makes the content line number `insert_line`, before the line that held that number. The model follows the code.
- Files.WriteFile: a path that is not yet a file is stored without being listed in its directory. Every caller writes to a file it has just read or created.
- Executor.SequentialToolCall: its own contract states only the length. Order and ids are stated by SequentialRunsInOrder and SequentialKeepsIds.

## Findings

| source | as written | input that shows it | evidently intended | confidence | as-written member | corrected member |
|---|---|---|---|---|---|---|
| src/tools/text/replace_file.py:26-32 | joins prefix, new text and suffix with "\n" even when the prefix is empty | replacing line 1 of "a\nb" with "x" writes "\nx\nb", whose first line is empty | the kept lines, the new text and the kept lines joined once, giving "x\nb" | not executed | TextEdit.ReplaceFirstLineExample | TextEdit.ReplaceReadsBack |
| src/tools/bash/bash_tool.py:34 | unpacks the string `run` returns into `output, stderr` | any command: the report "{'command': …}" has more than two characters, so every call fails with "too many values to unpack" | take stdout and stderr from the run and succeed exactly when stderr is empty | not executed | Shell.ReportNeverUnpacks | Shell.CorrectedBashSuccess |
| src/tools/bash/bash_terminal.py:95-99 | appends the whole stream buffer at every poll without consuming it | stdout arriving as "a" then "bD\n" with delimiter "D" reports "aab" | each poll adds only the newly arrived text, so the report is "ab" | not executed | Shell.RereadBufferDuplicatesOutput | Shell.ConsumingPollReportsEmitted |
| src/tools/bash/bash_terminal.py:108-110 | on a timeout sets stderr to `f"{e}"`, and `str(TimeoutError())` is "" | a command that prints nothing until the poll budget is spent reports stderr "", which reads as success | a timeout reported as an error | not executed | Shell.TimeoutReportsNoError | Shell.ConsumingPollReportsEmitted |

=== FILE: agent.dfy ===
/**
 * The conversational agent: a transcript of messages that the agent
 * appends to, inserts into and truncates, a chat model consulted on the
 * transcript, and the tool kit whose tools answer the model's calls.
 */
module Agents {
  import opened Wrappers
  import opened Strings
  import opened JsonData
  import ToolKits

  /** A tool call as the model emits it: `{id, type, function: {name, arguments}}`. */
  datatype ModelCall = ModelCall(id: string, kind: string, name: string, arguments: string)

  /**
   * A transcript entry. The source keeps entries as dicts whose keys depend
   * on the role; an absent key is `None` here, and `toolCalls` is empty
   * exactly when the dict has no `tool_calls` key.
   */
  datatype Message = Message(
    role: string,
    content: Option<string>,
    reasoning: Option<string>,
    toolCalls: seq<ModelCall>,
    toolCallId: Option<string>)

  /** The first choice of a chat completion. */
  datatype Response = Response(reasoning: Option<string>, content: Option<string>, toolCalls: seq<ModelCall>)

  /**
   * The chat model's reply to a transcript and the tool schemas offered.
   * The client memoises requests, so the same request gets the same reply.
   */
  type LanguageModel = (seq<Message>, seq<Json>) -> Response

  /** `num_tokens`, and `json.dumps` of a message's tool calls. */
  datatype Tokenizer = Tokenizer(count: string -> nat, dumpCalls: seq<ModelCall> -> string)

  function SystemMessage(prompt: string): Message
  {
    Message("system", Some(prompt), None, [], None)
  }

  function UserMessage(input: string): Message
  {
    Message("user", Some(input), None, [], None)
  }

  /** The assistant entry `invoke` records: reasoning, content and, when there are any, the tool calls. */
  function AssistantMessage(r: Response): Message
  {
    Message("assistant", r.content, r.reasoning, r.toolCalls, None)
  }

  /** The tool entry answering `call` with the tool kit's text. */
  function ToolMessage(call: ModelCall, result: string): Message
  {
    Message("tool", Some(result), None, [], Some(call.id))
  }

  /** Python truthiness of an optional string: present and non-empty. */
  predicate Filled(s: Option<string>)
  {
    s.Some? && s.value != ""
  }

  /** What one message adds to `calc_token_nums`. */
  function MessageTokens(m: Message, tk: Tokenizer): nat
  {
    (if Filled(m.reasoning) then tk.count(m.reasoning.value) else 0) +
    (if Filled(m.content) then tk.count(m.content.value) else 0) +
    (if m.toolCalls != [] then tk.count(tk.dumpCalls(m.toolCalls)) else 0)
  }

  /** The token count of a transcript: the sum over its messages. */
  function TranscriptTokens(ms: seq<Message>, tk: Tokenizer): nat
  {
    if ms == [] then 0 else TranscriptTokens(ms[..|ms| - 1], tk) + MessageTokens(ms[|ms| - 1], tk)
  }

  /** The count is additive over concatenation. */
  lemma {:induction false} TranscriptTokensAppend(a: seq<Message>, b: seq<Message>, tk: Tokenizer)
    ensures TranscriptTokens(a + b, tk) == TranscriptTokens(a, tk) + TranscriptTokens(b, tk)
    decreases |b|
  {
    if b != [] {
      assert (a + b)[..|a + b| - 1] == a + b[..|b| - 1];
      assert (a + b)[|a + b| - 1] == b[|b| - 1];
      TranscriptTokensAppend(a, b[..|b| - 1], tk);
    } else {
      assert a + b == a;
    }
  }

  /** A message with no reasoning, content or tool calls adds nothing to the count. */
  lemma BareMessageCostsNothing(ms: seq<Message>, m: Message, tk: Tokenizer)
    requires !Filled(m.reasoning) && !Filled(m.content) && m.toolCalls == []
    ensures TranscriptTokens(ms + [m], tk) == TranscriptTokens(ms, tk)
  {
    assert (ms + [m])[..|ms + [m]| - 1] == ms;
    assert (ms + [m])[|ms + [m]| - 1] == m;
    assert MessageTokens(m, tk) == 0;
  }

  /** Appending messages never lowers the count. */
  lemma TokensGrowWithTranscript(a: seq<Message>, b: seq<Message>, tk: Tokenizer)
    ensures TranscriptTokens(a, tk) <= TranscriptTokens(a + b, tk)
  {
    TranscriptTokensAppend(a, b, tk);
  }

  /** `set_system_prompt` on a transcript. */
  function WithSystemPrompt(ms: seq<Message>, prompt: string): (r: seq<Message>)
    ensures r != [] && r[0].role == "system" && r[0].content == Some(prompt)
    ensures ms != [] && ms[0].role == "system" ==> |r| == |ms| && r[1..] == ms[1..]
    ensures ms != [] && ms[0].role == "system" ==> r[0] == ms[0].(content := Some(prompt))
    ensures ms == [] || ms[0].role != "system" ==> |r| == |ms| + 1 && r[1..] == ms && r[0] == SystemMessage(prompt)
  {
    if ms != [] && ms[0].role == "system" then ms[0 := ms[0].(content := Some(prompt))]
    else [SystemMessage(prompt)] + ms
  }

  /** Setting the prompt twice is setting it once, to the second prompt. */
  lemma SystemPromptLastWins(ms: seq<Message>, p: string, q: string)
    ensures WithSystemPrompt(WithSystemPrompt(ms, p), q) == WithSystemPrompt(ms, q)
  {
    var once := WithSystemPrompt(ms, p);
    assert once[0].role == "system";
    if ms != [] && ms[0].role == "system" {
      assert WithSystemPrompt(once, q) == ms[0 := ms[0].(content := Some(q))];
    } else {
      assert WithSystemPrompt(once, q) == [SystemMessage(q)] + ms;
    }
  }

  /** `self.messages[:-k]`: the last `k` messages dropped, and nothing kept for `k == 0`. */
  function WithoutLast(ms: seq<Message>, k: int): (r: seq<Message>)
    ensures 1 <= k <= |ms| ==> r == ms[..|ms| - k]
    ensures k >= |ms| ==> r == []
    ensures k == 0 ==> r == []
    ensures k < 0 ==> r == ms[..if -k <= |ms| then -k else |ms|]
  {
    SliceTo(ms, -k)
  }

  /** The tool entries `invoke` appends for `calls`, one per call in order, each answered by a kit holding `specs`. */
  function ToolMessages(specs: seq<ToolKits.ToolSpec>, calls: seq<ModelCall>): (r: seq<Message>)
    ensures |r| == |calls|
    ensures forall i :: 0 <= i < |calls| ==>
      r[i] == ToolMessage(calls[i], ToolKits.AnswerCall(specs, ToolKits.ToolCall(calls[i].name, calls[i].arguments)))
  {
    seq(|calls|, i requires 0 <= i < |calls| =>
      ToolMessage(calls[i], ToolKits.AnswerCall(specs, ToolKits.ToolCall(calls[i].name, calls[i].arguments))))
  }

  /** Answering one more call appends its tool entry after those already recorded. */
  lemma ToolMessagesStep(head: seq<Message>, specs: seq<ToolKits.ToolSpec>, calls: seq<ModelCall>, i: nat)
    requires i < |calls|
    ensures head + ToolMessages(specs, calls[..i]) +
      [ToolMessage(calls[i], ToolKits.AnswerCall(specs, ToolKits.ToolCall(calls[i].name, calls[i].arguments)))] ==
      head + ToolMessages(specs, calls[..i + 1])
  {
    var m := ToolMessage(calls[i], ToolKits.AnswerCall(specs, ToolKits.ToolCall(calls[i].name, calls[i].arguments)));
    var before := ToolMessages(specs, calls[..i]);
    var after := ToolMessages(specs, calls[..i + 1]);
    assert after == before + [m] by {
      assert |after| == |before| + 1;
      forall j | 0 <= j < |after|
        ensures after[j] == (before + [m])[j]
      {
        assert calls[..i + 1][j] == calls[j];
      }
    }
    assert head + before + [m] == head + (before + [m]);
  }

  /** The transcript `invoke` sends: the input, when there is one, as a new user message. */
  function Asked(ms: seq<Message>, input: Option<string>): (r: seq<Message>)
    ensures Filled(input) ==> r == ms + [UserMessage(input.value)]
    ensures !Filled(input) ==> r == ms
  {
    if Filled(input) then ms + [UserMessage(input.value)] else ms
  }

  /** The transcript after `invoke` received `reply` to `asked`, its tool calls answered by a kit holding `specs`. */
  function Answered(specs: seq<ToolKits.ToolSpec>, asked: seq<Message>, reply: Response): seq<Message>
  {
    asked + [AssistantMessage(reply)] + ToolMessages(specs, reply.toolCalls)
  }

  class Agent {
    var messages: seq<Message>
    const tools: ToolKits.ToolKit
    const llm: LanguageModel
    const tokenizer: Tokenizer

    ghost predicate Valid()
      reads tools
    {
      tools.Valid()
    }

    /**
     * `Agent(client, invoke, messages, tools)`: a missing or empty transcript
     * starts empty; without a tool kit the agent gets `ToolRegistry([])`,
     * which holds the tools the MCP server lists (`mcpSpecs`).
     */
    constructor (llm: LanguageModel, tokenizer: Tokenizer, messages: Option<seq<Message>>,
                 tools: ToolKits.ToolKit?, mcpSpecs: seq<ToolKits.ToolSpec>)
      requires tools != null ==> tools.Valid()
      ensures Valid()
      ensures this.llm == llm && this.tokenizer == tokenizer
      ensures this.messages == if messages.Some? then messages.value else []
      ensures tools != null ==> this.tools == tools
      ensures tools == null ==> fresh(this.tools) && this.tools.tools == ToolKits.FilterSpecs(mcpSpecs, [], [])
    {
      var kit: ToolKits.ToolKit;
      if tools != null {
        kit := tools;
      } else {
        kit := ToolKits.NewToolRegistry([], [], [], mcpSpecs);
        assert [] + mcpSpecs == mcpSpecs;
      }
      this.llm := llm;
      this.tokenizer := tokenizer;
      this.messages := if messages.Some? && messages.value != [] then messages.value else [];
      this.tools := kit;
    }

    /** `calc_token_nums`. */
    method CalcTokenNums() returns (n: nat)
      ensures n == TranscriptTokens(messages, tokenizer)
    {
      n := 0;
      for i := 0 to |messages|
        invariant n == TranscriptTokens(messages[..i], tokenizer)
      {
        assert messages[..i + 1][..i] == messages[..i];
        var m := messages[i];
        if Filled(m.reasoning) {
          n := n + tokenizer.count(m.reasoning.value);
        }
        if Filled(m.content) {
          n := n + tokenizer.count(m.content.value);
        }
        if m.toolCalls != [] {
          n := n + tokenizer.count(tokenizer.dumpCalls(m.toolCalls));
        }
      }
      assert messages[..|messages|] == messages;
    }

    /** `set_system_prompt`: overwrite the system head's content, or insert a system head. */
    method SetSystemPrompt(prompt: string)
      modifies this
      ensures messages == WithSystemPrompt(old(messages), prompt)
    {
      if messages != [] && messages[0].role == "system" {
        messages := messages[0 := messages[0].(content := Some(prompt))];
      } else {
        messages := [SystemMessage(prompt)] + messages;
      }
    }

    /** `append_user_message`. */
    method AppendUserMessage(input: string)
      modifies this
      ensures messages == old(messages) + [UserMessage(input)]
    {
      messages := messages + [UserMessage(input)];
    }

    /**
     * `invoke(input)`: add the input, ask the model, record its reply, then
     * run each tool call it made, in order, recording one tool entry per
     * call. The reply is returned.
     */
    method Invoke(input: Option<string>) returns (reply: Response)
      requires Valid()
      modifies this
      ensures reply == llm(Asked(old(messages), input), ToolKits.SpecSchemas(tools.tools))
      ensures messages == Answered(tools.tools, Asked(old(messages), input), reply)
    {
      if Filled(input) {
        AppendUserMessage(input.value);
      }
      ghost var asked := messages;
      ghost var specs := tools.tools;
      reply := llm(messages, tools.GetToolSchemas());
      messages := messages + [AssistantMessage(reply)];
      ghost var head := messages;
      var calls := reply.toolCalls;
      for i := 0 to |calls|
        invariant messages == head + ToolMessages(specs, calls[..i])
      {
        var result := tools.ExecuteTool(ToolKits.ToolCall(calls[i].name, calls[i].arguments));
        ToolMessagesStep(head, specs, calls, i);
        messages := messages + [ToolMessage(calls[i], result)];
      }
      assert calls[..|calls|] == calls;
    }

    /**
     * `clear_reasoning_content`: the loop asks each message for a
     * `reasoning_content` attribute, which a dict does not have, so no
     * message changes.
     */
    method ClearReasoningContent()
      modifies this
      ensures messages == old(messages)
    {
      for i := 0 to |messages|
        invariant messages == old(messages)
      {
      }
    }

    /** `remove_last_k_messages`. */
    method RemoveLastKMessages(k: int)
      modifies this
      ensures messages == WithoutLast(old(messages), k)
    {
      messages := SliceTo(messages, -k);
    }
  }

  /**
   * After an invocation the transcript keeps what was asked, then holds the
   * reply, then one tool entry per call of the reply, in the model's order,
   * each carrying the kit's answer to that call.
   */
  lemma InvokeAnswersEveryCall(specs: seq<ToolKits.ToolSpec>, asked: seq<Message>, reply: Response)
    ensures var r := Answered(specs, asked, reply);
      && |r| == |asked| + 1 + |reply.toolCalls|
      && r[..|asked|] == asked
      && r[|asked|] == AssistantMessage(reply)
      && forall i :: 0 <= i < |reply.toolCalls| ==>
           r[|asked| + 1 + i].role == "tool" && r[|asked| + 1 + i].toolCallId == Some(reply.toolCalls[i].id) &&
           r[|asked| + 1 + i].content ==
             Some(ToolKits.AnswerCall(specs, ToolKits.ToolCall(reply.toolCalls[i].name, reply.toolCalls[i].arguments)))
  {
    AppendedAround(asked, AssistantMessage(reply), ToolMessages(specs, reply.toolCalls));
  }

  /** Where the parts of `before + [m] + after` sit. */
  lemma AppendedAround(before: seq<Message>, m: Message, after: seq<Message>)
    ensures var r := before + [m] + after;
      |r| == |before| + 1 + |after| && r[..|before|] == before && r[|before|] == m &&
      forall i :: 0 <= i < |after| ==> r[|before| + 1 + i] == after[i]
  {
    var r := before + [m] + after;
    assert r[..|before|] == before;
    forall i | 0 <= i < |after|
      ensures r[|before| + 1 + i] == after[i]
    {
    }
  }

  /** An invocation's token growth is exactly that of the entries it adds. */
  lemma InvokeTokens(specs: seq<ToolKits.ToolSpec>, asked: seq<Message>, reply: Response, tk: Tokenizer)
    ensures TranscriptTokens(Answered(specs, asked, reply), tk) ==
      TranscriptTokens(asked, tk) + MessageTokens(AssistantMessage(reply), tk) +
      TranscriptTokens(ToolMessages(specs, reply.toolCalls), tk)
  {
    var one := [AssistantMessage(reply)];
    TranscriptTokensAppend(asked + one, ToolMessages(specs, reply.toolCalls), tk);
    TranscriptTokensAppend(asked, one, tk);
    assert one[..0] == [];
  }
}

=== FILE: bash.dfy ===
/**
 * The persistent shell: `BashTerminal` owns one shell process, frames each
 * command so that the shell echoes a delimiter after it, and polls the
 * process's output buffers until the delimiter or an error shows up; the
 * `bash` tool runs one command per call on its terminal.
 *
 * The shell itself is outside the model. What it writes is given to `Run`
 * as the text that arrives on stdout and stderr before each poll; the
 * number of polls before the deadline stands in for the output timeout.
 */
module Shell {
  import opened Wrappers
  import opened Strings
  import opened JsonData
  import opened Tools
  import opened TextView

  // ---------------------------------------------------------------------
  // Framing a command
  // ---------------------------------------------------------------------

  /** The line the shell runs after the command so that its end can be seen. */
  function EchoDelimiter(delimiter: string): string
  {
    " echo '" + delimiter + "'\n"
  }

  /** `_get_command`: strip, terminate with `;` unless already terminated, then echo the delimiter. */
  function Frame(cmd: string, delimiter: string): (f: string)
    ensures StartsWith(f, Strip(cmd))
    ensures EndsWith(f, ";" + EchoDelimiter(delimiter))
    ensures EndsWith(Strip(cmd), ";") ==> |f| == |Strip(cmd)| + |EchoDelimiter(delimiter)|
    ensures !EndsWith(Strip(cmd), ";") ==> |f| == |Strip(cmd)| + 1 + |EchoDelimiter(delimiter)|
  {
    var c := Strip(cmd);
    var c' := if !EndsWith(c, ";") then c + ";" else c;
    assert EndsWith(c', ";");
    c' + EchoDelimiter(delimiter)
  }

  /** Whitespace around a command does not change its framing. */
  lemma FrameIgnoresSurroundingSpace(cmd: string, delimiter: string)
    ensures Frame(cmd, delimiter) == Frame(Strip(cmd), delimiter)
  {
  }

  // ---------------------------------------------------------------------
  // The poll loop
  // ---------------------------------------------------------------------

  /** What reaches the process's stdout and stderr buffers during one sleep. */
  datatype Chunk = Chunk(out: string, err: string)

  /** How the poll loop ended: the text collected and whether the deadline passed. */
  datatype PollEnd = PollEnd(output: string, stderr: string, timedOut: bool)

  /** `str(e)` for the `TimeoutError` that `asyncio.timeout` raises: it has no message. */
  const TimeoutMessage := ""

  /**
   * The loop as written, from buffers `outBuf`/`errBuf` and the text
   * collected so far: after each sleep the WHOLE buffer is read again,
   * since reading `_buffer` does not consume it; stderr is checked before
   * the delimiter; running out of polls is the timeout.
   */
  function PollFrom(delimiter: string, outBuf: string, errBuf: string, output: string, stderr: string,
                    arrivals: seq<Chunk>): PollEnd
    decreases |arrivals|
  {
    if arrivals == [] then
      PollEnd(output, if stderr == "" then TimeoutMessage else stderr, true)
    else
      var ob := outBuf + arrivals[0].out;
      var eb := errBuf + arrivals[0].err;
      var o := output + ob;
      var e := stderr + eb;
      if e != "" then PollEnd(o, e, false)
      else if Contains(o, delimiter) then PollEnd(o[..IndexOf(o, delimiter).value], e, false)
      else PollFrom(delimiter, ob, eb, o, e, arrivals[1..])
  }

  /** A run's loop: nothing collected yet, the buffers as the process holds them. */
  function Poll(delimiter: string, outBuf: string, errBuf: string, arrivals: seq<Chunk>): PollEnd
  {
    PollFrom(delimiter, outBuf, errBuf, "", "", arrivals)
  }

  /** Stderr is checked first: once any has arrived, stdout is returned whole, delimiter and all. */
  lemma StderrStopsBeforeDelimiter(delimiter: string, outBuf: string, errBuf: string, arrivals: seq<Chunk>)
    requires arrivals != [] && errBuf + arrivals[0].err != ""
    ensures Poll(delimiter, outBuf, errBuf, arrivals) == PollEnd(outBuf + arrivals[0].out, errBuf + arrivals[0].err, false)
  {
    assert "" + (outBuf + arrivals[0].out) == outBuf + arrivals[0].out;
    assert "" + (errBuf + arrivals[0].err) == errBuf + arrivals[0].err;
  }

  /**
   * Without stderr the output never holds the delimiter: it is cut before
   * the first occurrence, or the loop timed out without seeing one.
   */
  lemma {:induction false} NoStderrMeansDelimiterCut(delimiter: string, outBuf: string, errBuf: string, output: string, stderr: string,
                                                   arrivals: seq<Chunk>)
    requires delimiter != "" && !Contains(output, delimiter)
    ensures var r := PollFrom(delimiter, outBuf, errBuf, output, stderr, arrivals);
      r.stderr == "" ==> !Contains(r.output, delimiter)
    decreases |arrivals|
  {
    if arrivals != [] {
      var ob := outBuf + arrivals[0].out;
      var eb := errBuf + arrivals[0].err;
      var o := output + ob;
      var e := stderr + eb;
      if e == "" {
        if Contains(o, delimiter) {
          PrefixBeforeFirstOccurrence(o, delimiter);
        } else {
          NoStderrMeansDelimiterCut(delimiter, ob, eb, o, e, arrivals[1..]);
        }
      }
    }
  }

  /**
   * A loop that reaches the deadline reports an empty stderr: every poll
   * before it saw none, and the timeout's text is empty.
   */
  lemma {:induction false} TimeoutReportsNoError(delimiter: string, outBuf: string, errBuf: string, output: string, stderr: string,
                                                arrivals: seq<Chunk>)
    requires stderr == ""
    ensures PollFrom(delimiter, outBuf, errBuf, output, stderr, arrivals).timedOut ==>
      PollFrom(delimiter, outBuf, errBuf, output, stderr, arrivals).stderr == ""
    decreases |arrivals|
  {
    if arrivals != [] {
      var ob := outBuf + arrivals[0].out;
      var eb := errBuf + arrivals[0].err;
      if stderr + eb == "" && !Contains(output + ob, delimiter) {
        TimeoutReportsNoError(delimiter, ob, eb, output + ob, stderr + eb, arrivals[1..]);
      }
    }
  }

  /** `a`, then `bD` with newline, on stdout with delimiter `D`: the run reports `aab`. */
  lemma RereadBufferDuplicatesOutput()
    ensures Poll("D", "", "", [Chunk("a", ""), Chunk("bD\n", "")]).output == "aab"
    ensures Emitted([Chunk("a", ""), Chunk("bD\n", "")]) == "abD\n"
  {
    var arrivals := [Chunk("a", ""), Chunk("bD\n", "")];
    FirstPollSeesNoDelimiter(arrivals);
    DelimiterFoundAt("aabD\n");
    assert PollFrom("D", "a", "", "a", "", arrivals[1..]) == PollEnd("aab", "", false) by {
      assert "a" + ("a" + "bD\n") == "aabD\n";
      assert "aabD\n"[..3] == "aab";
    }
    assert Emitted(arrivals) == "abD\n" by {
      assert arrivals[1..][1..] == [];
      assert Emitted(arrivals[1..]) == "bD\n" + "";
    }
  }

  lemma FirstPollSeesNoDelimiter(arrivals: seq<Chunk>)
    requires arrivals == [Chunk("a", ""), Chunk("bD\n", "")]
    ensures Poll("D", "", "", arrivals) == PollFrom("D", "a", "", "a", "", arrivals[1..])
  {
    assert !Contains("a", "D") by {
      assert "a"[0..1][0] == 'a';
      assert !OccursAt("a", "D", 0) && !OccursAt("a", "D", 1);
    }
    assert "" + "a" == "a";
  }

  lemma DelimiterFoundAt(o: string)
    requires o == "aabD\n"
    ensures IndexOf(o, "D") == Some(3)
  {
    assert o[3..4] == "D" && OccursAt(o, "D", 3);
    assert o[0..1] == "a" && o[1..2] == "a" && o[2..3] == "b";
    assert !OccursAt(o, "D", 0) && !OccursAt(o, "D", 1) && !OccursAt(o, "D", 2);
  }

  /** Everything the shell wrote to stdout over the polls, in order. */
  function Emitted(arrivals: seq<Chunk>): string
    decreases |arrivals|
  {
    if arrivals == [] then "" else arrivals[0].out + Emitted(arrivals[1..])
  }

  /** The message the corrected loop reports on timeout. */
  const TimeoutText := "TimeoutError"

  /**
   * The loop as intended: each poll takes only the text that arrived since
   * the last one (the buffer is consumed), and a timeout is reported with
   * a non-empty message.
   */
  function PollConsuming(delimiter: string, output: string, stderr: string, arrivals: seq<Chunk>): PollEnd
    decreases |arrivals|
  {
    if arrivals == [] then
      PollEnd(output, if stderr == "" then TimeoutText else stderr, true)
    else
      var o := output + arrivals[0].out;
      var e := stderr + arrivals[0].err;
      if e != "" then PollEnd(o, e, false)
      else if Contains(o, delimiter) then PollEnd(o[..IndexOf(o, delimiter).value], e, false)
      else PollConsuming(delimiter, o, e, arrivals[1..])
  }

  /**
   * The corrected loop collects exactly what the shell wrote: its output
   * is a prefix of that text; a run that ends without stderr and before the
   * deadline saw the command's own delimiter right after it; and a timeout
   * always reports an error.
   */
  lemma {:induction false} ConsumingPollReportsEmitted(delimiter: string, output: string, stderr: string, arrivals: seq<Chunk>)
    ensures var r := PollConsuming(delimiter, output, stderr, arrivals);
      StartsWith(output + Emitted(arrivals), r.output) &&
      (!r.timedOut && r.stderr == "" ==> StartsWith(output + Emitted(arrivals), r.output + delimiter)) &&
      (r.timedOut ==> r.stderr != "")
    decreases |arrivals|
  {
    if arrivals == [] {
      assert output + Emitted(arrivals) == output;
    } else {
      var o := output + arrivals[0].out;
      var e := stderr + arrivals[0].err;
      var all := output + Emitted(arrivals);
      assert all == o + Emitted(arrivals[1..]);
      if e != "" {
        assert all[..|o|] == o;
      } else if Contains(o, delimiter) {
        var k := IndexOf(o, delimiter).value;
        assert OccursAt(o, delimiter, k);
        assert all[..k + |delimiter|] == o[..k + |delimiter|];
        assert o[..k + |delimiter|] == o[..k] + delimiter;
      } else {
        ConsumingPollReportsEmitted(delimiter, o, e, arrivals[1..]);
      }
    }
  }

  // ---------------------------------------------------------------------
  // The terminal
  // ---------------------------------------------------------------------

  /** What `run` reports: the caller's command (not the framed one) and the collected text. */
  datatype Report = Report(command: string, stdout: string, stderr: string)

  /** `str({"command": ..., "stdout": ..., "stderr": ...})`: each value is written as its `repr`. */
  function ReportText(r: Report): (s: string)
    ensures |s| > 2
  {
    "{'command': " + Repr(r.command) + ", 'stdout': " + Repr(r.stdout) + ", 'stderr': " + Repr(r.stderr) + "}"
  }

  /** A shell process: what was written to its stdin and what sits in its output buffers. */
  class ShellProcess {
    const cwd: Option<string>
    var stdin: seq<string>
    var stdoutBuffer: string
    var stderrBuffer: string
    var running: bool

    /** A freshly spawned shell in `cwd` with nothing written or buffered yet. */
    constructor (cwd: Option<string>)
      ensures this.cwd == cwd && stdin == [] && stdoutBuffer == "" && stderrBuffer == "" && running
    {
      this.cwd := cwd;
      stdin := [];
      stdoutBuffer := "";
      stderrBuffer := "";
      running := true;
    }

    /** `terminate()`, and `kill()` when it does not exit in time: either way the shell is gone. */
    method Terminate()
      modifies this
      ensures !running && stdin == old(stdin)
      ensures stdoutBuffer == old(stdoutBuffer) && stderrBuffer == old(stderrBuffer)
    {
      running := false;
    }
  }

  class BashTerminal {
    const cwd: Option<string>
    const delimiter: string
    var process: ShellProcess?

    /** `BashTerminal(cwd, delimiter)`: no shell is started until it is needed. */
    constructor (cwd: Option<string>, delimiter: string)
      ensures this.cwd == cwd && this.delimiter == delimiter && process == null
    {
      this.cwd := cwd;
      this.delimiter := delimiter;
      process := null;
    }

    /** `start`: keep a running shell, otherwise spawn one. */
    method Start()
      modifies this
      ensures old(process) != null ==> process == old(process)
      ensures old(process) == null ==> process != null && fresh(process)
      ensures old(process) == null ==>
        process.cwd == cwd && process.stdin == [] && process.stdoutBuffer == "" && process.stderrBuffer == "" &&
        process.running
    {
      if process != null {
        return;
      }
      process := new ShellProcess(cwd);
    }

    /** `stop`: terminate the shell, if any; the handle is cleared in every case. */
    method Stop()
      modifies this, process
      ensures process == null
      ensures old(process) != null ==> !old(process).running
    {
      if process == null {
        return;
      }
      process.Terminate();
      process := null;
    }

    /**
     * The timed polling loop of `run`: after each pause, append what both
     * buffers hold; stop at any stderr, or cut the output at the delimiter;
     * when the deadline passes first, the timeout's message is the stderr.
     */
    method Collect(arrivals: seq<Chunk>) returns (output: string, stderr: string)
      requires process != null
      modifies process
      ensures process.stdin == old(process.stdin) && process.running == old(process.running)
      ensures var end := Poll(delimiter, old(process.stdoutBuffer), old(process.stderrBuffer), arrivals);
        output == end.output && stderr == end.stderr
    {
      var p := process;
      ghost var end := Poll(delimiter, p.stdoutBuffer, p.stderrBuffer, arrivals);
      output := "";
      stderr := "";
      var i := 0;
      var timedOut := true;
      while i < |arrivals|
        invariant 0 <= i <= |arrivals| && p.stdin == old(p.stdin) && p.running == old(p.running)
        invariant timedOut ==> PollFrom(delimiter, p.stdoutBuffer, p.stderrBuffer, output, stderr, arrivals[i..]) == end
        invariant !timedOut ==> end == PollEnd(output, stderr, false)
        invariant stderr == "" || !timedOut
        decreases if timedOut then |arrivals| - i else 0
      {
        if !timedOut {
          break;
        }
        assert arrivals[i..][0] == arrivals[i] && arrivals[i..][1..] == arrivals[i + 1..];
        // What the shell writes while the loop sleeps.
        p.stdoutBuffer := p.stdoutBuffer + arrivals[i].out;
        p.stderrBuffer := p.stderrBuffer + arrivals[i].err;
        output := output + p.stdoutBuffer;
        stderr := stderr + p.stderrBuffer;
        if stderr != "" {
          timedOut := false;
        } else if Contains(output, delimiter) {
          output := output[..IndexOf(output, delimiter).value];
          timedOut := false;
        } else {
          i := i + 1;
        }
      }
      if timedOut {
        assert arrivals[i..] == [];
        if stderr == "" {
          stderr := TimeoutMessage;
        }
      }
    }

    /**
     * `run`: start the shell if needed, write the framed command, poll the
     * buffers until stderr, the delimiter or the deadline, then clear both
     * buffers and report.
     */
    method Run(cmd: string, arrivals: seq<Chunk>) returns (report: string)
      modifies this, process
      ensures process != null
      ensures old(process) != null ==> process == old(process)
      ensures old(process) == null ==> fresh(process)
      ensures process.stdin == (if old(process) != null then old(process.stdin) else []) + [Frame(cmd, delimiter)]
      ensures process.stdoutBuffer == "" && process.stderrBuffer == ""
      ensures var end := if old(process) != null
        then Poll(delimiter, old(process.stdoutBuffer), old(process.stderrBuffer), arrivals)
        else Poll(delimiter, "", "", arrivals);
        report == ReportText(Report(cmd, end.output, end.stderr))
    {
      if process == null {
        Start();
      }
      process.stdin := process.stdin + [Frame(cmd, delimiter)];
      var output, stderr := Collect(arrivals);
      process.stdoutBuffer := "";
      process.stderrBuffer := "";
      return ReportText(Report(cmd, output, stderr));
    }
  }

  // ---------------------------------------------------------------------
  // The bash tool
  // ---------------------------------------------------------------------

  const NotEnoughValues := "not enough values to unpack (expected 2, got "
  const TooManyValues := "too many values to unpack (expected 2)"

  /** `a, b = s` for a string: only a string of exactly two characters unpacks. */
  function UnpackPair(s: string): (r: Outcome<(char, char)>)
    ensures r.Returned? <==> |s| == 2
  {
    if |s| == 2 then Returned((s[0], s[1]))
    else if |s| < 2 then Raised(NotEnoughValues + IntToString(|s|) + ")")
    else Raised(TooManyValues)
  }

  /** The string `run` returns never unpacks into the two names `output, stderr`. */
  lemma ReportNeverUnpacks(r: Report)
    ensures UnpackPair(ReportText(r)) == Raised(TooManyValues)
  {
  }

  /** A boolean parameter bound from the validated arguments, or its default. */
  function BoolArg(args: Json, key: string, default: bool): bool
  {
    if args.Obj? && key in args.fields && args.fields[key].Bool? then args.fields[key].b else default
  }

  /**
   * What `_execute` evidently means to report: the run's stdout as the
   * output, its stderr as the error, and success exactly when stderr is
   * empty.
   */
  function BashResult(r: Report): (t: ToolResult)
    ensures t.success <==> r.stderr == ""
    ensures t.output == r.stdout && t.error == r.stderr
  {
    ToolResult("", r.stdout, r.stderr, r.stderr == "")
  }

  /**
   * With the corrected loop and the corrected unpacking, a successful
   * `bash` call is one whose command ran to its delimiter with nothing on
   * stderr, and its output is what the shell printed before the delimiter.
   */
  lemma CorrectedBashSuccess(cmd: string, delimiter: string, arrivals: seq<Chunk>)
    ensures var end := PollConsuming(delimiter, "", "", arrivals);
      var t := BashResult(Report(cmd, end.output, end.stderr));
      t.success ==> !end.timedOut && StartsWith(Emitted(arrivals), t.output + delimiter)
  {
    ConsumingPollReportsEmitted(delimiter, "", "", arrivals);
    assert "" + Emitted(arrivals) == Emitted(arrivals);
  }

  /** `BashTool`: the `bash` tool and the terminal it owns. */
  class BashTool {
    const terminal: BashTerminal
    const parse: string -> Result<Json>

    /** `BashTool(cwd)`: a new terminal with no shell yet; `parse` validates `BashArgs`. */
    constructor (cwd: Option<string>, delimiter: string, parse: string -> Result<Json>)
      ensures fresh(terminal) && terminal.process == null && terminal.cwd == cwd
      ensures this.parse == parse
    {
      terminal := new BashTerminal(cwd, delimiter);
      this.parse := parse;
    }

    /** `close`: stop the terminal's shell. */
    method Close()
      modifies terminal, terminal.process
      ensures terminal.process == null
      ensures old(terminal.process) != null ==> !old(terminal.process).running
    {
      terminal.Stop();
    }

    /**
     * `_execute(command, restart)`: stop the shell when asked to restart,
     * run the command, then unpack the report string into `output, stderr`;
     * the report is longer than two characters, so the unpacking raises.
     */
    method ExecuteBody(command: string, restart: bool, arrivals: seq<Chunk>) returns (r: Outcome<ToolResult>)
      modifies terminal, terminal.process
      ensures r == Raised(TooManyValues)
      ensures terminal.process != null && |terminal.process.stdin| >= 1
      ensures terminal.process.stdin[|terminal.process.stdin| - 1] == Frame(command, terminal.delimiter)
      ensures restart && old(terminal.process) != null ==> !old(terminal.process).running
    {
      if restart {
        terminal.Stop();
      }
      var report := terminal.Run(command, arrivals);
      var unpacked := UnpackPair(report);
      match unpacked {
        case Raised(e) =>
          r := Raised(e);
        case Returned(_) =>
          assert false;
      }
    }

    /**
     * `Tool.execute` of the `bash` tool. After validation, `_execute` stops
     * the shell when asked to restart and runs the command; then it unpacks
     * the report string into two names, which raises, so every call that
     * gets that far ends as an execution error, after the command has run.
     */
    method Execute(call: ToolCall, arrivals: seq<Chunk>) returns (r: ToolResult)
      modifies terminal, terminal.process
      ensures r.id == call.id && !r.success
      ensures parse(call.toolArgs).Failure? ==>
        r.error == ValidationError(call, parse(call.toolArgs).error) &&
        terminal.process == old(terminal.process)
      ensures parse(call.toolArgs).Success? && StrArg(parse(call.toolArgs).value, "command").Returned? ==>
        r.error == ExecutionError(call, TooManyValues) &&
        terminal.process != null &&
        |terminal.process.stdin| >= 1 &&
        terminal.process.stdin[|terminal.process.stdin| - 1] ==
          Frame(StrArg(parse(call.toolArgs).value, "command").value, terminal.delimiter)
      ensures (parse(call.toolArgs).Success? && StrArg(parse(call.toolArgs).value, "command").Returned? &&
        BoolArg(parse(call.toolArgs).value, "restart", false) && old(terminal.process) != null) ==>
        !old(terminal.process).running
    {
      r := FailedResult(call.id);
      var parsed := parse(call.toolArgs);
      if parsed.Failure? {
        r := r.(error := ValidationError(call, parsed.error));
        return;
      }
      var args := parsed.value;
      var command := StrArg(args, "command");
      if command.Raised? {
        r := r.(error := ExecutionError(call, command.exception));
        return;
      }
      var outcome := ExecuteBody(command.value, BoolArg(args, "restart", false), arrivals);
      match outcome {
        case Raised(e) =>
          r := r.(error := ExecutionError(call, e));
        case Returned(_) =>
          assert false;
      }
    }
  }
}

=== FILE: config.dfy ===
/**
 * Configuration lookup: `ConfigParser.get(*keys, default=None)` walks a
 * loaded configuration document one key at a time, falling back to the
 * default as soon as the current value is falsy or lacks the key.
 */
module Config {
  import opened Wrappers
  import opened Strings
  import opened JsonData

  /** Where a walk down the document stands after some keys. */
  datatype Walk = Found(value: Json) | Missing | Failed(error: string)

  /**
   * One iteration of the loop: `if value and key in value: value = value[key]`
   * `else: return default`. `key in value` and `value[key]` follow Python
   * for each kind of value a key can be looked up in.
   */
  function Step(value: Json, key: string): (w: Walk)
    ensures !Truthy(value) ==> w == Missing
    ensures value.Obj? && key in value.fields ==> w == Found(value.fields[key])
    ensures value.Obj? && key !in value.fields ==> w == Missing
    ensures w.Found? ==> value.Obj? && key in value.fields
  {
    if !Truthy(value) then Missing
    else match value
      case Obj(fields) =>
        if key in fields then Found(fields[key]) else Missing
      case Arr(items) =>
        if Str(key) in items then Failed("list indices must be integers or slices, not str")
        else Missing
      case Str(s) =>
        if Contains(s, key) then Failed("string indices must be integers, not 'str'")
        else Missing
      case _ =>
        Failed("argument of type '" + TypeName(value) + "' is not iterable")
  }

  /** The walk over `keys`, stopping at the first key that is not followed. */
  function WalkKeys(value: Json, keys: seq<string>): Walk
    decreases |keys|
  {
    if keys == [] then Found(value)
    else match Step(value, keys[0])
      case Found(next) => WalkKeys(next, keys[1..])
      case other => other
  }

  /** `get(*keys, default=default)` on a document. */
  function Lookup(doc: Json, keys: seq<string>, default: Json): Outcome<Json>
  {
    match WalkKeys(doc, keys)
    case Found(v) => Returned(v)
    case Missing => Returned(default)
    case Failed(e) => Raised(e)
  }

  /** Walking one more key continues from where the shorter walk ended. */
  lemma {:induction false} WalkSnoc(value: Json, keys: seq<string>, key: string)
    ensures WalkKeys(value, keys + [key]) ==
      (match WalkKeys(value, keys)
       case Found(v) => Step(v, key)
       case other => other)
    decreases |keys|
  {
    if keys != [] {
      assert (keys + [key])[0] == keys[0];
      assert (keys + [key])[1..] == keys[1..] + [key];
      match Step(value, keys[0])
      case Found(next) => WalkSnoc(next, keys[1..], key);
      case _ =>
    }
  }

  /** A loaded configuration document with its lookup method. */
  class ConfigParser {
    const config: Json

    /** `__init__`: the document `json.load` (or `yaml.safe_load`) produced. */
    constructor (doc: Json)
      ensures config == doc
    {
      config := doc;
    }

    /** `get`: the loop over the keys, proved equal to `Lookup`. */
    method Get(keys: seq<string>, default: Json) returns (r: Outcome<Json>)
      ensures r == Lookup(config, keys, default)
      ensures keys == [] ==> r == Returned(config)
      ensures r.Returned? && r.value != default ==> WalkKeys(config, keys) == Found(r.value)
    {
      var value := config;
      for i := 0 to |keys|
        invariant WalkKeys(config, keys[..i]) == Found(value)
      {
        WalkSnoc(config, keys[..i], keys[i]);
        assert keys[..i + 1] == keys[..i] + [keys[i]];
        var key := keys[i];
        var w := Step(value, key);
        match w {
          case Found(next) =>
            value := next;
          case Missing =>
            PrefixWalkStops(config, keys, i + 1);
            return Returned(default);
          case Failed(e) =>
            PrefixWalkStops(config, keys, i + 1);
            return Raised(e);
        }
      }
      assert keys[..|keys|] == keys;
      return Returned(value);
    }
  }

  /** Once a prefix of the keys stops the walk, the whole walk stops there too. */
  lemma {:induction false} PrefixWalkStops(value: Json, keys: seq<string>, n: nat)
    requires n <= |keys|
    requires !WalkKeys(value, keys[..n]).Found?
    ensures WalkKeys(value, keys) == WalkKeys(value, keys[..n])
    decreases n
  {
    assert n > 0;
    assert keys[..n][0] == keys[0];
    assert keys[..n][1..] == keys[1..][..n - 1];
    match Step(value, keys[0])
    case Found(next) => PrefixWalkStops(next, keys[1..], n - 1);
    case _ =>
  }

  /** A path of present keys through nested dicts reaches the value at its end. */
  lemma {:induction false} LookupNestedPath(doc: Json, keys: seq<string>, default: Json)
    requires PathPresent(doc, keys)
    ensures Lookup(doc, keys, default) == Returned(ValueAt(doc, keys))
    decreases |keys|
  {
    if keys != [] {
      LookupNestedPath(doc.fields[keys[0]], keys[1..], default);
    }
  }

  /** Every key of the path names an entry of a dict along the way. */
  predicate PathPresent(doc: Json, keys: seq<string>)
    decreases |keys|
  {
    keys == [] || (doc.Obj? && keys[0] in doc.fields && PathPresent(doc.fields[keys[0]], keys[1..]))
  }

  function ValueAt(doc: Json, keys: seq<string>): Json
    requires PathPresent(doc, keys)
    decreases |keys|
  {
    if keys == [] then doc else ValueAt(doc.fields[keys[0]], keys[1..])
  }

  /** A falsy document, or a dict without the first key, yields the default. */
  lemma LookupFallsBack(doc: Json, keys: seq<string>, default: Json)
    requires keys != []
    requires !Truthy(doc) || (doc.Obj? && keys[0] !in doc.fields)
    ensures Lookup(doc, keys, default) == Returned(default)
  {
  }

  /**
   * Once the walk reaches a falsy value with keys still to go, the lookup
   * yields the default; a falsy value reached by the last key is returned.
   */
  lemma {:induction false} FalsyIntermediateFallsBack(doc: Json, keys: seq<string>, n: nat, v: Json, default: Json)
    requires n < |keys|
    requires WalkKeys(doc, keys[..n]) == Found(v) && !Truthy(v)
    ensures Lookup(doc, keys, default) == Returned(default)
  {
    WalkSnoc(doc, keys[..n], keys[n]);
    assert keys[..n + 1] == keys[..n] + [keys[n]];
    PrefixWalkStops(doc, keys, n + 1);
  }

  /** A truthy scalar in the way of a key raises instead of yielding the default. */
  lemma LookupThroughScalarRaises(doc: Json, keys: seq<string>, default: Json)
    requires keys != []
    requires (doc.Num? || doc.Bool?) && Truthy(doc)
    ensures Lookup(doc, keys, default).Raised?
  {
  }
}

=== FILE: executor.dfy ===
/**
 * `ToolExecutor`: a list of tools with a name index, dispatching one call,
 * a batch of calls in order or as concurrent tasks, and closing every
 * tool; and `ToolRegistry`, which builds an executor from local tools, the
 * MCP server's tools and include/exclude name lists.
 */
module Executor {
  import opened Wrappers
  import opened Strings
  import opened Tools
  import opened Indexing
  import ToolKits

  /** An executor: the tools in the order they were given. */
  datatype ToolExecutor<!W> = ToolExecutor(tools: seq<Tool<W>>)

  function Names<W>(tools: seq<Tool<W>>): (names: seq<string>)
    ensures |names| == |tools|
    ensures forall i :: 0 <= i < |tools| ==> names[i] == tools[i].name
  {
    if tools == [] then [] else Names(tools[..|tools| - 1]) + [tools[|tools| - 1].name]
  }

  /**
   * `{tool.name: tool for tool in tools}`: every name is indexed, and a name
   * that occurs more than once maps to its last tool (`Indexing.IndexKeepsLast`).
   */
  function NameMap<W>(tools: seq<Tool<W>>): (m: map<string, Tool<W>>)
    ensures forall n :: n in m <==> n in Names(tools)
  {
    Index(Names(tools), tools)
  }

  const UnavailableHead := "The tool name "
  const UnavailableTail := " is unavailable. The available tools are: "

  /** The error reported for a call to a name no tool has. */
  function UnavailableError(name: string, tools: seq<string>): string
  {
    UnavailableHead + name + UnavailableTail + ListRepr(tools)
  }

  /** `execute_tool_call`: dispatch to the tool indexed under the call's name. */
  function ExecuteToolCall<W>(e: ToolExecutor<W>, w: W, call: ToolCall): (r: (W, ToolResult))
    ensures r.1.id == call.id
    ensures call.toolName !in Names(e.tools) ==>
      r == (w, ToolResult(call.id, "", UnavailableError(call.toolName, Names(e.tools)), false))
    ensures call.toolName in Names(e.tools) ==>
      r == Execute(e.tools[LastIndex(Names(e.tools), call.toolName)], w, call)
  {
    var m := NameMap(e.tools);
    if call.toolName !in m then
      (w, ToolResult(call.id, "", UnavailableError(call.toolName, Names(e.tools)), false))
    else
      IndexKeepsLast(Names(e.tools), e.tools, call.toolName);
      Execute(m[call.toolName], w, call)
  }

  /** An unknown tool's error names every tool the executor has, quoted. */
  lemma UnavailableErrorListsEveryTool<W>(e: ToolExecutor<W>, w: W, call: ToolCall, i: nat)
    requires call.toolName !in Names(e.tools)
    requires i < |e.tools|
    ensures !ExecuteToolCall(e, w, call).1.success
    ensures Contains(ExecuteToolCall(e, w, call).1.error, Repr(e.tools[i].name))
  {
    var names := Names(e.tools);
    var r := ListRepr(names);
    var q := Repr(names[i]);
    ListReprQuotesEach(names, i);
    var prefix := UnavailableHead + call.toolName + UnavailableTail;
    ContainsAfter(prefix, r, q);
    assert ExecuteToolCall(e, w, call).1.error == prefix + r;
  }

  /**
   * Runs `step` over the calls in order, each step seeing the state the
   * steps before it left, and collects one result per call.
   */
  function Thread<S, C, R>(step: (S, C) -> (S, R), s: S, calls: seq<C>): (r: (S, seq<R>))
    ensures |r.1| == |calls|
    decreases |calls|
  {
    if calls == [] then (s, [])
    else
      var first := step(s, calls[0]);
      var rest := Thread(step, first.0, calls[1..]);
      (rest.0, [first.1] + rest.1)
  }

  /** Step `i` of a threaded run sees the state the first `i` steps left. */
  lemma {:induction false} ThreadRunsInOrder<S, C, R>(step: (S, C) -> (S, R), s: S, calls: seq<C>, i: nat)
    requires i < |calls|
    ensures Thread(step, s, calls).1[i] == step(Thread(step, s, calls[..i]).0, calls[i]).1
    decreases i
  {
    var s1 := step(s, calls[0]).0;
    if i == 0 {
      assert calls[..0] == [];
    } else {
      ThreadRunsInOrder(step, s1, calls[1..], i - 1);
      var pre := calls[..i];
      assert Thread(step, s, pre).0 == Thread(step, s1, calls[1..][..i - 1]).0 by {
        assert pre[0] == calls[0] && pre[1..] == calls[1..][..i - 1];
      }
      assert calls[1..][i - 1] == calls[i];
    }
  }

  /** Threading `a + b` threads `a`, then `b` from the state `a` left. */
  lemma {:induction false} ThreadAppend<S, C, R>(step: (S, C) -> (S, R), s: S, a: seq<C>, b: seq<C>)
    ensures Thread(step, s, a + b).0 == Thread(step, Thread(step, s, a).0, b).0
    ensures Thread(step, s, a + b).1 == Thread(step, s, a).1 + Thread(step, Thread(step, s, a).0, b).1
    decreases |a|
  {
    if a == [] {
      assert a + b == b;
    } else {
      assert (a + b)[0] == a[0];
      assert (a + b)[1..] == a[1..] + b;
      ThreadAppend(step, step(s, a[0]).0, a[1..], b);
    }
  }

  /** Steps that leave the state alone all see the first state. */
  lemma {:induction false} ThreadStateless<S, C, R>(step: (S, C) -> (S, R), s: S, calls: seq<C>)
    requires forall i :: 0 <= i < |calls| ==> step(s, calls[i]).0 == s
    ensures Thread(step, s, calls).0 == s
    ensures forall i :: 0 <= i < |calls| ==> Thread(step, s, calls).1[i] == step(s, calls[i]).1
    decreases |calls|
  {
    if calls != [] {
      assert step(s, calls[0]).0 == s;
      assert forall i :: 0 <= i < |calls[1..]| ==> calls[1..][i] == calls[i + 1];
      ThreadStateless(step, s, calls[1..]);
    }
  }

  /** One call of a batch: `execute_tool_call` as a step on the world. */
  function Dispatch<W>(e: ToolExecutor<W>): (W, ToolCall) -> (W, ToolResult)
  {
    (w: W, call: ToolCall) => ExecuteToolCall(e, w, call)
  }

  /**
   * `sequential_tool_call`: one result per call, in order, each call seeing
   * the world the calls before it left.
   */
  function SequentialToolCall<W>(e: ToolExecutor<W>, w: W, calls: seq<ToolCall>): (r: (W, seq<ToolResult>))
    ensures |r.1| == |calls|
  {
    Thread(Dispatch(e), w, calls)
  }

  /** The world a sequential batch has reached after its first `n` calls. */
  function WorldAfter<W>(e: ToolExecutor<W>, w: W, calls: seq<ToolCall>): W
  {
    SequentialToolCall(e, w, calls).0
  }

  /** Call `i` of a sequential batch runs on the world the first `i` calls produced. */
  lemma SequentialRunsInOrder<W>(e: ToolExecutor<W>, w: W, calls: seq<ToolCall>, i: nat)
    requires i < |calls|
    ensures SequentialToolCall(e, w, calls).1[i] == ExecuteToolCall(e, WorldAfter(e, w, calls[..i]), calls[i]).1
  {
    ThreadRunsInOrder(Dispatch(e), w, calls, i);
  }

  /** Result `i` of a sequential batch answers call `i`. */
  lemma SequentialKeepsIds<W>(e: ToolExecutor<W>, w: W, calls: seq<ToolCall>)
    ensures forall i :: 0 <= i < |calls| ==> SequentialToolCall(e, w, calls).1[i].id == calls[i].id
  {
    forall i | 0 <= i < |calls|
      ensures SequentialToolCall(e, w, calls).1[i].id == calls[i].id
    {
      SequentialRunsInOrder(e, w, calls, i);
    }
  }

  /** Splitting a batch in two and running the halves one after the other is the same batch. */
  lemma SequentialAppend<W>(e: ToolExecutor<W>, w: W, a: seq<ToolCall>, b: seq<ToolCall>)
    ensures WorldAfter(e, w, a + b) == WorldAfter(e, WorldAfter(e, w, a), b)
    ensures SequentialToolCall(e, w, a + b).1 ==
      SequentialToolCall(e, w, a).1 + SequentialToolCall(e, WorldAfter(e, w, a), b).1
  {
    ThreadAppend(Dispatch(e), w, a, b);
  }

  /**
   * `parallel_tool_call`: the calls as concurrent tasks gathered in call
   * order. Each task is modelled as seeing the world the batch began with.
   */
  function ParallelToolCall<W>(e: ToolExecutor<W>, w: W, calls: seq<ToolCall>): (r: seq<ToolResult>)
    ensures |r| == |calls|
    ensures forall i :: 0 <= i < |calls| ==> r[i] == ExecuteToolCall(e, w, calls[i]).1
    ensures forall i :: 0 <= i < |calls| ==> r[i].id == calls[i].id
  {
    seq(|calls|, i requires 0 <= i < |calls| => ExecuteToolCall(e, w, calls[i]).1)
  }

  /**
   * When no call of the batch changes the world, gathering the calls
   * concurrently gives the sequential results.
   */
  lemma ParallelMatchesSequential<W>(e: ToolExecutor<W>, w: W, calls: seq<ToolCall>)
    requires forall i :: 0 <= i < |calls| ==> ExecuteToolCall(e, w, calls[i]).0 == w
    ensures ParallelToolCall(e, w, calls) == SequentialToolCall(e, w, calls).1
    ensures SequentialToolCall(e, w, calls).0 == w
  {
    ThreadStateless(Dispatch(e), w, calls);
  }

  /**
   * `close_tools`: close every tool, in order; the gathered list holds one
   * `None` per tool.
   */
  function CloseTools<W>(e: ToolExecutor<W>, w: W): (r: (W, seq<()>))
    ensures |r.1| == |e.tools|
    ensures e.tools == [] ==> r.0 == w
    ensures r.0 == CloseAll(e.tools, w)
  {
    (CloseAll(e.tools, w), seq(|e.tools|, i => ()))
  }

  /** Each tool's `close`, first tool first. */
  function CloseAll<W>(tools: seq<Tool<W>>, w: W): W
    decreases |tools|
  {
    if tools == [] then w else CloseAll(tools[1..], tools[0].close(w))
  }

  /** Closing one tool is its own `close`. */
  lemma CloseAllSingleton<W>(t: Tool<W>, w: W)
    ensures CloseAll([t], w) == t.close(w)
  {
    assert [t][1..] == [];
  }

  /** Closing in order: the tools of a concatenation close after those before them. */
  lemma {:induction false} CloseAllAppend<W>(a: seq<Tool<W>>, b: seq<Tool<W>>, w: W)
    ensures CloseAll(a + b, w) == CloseAll(b, CloseAll(a, w))
    decreases |a|
  {
    if a == [] {
      assert a + b == b;
    } else {
      assert (a + b)[0] == a[0];
      assert (a + b)[1..] == a[1..] + b;
      CloseAllAppend(a[1..], b, a[0].close(w));
    }
  }

  // ---------------------------------------------------------------------
  // ToolRegistry
  // ---------------------------------------------------------------------

  /** `[tool for tool in tools if (tool.get_name() in names) == keep]`. */
  function KeepByName<W>(tools: seq<Tool<W>>, names: seq<string>, keep: bool): (r: seq<Tool<W>>)
    ensures |r| <= |tools|
    ensures forall i :: 0 <= i < |r| ==> (r[i].name in names) == keep
    decreases |tools|
  {
    if tools == [] then []
    else
      var rest := KeepByName(tools[1..], names, keep);
      if (tools[0].name in names) == keep then [tools[0]] + rest else rest
  }

  /** The comprehension keeps exactly the tools whose name-membership equals `keep`, and adds none. */
  lemma {:induction false} KeepByNameMembers<W>(tools: seq<Tool<W>>, names: seq<string>, keep: bool)
    ensures var r := KeepByName(tools, names, keep);
      (forall i :: 0 <= i < |r| ==> r[i] in tools) &&
      (forall i :: 0 <= i < |tools| && (tools[i].name in names) == keep ==> tools[i] in r)
    decreases |tools|
  {
    if tools != [] {
      KeepByNameMembers(tools[1..], names, keep);
      assert forall t :: t in tools[1..] ==> t in tools;
      assert forall i :: 1 <= i < |tools| ==> tools[i] == tools[1..][i - 1];
    }
  }

  /** Filtering by name keeps the order: the kept tools of a concatenation are the kept tools of each part. */
  lemma {:induction false} KeepByNameAppend<W>(a: seq<Tool<W>>, b: seq<Tool<W>>, names: seq<string>, keep: bool)
    ensures KeepByName(a + b, names, keep) == KeepByName(a, names, keep) + KeepByName(b, names, keep)
    decreases |a|
  {
    if a == [] {
      assert a + b == b;
    } else {
      var head := if (a[0].name in names) == keep then [a[0]] else [];
      var restA, restB := KeepByName(a[1..], names, keep), KeepByName(b, names, keep);
      calc {
        KeepByName(a + b, names, keep);
        { assert (a + b)[0] == a[0] && (a + b)[1..] == a[1..] + b; }
        head + KeepByName(a[1..] + b, names, keep);
        { KeepByNameAppend(a[1..], b, names, keep); }
        head + (restA + restB);
        (head + restA) + restB;
      }
    }
  }

  /** One tool is kept exactly when its name's presence in the list matches `keep`. */
  lemma KeepByNameSingleton<W>(t: Tool<W>, names: seq<string>, keep: bool)
    ensures KeepByName([t], names, keep) == if (t.name in names) == keep then [t] else []
  {
    assert [t][1..] == [];
  }

  /** The tools whose names the include and exclude lists admit, in their order. */
  function AdmittedTools<W>(tools: seq<Tool<W>>, includeTools: seq<string>, excludeTools: seq<string>): seq<Tool<W>>
    decreases |tools|
  {
    if tools == [] then []
    else
      var head := if ToolKits.Admitted(tools[0].name, includeTools, excludeTools) then [tools[0]] else [];
      head + AdmittedTools(tools[1..], includeTools, excludeTools)
  }

  /** A tool is among the admitted tools exactly when it is one of the tools and its name is admitted. */
  lemma {:induction false} AdmittedToolsMembers<W>(tools: seq<Tool<W>>, includeTools: seq<string>, excludeTools: seq<string>)
    ensures var r := AdmittedTools(tools, includeTools, excludeTools);
      (forall i :: 0 <= i < |r| ==> r[i] in tools && ToolKits.Admitted(r[i].name, includeTools, excludeTools)) &&
      (forall i :: 0 <= i < |tools| && ToolKits.Admitted(tools[i].name, includeTools, excludeTools) ==> tools[i] in r)
    decreases |tools|
  {
    if tools != [] {
      AdmittedToolsMembers(tools[1..], includeTools, excludeTools);
      assert forall t :: t in tools[1..] ==> t in tools;
      assert forall i :: 1 <= i < |tools| ==> tools[i] == tools[1..][i - 1];
    }
  }

  /** The two passes of the registry are the one filter by `ToolKits.Admitted`. */
  lemma {:induction false} RegistryFilterAdmits<W>(tools: seq<Tool<W>>, includeTools: seq<string>, excludeTools: seq<string>)
    ensures RegistryFilter(tools, includeTools, excludeTools) == AdmittedTools(tools, includeTools, excludeTools)
    decreases |tools|
  {
    if tools != [] {
      var t, rest := tools[0], tools[1..];
      var head := if includeTools == [] || t.name in includeTools then [t] else [];
      var included := if includeTools != [] then KeepByName(tools, includeTools, true) else tools;
      var includedRest := if includeTools != [] then KeepByName(rest, includeTools, true) else rest;
      assert included == head + includedRest by {
        if includeTools == [] {
          assert tools == [t] + rest;
        }
      }
      if excludeTools != [] {
        KeepByNameAppend(head, includedRest, excludeTools, false);
        if head != [] {
          KeepByNameSingleton(t, excludeTools, false);
        }
      }
      RegistryFilterAdmits(rest, includeTools, excludeTools);
      if rest == [] {
        assert includedRest == [];
      }
    }
  }

  /** The tools that survive the includeTools list, then the excludeTools list. */
  function RegistryFilter<W>(tools: seq<Tool<W>>, includeTools: seq<string>, excludeTools: seq<string>): seq<Tool<W>>
  {
    if tools == [] then tools
    else
      var included := if includeTools != [] then KeepByName(tools, includeTools, true) else tools;
      if excludeTools != [] then KeepByName(included, excludeTools, false) else included
  }

  /**
   * `ToolRegistry(tools, include_tools, exclude_tools, include_mcp_tools)`
   * given the tools the MCP server lists. The caller's list is extended in
   * place with the MCP tools, so it is returned as well.
   */
  function NewToolRegistry<W>(tools: seq<Tool<W>>, includeTools: seq<string>, excludeTools: seq<string>,
                              includeMcp: bool, mcp: seq<Tool<W>>): (r: (ToolExecutor<W>, seq<Tool<W>>))
    ensures r.1 == if includeMcp then tools + mcp else tools
    ensures forall i :: 0 <= i < |r.0.tools| ==> r.0.tools[i] in r.1 && ToolKits.Admitted(r.0.tools[i].name, includeTools, excludeTools)
    ensures forall i :: 0 <= i < |r.1| && ToolKits.Admitted(r.1[i].name, includeTools, excludeTools) ==> r.1[i] in r.0.tools
    ensures r.0.tools == AdmittedTools(r.1, includeTools, excludeTools)
  {
    var all := if includeMcp then tools + mcp else tools;
    RegistryFilterAdmits(all, includeTools, excludeTools);
    AdmittedToolsMembers(all, includeTools, excludeTools);
    (ToolExecutor(RegistryFilter(all, includeTools, excludeTools)), all)
  }

  /** Without filters and without the MCP server, a registry keeps exactly the given tools. */
  lemma RegistryWithoutFilters<W>(tools: seq<Tool<W>>)
    ensures NewToolRegistry(tools, [], [], false, []).0.tools == tools
  {
  }
}

=== FILE: filesystem.dfy ===
/**
 * The file system the text tools act on, as a value: every path maps to a
 * file with its text or to a directory with its entry names in iteration
 * order. Tools thread it through their executions.
 */
module Files {
  import opened Wrappers
  import opened Strings

  datatype Node = File(content: string) | Directory(entries: seq<string>)

  type FileSystem = map<string, Node>

  /**
   * `difflib.unified_diff` of the old and new text, joined with newlines:
   * an opaque function of the path, the old text and the new text.
   */
  type Differ = (string, string, string) -> string

  /**
   * The path of entry `name` of `directory`, as `Path.iterdir()` yields it:
   * the bare name in `.`, `/name` in the root, `directory/name` elsewhere.
   */
  function Child(directory: string, name: string): string
  {
    if directory == "." then name
    else if directory == "/" then "/" + name
    else directory + "/" + name
  }

  predicate IsDir(fs: FileSystem, path: string)
  {
    path in fs && fs[path].Directory?
  }

  predicate IsFile(fs: FileSystem, path: string)
  {
    path in fs && fs[path].File?
  }

  const NoSuchFile := "[Errno 2] No such file or directory: "
  const IsADirectory := "[Errno 21] Is a directory: "

  // ---------------------------------------------------------------------
  // Paths
  // ---------------------------------------------------------------------

  /**
   * `Path(path).parent` and the last component: the text before and after
   * the last `/`; a path without `/` lives in `.`, one whose only `/` is
   * the first character in `/`.
   */
  function ParentOf(path: string): (r: (string, string))
    ensures LastSlash(path).None? ==> r == (".", path)
    ensures LastSlash(path) == Some(0) ==> r == ("/", path[1..])
  {
    match LastSlash(path)
    case None => (".", path)
    case Some(k) => (if k == 0 then "/" else path[..k], path[k + 1..])
  }

  /** The position of the last `/` in `s`. */
  function LastSlash(s: string): (r: Option<nat>)
    ensures r.None? <==> '/' !in s
    ensures r.Some? ==> r.value < |s| && s[r.value] == '/' && '/' !in s[r.value + 1..]
    decreases |s|
  {
    if s == [] then None
    else if s[|s| - 1] == '/' then Some(|s| - 1)
    else
      var r := LastSlash(s[..|s| - 1]);
      assert s[..|s| - 1] + [s[|s| - 1]] == s;
      if r.Some? then
        assert s[r.value + 1..] == s[..|s| - 1][r.value + 1..] + [s[|s| - 1]];
        r
      else
        r
  }

  /** The last `/` of `prefix + "/" + name` is the one added, when `name` holds none. */
  lemma LastSlashJoin(prefix: string, name: string)
    requires '/' !in name
    ensures LastSlash(prefix + "/" + name) == Some(|prefix|)
  {
    var s := prefix + "/" + name;
    assert s[|prefix|] == '/';
    assert s[|prefix| + 1..] == name;
  }

  /**
   * A listed entry's path leads back to its directory and its name: the
   * parent of `Child(directory, name)` is `directory`, and its last
   * component is `name`.
   */
  lemma ParentOfChild(directory: string, name: string)
    requires directory != "" && '/' !in name
    ensures ParentOf(Child(directory, name)) == (directory, name)
  {
    if directory == "." {
    } else if directory == "/" {
      LastSlashJoin("", name);
      assert "" + "/" + name == "/" + name;
    } else {
      LastSlashJoin(directory, name);
      var s := directory + "/" + name;
      assert s[..|directory|] == directory && s[|directory| + 1..] == name;
    }
  }

  /** The working directory `.` and the root `/`, where the walk up ends. */
  predicate IsRoot(path: string)
  {
    path == "." || path == "/"
  }

  /** Drops from every other path to its parent. */
  function Rank(path: string): nat
  {
    if IsRoot(path) then 0 else |path| + 1
  }

  lemma ParentRank(path: string)
    requires !IsRoot(path)
    ensures Rank(ParentOf(path).0) < Rank(path)
  {
  }

  /** `a` is `path` or one of the directories above it. */
  predicate AncestorOrSelf(a: string, path: string)
    decreases Rank(path)
  {
    a == path || (!IsRoot(path) && (ParentRank(path); AncestorOrSelf(a, ParentOf(path).0)))
  }

  lemma AncestorRank(a: string, path: string)
    requires AncestorOrSelf(a, path)
    ensures Rank(a) <= Rank(path)
    decreases Rank(path)
  {
    if a != path {
      ParentRank(path);
      AncestorRank(a, ParentOf(path).0);
    }
  }

  /** The nearest of `path` and its ancestors that exists, or a root when none does. */
  function FirstPresent(fs: FileSystem, path: string): (r: string)
    ensures r in fs || IsRoot(r)
    ensures AncestorOrSelf(r, path)
    decreases Rank(path)
  {
    if path in fs || IsRoot(path) then path
    else
      ParentRank(path);
      FirstPresent(fs, ParentOf(path).0)
  }

  // ---------------------------------------------------------------------
  // Directory trees
  // ---------------------------------------------------------------------

  /**
   * Every path other than a root lives in a directory that exists and
   * lists its name.
   */
  predicate WellFormed(fs: FileSystem)
  {
    forall p :: p in fs && !IsRoot(p) ==>
      IsDir(fs, ParentOf(p).0) && ParentOf(p).1 in fs[ParentOf(p).0].entries
  }

  /**
   * `after` keeps every path of `before`: files with their text, and
   * directories with their entries, to which more may have been appended.
   */
  predicate Grows(before: FileSystem, after: FileSystem)
  {
    forall p :: p in before ==>
      p in after &&
      match before[p]
      case File(_) => after[p] == before[p]
      case Directory(es) => after[p].Directory? && es <= after[p].entries
  }

  lemma GrowsTransitive(a: FileSystem, b: FileSystem, c: FileSystem)
    requires Grows(a, b) && Grows(b, c)
    ensures Grows(a, c)
  {
    forall p | p in a && a[p].Directory?
      ensures c[p].Directory? && a[p].entries <= c[p].entries
    {
      var x, y, z := a[p].entries, b[p].entries, c[p].entries;
      assert x == y[..|x|] && y == z[..|y|];
      assert x == z[..|x|];
    }
  }

  /** Appends `name` to the entries of the directory `dir` unless it is listed. */
  function AddEntry(fs: FileSystem, dir: string, name: string): (r: FileSystem)
    requires IsDir(fs, dir)
    ensures r.Keys == fs.Keys && Grows(fs, r)
    ensures IsDir(r, dir) && name in r[dir].entries
    ensures forall p :: p in fs && p != dir ==> r[p] == fs[p]
  {
    var entries := fs[dir].entries;
    fs[dir := Directory(if name in entries then entries else entries + [name])]
  }

  const FileExists := "[Errno 17] File exists: "
  const NotADirectory := "[Errno 20] Not a directory: "

  /**
   * `os.makedirs(dir, exist_ok=True)`: an existing directory is left
   * alone and an existing file raises; otherwise each missing directory is
   * made, top down, and listed in its parent. A missing path whose parent
   * is a file raises, naming that path.
   */
  function MakeDirs(fs: FileSystem, dir: string): (r: Outcome<FileSystem>)
    ensures r.Returned? ==> IsDir(r.value, dir)
    ensures IsDir(fs, dir) ==> r == Returned(fs)
    ensures IsFile(fs, dir) ==> r == Raised(FileExists + Repr(dir))
    ensures r.Raised? <==> IsFile(fs, FirstPresent(fs, dir))
    ensures r.Raised? && !IsFile(fs, dir) ==>
      exists c :: AncestorOrSelf(c, dir) && IsFile(fs, ParentOf(c).0) && r.exception == NotADirectory + Repr(c)
    decreases Rank(dir)
  {
    if dir in fs then
      if fs[dir].Directory? then Returned(fs) else Raised(FileExists + Repr(dir))
    else if IsRoot(dir) then
      Returned(fs[dir := Directory([])])
    else
      var (parent, name) := ParentOf(dir);
      ParentRank(dir);
      if IsFile(fs, parent) then Raised(NotADirectory + Repr(dir))
      else match MakeDirs(fs, parent)
        case Raised(e) => Raised(e)
        case Returned(fs1) => Returned(AddEntry(fs1, parent, name)[dir := Directory([])])
  }

  /**
   * What `MakeDirs` adds: only directories, each of them `dir` or above
   * it; what was there stays.
   */
  lemma MakeDirsGrows(fs: FileSystem, dir: string)
    requires MakeDirs(fs, dir).Returned?
    ensures Grows(fs, MakeDirs(fs, dir).value)
    ensures var fs' := MakeDirs(fs, dir).value;
      forall p :: p in fs' && p !in fs ==> AncestorOrSelf(p, dir) && fs'[p].Directory?
    decreases Rank(dir)
  {
    if dir !in fs && !IsRoot(dir) {
      var (parent, name) := ParentOf(dir);
      ParentRank(dir);
      var fs1 := MakeDirs(fs, parent).value;
      MakeDirsGrows(fs, parent);
      var fs2 := AddEntry(fs1, parent, name);
      forall p | p in fs1 && p !in fs
        ensures p != dir
      {
        AncestorRank(p, parent);
      }
      GrowsTransitive(fs, fs1, fs2);
    }
  }

  /** `MakeDirs` keeps a well-formed tree well formed. */
  lemma MakeDirsWellFormed(fs: FileSystem, dir: string)
    requires WellFormed(fs) && MakeDirs(fs, dir).Returned?
    ensures WellFormed(MakeDirs(fs, dir).value)
    decreases Rank(dir)
  {
    if dir !in fs && !IsRoot(dir) {
      var (parent, name) := ParentOf(dir);
      ParentRank(dir);
      var fs1 := MakeDirs(fs, parent).value;
      MakeDirsWellFormed(fs, parent);
      MakeDirsGrows(fs, parent);
      assert dir !in fs1 by {
        if dir in fs1 {
          AncestorRank(dir, parent);
        }
      }
      AddEntryWellFormed(fs1, parent, name);
      NewLeafWellFormed(AddEntry(fs1, parent, name), dir, Directory([]));
    }
  }

  lemma AddEntryWellFormed(fs: FileSystem, dir: string, name: string)
    requires WellFormed(fs) && IsDir(fs, dir)
    ensures WellFormed(AddEntry(fs, dir, name))
  {
    var r := AddEntry(fs, dir, name);
    forall p | p in r && !IsRoot(p)
      ensures IsDir(r, ParentOf(p).0) && ParentOf(p).1 in r[ParentOf(p).0].entries
    {
      var q := ParentOf(p).0;
      assert fs[q].entries <= r[q].entries;
    }
  }

  /**
   * Adding a node at a new path whose parent is a directory listing it
   * keeps the tree well formed.
   */
  lemma NewLeafWellFormed(fs: FileSystem, path: string, node: Node)
    requires WellFormed(fs) && path !in fs && !IsRoot(path)
    requires IsDir(fs, ParentOf(path).0) && ParentOf(path).1 in fs[ParentOf(path).0].entries
    ensures WellFormed(fs[path := node])
  {
  }

  /**
   * In a well-formed tree the nearest existing path is a file exactly
   * when some directory on the way to `path` (or `path` itself) is a
   * file: so `MakeDirs` raises exactly then.
   */
  lemma FirstPresentIsFile(fs: FileSystem, path: string)
    requires WellFormed(fs)
    ensures IsFile(fs, FirstPresent(fs, path)) <==> exists a :: AncestorOrSelf(a, path) && IsFile(fs, a)
    decreases Rank(path)
  {
    if exists a :: AncestorOrSelf(a, path) && IsFile(fs, a) {
      var a :| AncestorOrSelf(a, path) && IsFile(fs, a);
      if path in fs {
        if a != path {
          AncestorsAreDirs(fs, path, a);
        }
      } else if !IsRoot(path) {
        ParentRank(path);
        FirstPresentIsFile(fs, ParentOf(path).0);
      }
    }
  }

  /** Everything above an existing path of a well-formed tree is a directory. */
  lemma AncestorsAreDirs(fs: FileSystem, path: string, a: string)
    requires WellFormed(fs) && path in fs && AncestorOrSelf(a, path) && a != path
    ensures IsDir(fs, a)
    decreases Rank(path)
  {
    ParentRank(path);
    var q := ParentOf(path).0;
    if a != q {
      AncestorsAreDirs(fs, q, a);
    }
  }

  // ---------------------------------------------------------------------
  // Reading and writing files
  // ---------------------------------------------------------------------

  /** The text of a file; opening a missing path or a directory raises. */
  function ReadText(fs: FileSystem, path: string): (r: Outcome<string>)
    ensures r.Returned? <==> IsFile(fs, path)
    ensures r.Returned? ==> r.value == fs[path].content
  {
    if path !in fs then Raised(NoSuchFile + Repr(path))
    else match fs[path]
      case File(content) => Returned(content)
      case Directory(_) => Raised(IsADirectory + Repr(path))
  }

  /**
   * `write_file(path, old, new)`: store `new` as the file's text and return
   * the diff from `old` to `new`. Every other path keeps its node.
   */
  function WriteFile(fs: FileSystem, path: string, oldText: string, newText: string, differ: Differ): (r: (FileSystem, string))
    ensures r.0 == fs[path := File(newText)]
    ensures r.1 == differ(path, oldText, newText)
    ensures ReadText(r.0, path) == Returned(newText)
  {
    (fs[path := File(newText)], differ(path, oldText, newText))
  }

  /** A file can be written at `path`: it is one, or it is new in an existing directory. */
  predicate Writable(fs: FileSystem, path: string)
  {
    IsFile(fs, path) || (path !in fs && IsDir(fs, ParentOf(path).0))
  }

  /**
   * `open(path, "w")` and writing `text`: an existing file is overwritten
   * and a new one is listed in its directory. A directory at the path
   * raises, and so does a new path whose directory is missing or lies
   * under a file.
   */
  function WriteText(fs: FileSystem, path: string, text: string): (r: Outcome<FileSystem>)
    ensures r.Returned? <==> Writable(fs, path)
    ensures r.Returned? ==> ReadText(r.value, path) == Returned(text)
    ensures r.Returned? ==> r.value.Keys == fs.Keys + {path} && Grows(fs[path := File(text)], r.value)
    ensures r.Returned? ==> forall p :: p in fs && p != path && p != ParentOf(path).0 ==> r.value[p] == fs[p]
    ensures r.Returned? && path !in fs ==> ParentOf(path).1 in r.value[ParentOf(path).0].entries
    ensures IsDir(fs, path) ==> r == Raised(IsADirectory + Repr(path))
    ensures path !in fs && !IsDir(fs, ParentOf(path).0) ==>
      r == Raised((if IsFile(fs, FirstPresent(fs, ParentOf(path).0)) then NotADirectory else NoSuchFile) + Repr(path))
  {
    if path in fs then
      if fs[path].File? then Returned(fs[path := File(text)]) else Raised(IsADirectory + Repr(path))
    else
      var (parent, name) := ParentOf(path);
      if IsDir(fs, parent) then Returned(AddEntry(fs, parent, name)[path := File(text)])
      else if IsFile(fs, FirstPresent(fs, parent)) then Raised(NotADirectory + Repr(path))
      else Raised(NoSuchFile + Repr(path))
  }

  /** `WriteText` keeps a well-formed tree well formed. */
  lemma WriteTextWellFormed(fs: FileSystem, path: string, text: string)
    requires WellFormed(fs) && Writable(fs, path)
    ensures WellFormed(WriteText(fs, path, text).value)
  {
    if path !in fs {
      var (parent, name) := ParentOf(path);
      AddEntryWellFormed(fs, parent, name);
      NewLeafWellFormed(AddEntry(fs, parent, name), path, File(text));
    }
  }

  /** Writing a path twice leaves what the second write leaves. */
  lemma WriteTextTwice(fs: FileSystem, path: string, first: string, second: string)
    requires Writable(fs, path)
    ensures WriteText(WriteText(fs, path, first).value, path, second) == WriteText(fs, path, second)
  {
    var once := WriteText(fs, path, first).value;
    assert IsFile(once, path);
    if path in fs {
      assert once[path := File(second)] == fs[path := File(second)];
    } else {
      var (parent, name) := ParentOf(path);
      var added := AddEntry(fs, parent, name);
      assert once == added[path := File(first)];
      assert once[path := File(second)] == added[path := File(second)];
    }
  }

  /**
   * `Path(dir).mkdir(parents=True, exist_ok=True)`: the same directories
   * as `MakeDirs`, but a failure names `dir` itself, as `FileExistsError`
   * when it is a file and as `NotADirectoryError` when a file lies above it.
   */
  function MakeParents(fs: FileSystem, dir: string): (r: Outcome<FileSystem>)
    ensures r.Returned? <==> MakeDirs(fs, dir).Returned?
    ensures r.Returned? ==> r == MakeDirs(fs, dir)
    ensures r.Raised? ==> r.exception == (if IsFile(fs, dir) then FileExists else NotADirectory) + Repr(dir)
  {
    match MakeDirs(fs, dir)
    case Raised(_) => Raised((if IsFile(fs, dir) then FileExists else NotADirectory) + Repr(dir))
    case Returned(fs1) => Returned(fs1)
  }

  /** Rewriting an existing file keeps a well-formed tree well formed. */
  lemma WriteFileWellFormed(fs: FileSystem, path: string, oldText: string, newText: string, differ: Differ)
    requires WellFormed(fs) && IsFile(fs, path)
    ensures WellFormed(WriteFile(fs, path, oldText, newText, differ).0)
  {
    assert fs.Keys == WriteFile(fs, path, oldText, newText, differ).0.Keys;
  }
}

=== FILE: indexing.dfy ===
/**
 * Python's dict built from a sequence of keys and values
 * (`{k: v for ...}` or repeated `d[k] = v`): a key that occurs more than
 * once ends up with the value of its last occurrence.
 */
module Indexing {

  /** Position `i` is the last occurrence of `k`. */
  predicate IsLast<K(==,!new)>(keys: seq<K>, k: K, i: int)
  {
    0 <= i < |keys| && keys[i] == k && forall j :: i < j < |keys| ==> keys[j] != k
  }

  /** The position of the last occurrence of `k`. */
  function LastIndex<K(==,!new)>(keys: seq<K>, k: K): (i: nat)
    requires k in keys
    ensures IsLast(keys, k, i)
    decreases |keys|
  {
    if keys[|keys| - 1] == k then |keys| - 1
    else
      assert k in keys[..|keys| - 1] by {
        var j :| 0 <= j < |keys| && keys[j] == k;
        assert keys[..|keys| - 1][j] == k;
      }
      LastIndex(keys[..|keys| - 1], k)
  }

  /** The dict obtained by storing `vals[i]` under `keys[i]` for each `i` in turn. */
  function Index<K(==,!new), V>(keys: seq<K>, vals: seq<V>): (m: map<K, V>)
    requires |keys| == |vals|
    ensures forall k :: k in m <==> k in keys
    decreases |keys|
  {
    if keys == [] then map[]
    else
      var n := |keys| - 1;
      assert keys == keys[..n] + [keys[n]];
      Index(keys[..n], vals[..n])[keys[n] := vals[n]]
  }

  /** Each key is stored with the value of its last occurrence. */
  lemma {:induction false} IndexKeepsLast<K(!new), V>(keys: seq<K>, vals: seq<V>, k: K)
    requires |keys| == |vals| && k in keys
    ensures k in Index(keys, vals) && Index(keys, vals)[k] == vals[LastIndex(keys, k)]
    decreases |keys|
  {
    var n := |keys| - 1;
    if keys[n] != k {
      var i := LastIndex(keys, k);
      assert IsLast(keys[..n], k, i);
      assert k in keys[..n];
      IndexKeepsLast(keys[..n], vals[..n], k);
      LastIsUnique(keys[..n], k, i);
    }
  }

  lemma LastIsUnique<K(!new)>(keys: seq<K>, k: K, i: int)
    requires IsLast(keys, k, i)
    ensures LastIndex(keys, k) == i
  {
  }

  /** Adding one more pair overwrites that key's entry and leaves the others. */
  lemma IndexSnoc<K(!new), V>(keys: seq<K>, vals: seq<V>, k: K, v: V)
    requires |keys| == |vals|
    ensures Index(keys + [k], vals + [v]) == Index(keys, vals)[k := v]
  {
    assert (keys + [k])[..|keys|] == keys;
    assert (vals + [v])[..|vals|] == vals;
  }
}

=== FILE: json.dfy ===
/**
 * Decoded JSON (or YAML) values as Python holds them after `json.load`:
 * `None`, booleans, integers, strings, lists and dicts.
 */
module JsonData {

  datatype Json =
    | Null
    | Bool(b: bool)
    | Num(n: int)
    | Str(s: string)
    | Arr(items: seq<Json>)
    | Obj(fields: map<string, Json>)

  /** Python truthiness: `None`, `False`, `0`, `""`, `[]` and `{}` are false. */
  predicate Truthy(v: Json)
  {
    match v
    case Null => false
    case Bool(b) => b
    case Num(n) => n != 0
    case Str(s) => s != ""
    case Arr(items) => items != []
    case Obj(fields) => fields != map[]
  }

  /** The Python type name of a value, as it appears in a `TypeError`. */
  function TypeName(v: Json): string
  {
    match v
    case Null => "NoneType"
    case Bool(_) => "bool"
    case Num(_) => "int"
    case Str(_) => "str"
    case Arr(_) => "list"
    case Obj(_) => "dict"
  }
}

=== FILE: memory.dfy ===
/**
 * Short-term memory: when the transcript grows too long, a forked agent
 * is asked to record the context to files, and the transcript is then
 * replaced by its first message and the fork's answer.
 */
module ShortTermMemory {
  import opened Wrappers
  import opened JsonData
  import Files
  import Tools
  import Executor
  import TextView
  import TextEdit
  import opened Agents
  import ToolKits

  /** How a loop over model replies ends. */
  datatype Finish = Answer(content: Option<string>) | Crash(error: string) | OutOfTurns

  const RecordingPrompt := "Wait, do not perform any actions other than recording. Please document the key context and task progress in detail based on the previous conversation, following the 5W1H principle for future reference. Key context should be saved in the `.contextify/short_term_memory/context/xxx.md`. Task progress should be saved in the `.contextify/short_term_memory/progress/xxx.md`. After completing the documentation, return a detailed response and do not perform any actions other than recording."

  const IndexErrorText := "list index out of range"

  /**
   * `solve(agent)`: invoke until a reply makes no tool call, for at most
   * `fuel` invocations; the answer is that reply's content.
   */
  function RunUntilAnswer(llm: LanguageModel, specs: seq<ToolKits.ToolSpec>, ms: seq<Message>, fuel: nat): (r: (Finish, seq<Message>))
    decreases fuel
  {
    if fuel == 0 then (OutOfTurns, ms)
    else
      var reply := llm(ms, ToolKits.SpecSchemas(specs));
      var next := Answered(specs, ms, reply);
      if reply.toolCalls == [] then (Answer(reply.content), next)
      else RunUntilAnswer(llm, specs, next, fuel - 1)
  }

  /**
   * The run never crashes and only appends to the transcript; an answer is
   * the content of a last assistant entry that calls no tool, and a run out
   * of turns with turns to spend has added entries.
   */
  lemma {:induction false} RunUntilAnswerShape(llm: LanguageModel, specs: seq<ToolKits.ToolSpec>, ms: seq<Message>, fuel: nat)
    ensures var r := RunUntilAnswer(llm, specs, ms, fuel);
      && !r.0.Crash?
      && |ms| <= |r.1| && r.1[..|ms|] == ms
      && (r.0.Answer? ==>
            |r.1| > |ms| && r.1[|r.1| - 1].role == "assistant" &&
            r.1[|r.1| - 1].toolCalls == [] && r.1[|r.1| - 1].content == r.0.content)
      && (r.0.OutOfTurns? ==> fuel == 0 || |r.1| > |ms|)
    decreases fuel
  {
    if fuel > 0 {
      var reply := llm(ms, ToolKits.SpecSchemas(specs));
      var next := Answered(specs, ms, reply);
      InvokeAnswersEveryCall(specs, ms, reply);
      if reply.toolCalls != [] {
        RunUntilAnswerShape(llm, specs, next, fuel - 1);
        var r := RunUntilAnswer(llm, specs, next, fuel - 1);
        assert r.1[..|ms|] == r.1[..|next|][..|ms|];
      }
    }
  }

  /** One turn of `RunUntilAnswer`. */
  lemma RunStep(llm: LanguageModel, specs: seq<ToolKits.ToolSpec>, ms: seq<Message>, fuel: nat, reply: Response, next: seq<Message>)
    requires fuel > 0
    requires reply == llm(ms, ToolKits.SpecSchemas(specs))
    requires next == Answered(specs, ms, reply)
    ensures reply.toolCalls == [] ==> RunUntilAnswer(llm, specs, ms, fuel) == (Answer(reply.content), next)
    ensures reply.toolCalls != [] ==> RunUntilAnswer(llm, specs, ms, fuel) == RunUntilAnswer(llm, specs, next, fuel - 1)
  {
  }

  /**
   * `summarize` seen from the agent being compacted: on an answer its
   * transcript becomes its first message and the answer; a fork that does
   * not answer leaves it alone, and an empty transcript has no first message.
   */
  function Compacted(llm: LanguageModel, specs: seq<ToolKits.ToolSpec>, prompt: string, ms: seq<Message>, fuel: nat): (r: (Finish, seq<Message>))
    ensures r.0.Answer? ==>
      ms != [] && |r.1| == 2 && r.1[0] == ms[0] && r.1[1] == Message("assistant", r.0.content, None, [], None)
    ensures !r.0.Answer? ==> r.1 == ms
    ensures ms == [] ==> !r.0.Answer?
    ensures r.0.Crash? ==> ms == [] && r.0.error == IndexErrorText
    ensures var run := RunUntilAnswer(llm, specs, ms + [UserMessage(prompt)], fuel);
      (!run.0.Answer? ==> r.0 == run.0) &&
      (run.0.Answer? && ms != [] ==> r.0 == run.0) &&
      (run.0.Answer? && ms == [] ==> r.0 == Crash(IndexErrorText))
  {
    var run := RunUntilAnswer(llm, specs, ms + [UserMessage(prompt)], fuel);
    RunUntilAnswerShape(llm, specs, ms + [UserMessage(prompt)], fuel);
    if !run.0.Answer? then (run.0, ms)
    else if ms == [] then (Crash(IndexErrorText), ms)
    else (run.0, [ms[0], Message("assistant", run.0.content, None, [], None)])
  }

  /** The tools handed to the recording registry, in order: viewing and editing files, no shell. */
  function CompactionTools(validate: string -> Result<Json>, differ: Files.Differ): (ts: seq<Tools.Tool<Files.FileSystem>>)
    ensures |ts| == 4
    ensures ts[0].name == "view" && ts[1].name == "create_file"
    ensures ts[2].name == "insert_file" && ts[3].name == "replace_file"
  {
    [TextView.ViewTool(validate), TextEdit.CreateFileTool(validate, differ), TextEdit.InsertFileTool(validate, differ), TextEdit.ReplaceFileTool(validate)]
  }

  class ShortTermMemoryManager {
    const agent: Agent
    const tools: Executor.ToolExecutor<Files.FileSystem>
    /** The recording prompt the fork is given. */
    const prompt: string

    /**
     * `ShortTermMemoryManager(agent)`: the recording tools are a registry of
     * the view and edit tools, without the MCP server.
     */
    constructor (agent: Agent, validate: string -> Result<Json>, differ: Files.Differ)
      ensures this.agent == agent && prompt == RecordingPrompt
      ensures tools.tools == CompactionTools(validate, differ)
    {
      this.agent := agent;
      this.prompt := RecordingPrompt;
      var all := CompactionTools(validate, differ);
      Executor.RegistryWithoutFilters(all);
      this.tools := Executor.NewToolRegistry(all, [], [], false, []).0;
    }

    /** `solve(agent)`. */
    method Solve(sub: Agent, fuel: nat) returns (r: Finish)
      requires sub.Valid()
      modifies sub
      ensures (r, sub.messages) == RunUntilAnswer(sub.llm, sub.tools.tools, old(sub.messages), fuel)
    {
      var turns := fuel;
      ghost var specs := sub.tools.tools;
      ghost var llm := sub.llm;
      ghost var goal := RunUntilAnswer(llm, specs, sub.messages, fuel);
      while turns > 0
        invariant sub.Valid() && sub.tools.tools == specs
        invariant RunUntilAnswer(llm, specs, sub.messages, turns) == goal
        decreases turns
      {
        ghost var before := sub.messages;
        var reply := sub.Invoke(None);
        ghost var after := sub.messages;
        assert Asked(before, None) == before;
        RunStep(llm, specs, before, turns, reply, after);
        if reply.toolCalls == [] {
          return Answer(reply.content);
        }
        turns := turns - 1;
      }
      return OutOfTurns;
    }

    /**
     * `summarize`: a fork of the agent, holding a copy of its transcript and
     * the same model, is given the recording prompt and run to an answer;
     * then the agent's transcript is replaced by its first message and the
     * answer. `Agent.fork` is not part of this model, so the kit the fork
     * holds in place of the recording registry is a parameter.
     */
    method Summarize(forkKit: ToolKits.ToolKit, fuel: nat) returns (r: Finish)
      requires forkKit.Valid()
      modifies agent
      ensures (r, agent.messages) == Compacted(agent.llm, forkKit.tools, prompt, old(agent.messages), fuel)
    {
      var sub := new Agent(agent.llm, agent.tokenizer, Some(agent.messages), forkKit, []);
      sub.AppendUserMessage(prompt);
      r := Solve(sub, fuel);
      if !r.Answer? {
        return;
      }
      if agent.messages == [] {
        return Crash(IndexErrorText);
      }
      agent.messages := [agent.messages[0], Message("assistant", r.content, None, [], None)];
    }
  }
}

=== FILE: react.dfy ===
/**
 * The ReAct loop: before every invocation the transcript's token count is
 * checked against the budget and the transcript compacted when it is over;
 * the loop goes on while the model calls tools, and a reply without tool
 * calls ends it, unless feedback is asked for and the user types a line
 * that is not blank, which becomes the next user message.
 */
module ReActLoop {
  import opened Wrappers
  import opened Strings
  import opened Agents
  import opened ShortTermMemory
  import ToolKits
  import JsonData
  import Files


  /** The message of the `EOFError` that `input()` raises once standard input is exhausted. */
  const EofText := "EOF when reading a line"

  /** How a transcript is counted: `calc_token_nums`. */
  function TokenCount(tk: Tokenizer): seq<Message> -> nat
  {
    ms => TranscriptTokens(ms, tk)
  }

  /** How a transcript is compacted: `summarize`, its fork holding `forkSpecs`. */
  function Compaction(llm: LanguageModel, forkSpecs: seq<ToolKits.ToolSpec>, prompt: string, compactionFuel: nat): seq<Message> -> (Finish, seq<Message>)
  {
    ms => Compacted(llm, forkSpecs, prompt, ms, compactionFuel)
  }

  /**
   * The budget check: `None` with the transcript to invoke on, or the
   * finish that ends the loop when the compaction does not answer.
   */
  function Budgeted(count: seq<Message> -> nat, compact: seq<Message> -> (Finish, seq<Message>),
                    ms: seq<Message>, maxInputTokens: int): (Option<Finish>, seq<Message>)
  {
    if count(ms) <= maxInputTokens then (None, ms)
    else
      var c := compact(ms);
      if c.0.Answer? then (None, c.1) else (Some(c.0), c.1)
  }

  /** Where one turn of the loop leaves it: stopped with a finish, or going on. */
  datatype Step = Stop(finish: Finish, ms: seq<Message>) | Go(ms: seq<Message>, feedback: seq<string>)

  /**
   * One turn of `ReAct.solve`: the budget check, one invocation, and, on a
   * reply without tool calls, the feedback read when it is asked for.
   */
  function Turn(llm: LanguageModel, specs: seq<ToolKits.ToolSpec>, count: seq<Message> -> nat,
                compact: seq<Message> -> (Finish, seq<Message>), ms: seq<Message>,
                feedbackOn: bool, feedback: seq<string>, maxInputTokens: int): Step
  {
    var b := Budgeted(count, compact, ms, maxInputTokens);
    if b.0.Some? then Stop(b.0.value, b.1)
    else
      var reply := llm(b.1, ToolKits.SpecSchemas(specs));
      var next := Answered(specs, b.1, reply);
      if reply.toolCalls != [] then Go(next, feedback)
      else if !feedbackOn then Stop(Answer(reply.content), next)
      else if feedback == [] then Stop(Crash(EofText), next)
      else if Strip(feedback[0]) == [] then Stop(Answer(reply.content), next)
      else Go(next + [UserMessage(Strip(feedback[0]))], feedback[1..])
  }

  /**
   * `ReAct.solve`, for at most `fuel` turns: `count` and `compact` are the
   * agent's token count and its memory manager's compaction, and `feedback`
   * holds the lines the user would type.
   */
  function ReActRun(llm: LanguageModel, specs: seq<ToolKits.ToolSpec>, count: seq<Message> -> nat,
                    compact: seq<Message> -> (Finish, seq<Message>), ms: seq<Message>,
                    feedbackOn: bool, feedback: seq<string>, maxInputTokens: int, fuel: nat): (Finish, seq<Message>)
    decreases fuel
  {
    if fuel == 0 then (OutOfTurns, ms)
    else match Turn(llm, specs, count, compact, ms, feedbackOn, feedback, maxInputTokens)
      case Stop(f, last) => (f, last)
      case Go(next, rest) => ReActRun(llm, specs, count, compact, next, feedbackOn, rest, maxInputTokens, fuel - 1)
  }

  /**
   * Only a transcript over the budget is touched by the check; one over the
   * budget whose compaction answers is cut to its first message and the
   * recorded answer, and a compaction that does not answer ends the loop
   * with the transcript as it was.
   */
  lemma BudgetCheck(llm: LanguageModel, forkSpecs: seq<ToolKits.ToolSpec>, prompt: string, tk: Tokenizer,
                    ms: seq<Message>, maxInputTokens: int, compactionFuel: nat)
    ensures var b := Budgeted(TokenCount(tk), Compaction(llm, forkSpecs, prompt, compactionFuel), ms, maxInputTokens);
      && (TranscriptTokens(ms, tk) <= maxInputTokens ==> b.0.None? && b.1 == ms)
      && (TranscriptTokens(ms, tk) > maxInputTokens && b.0.None? ==>
            |b.1| == 2 && b.1[0] == ms[0] && b.1[1].role == "assistant" && b.1[1].toolCalls == [])
      && (b.0.Some? ==> TranscriptTokens(ms, tk) > maxInputTokens && b.1 == ms && !b.0.value.Answer?)
  {
  }

  /** A compaction crashes only on the first message of an empty transcript. */
  lemma CompactionCrashes(llm: LanguageModel, forkSpecs: seq<ToolKits.ToolSpec>, prompt: string, compactionFuel: nat, ms: seq<Message>)
    ensures Compaction(llm, forkSpecs, prompt, compactionFuel)(ms).0.Crash? ==>
      ms == [] && Compaction(llm, forkSpecs, prompt, compactionFuel)(ms).0.error == IndexErrorText
  {
  }

  /** A run with turns to spend is its first turn, then the rest of the run when that turn goes on. */
  lemma RunTurn(llm: LanguageModel, specs: seq<ToolKits.ToolSpec>, count: seq<Message> -> nat,
                compact: seq<Message> -> (Finish, seq<Message>), ms: seq<Message>,
                feedbackOn: bool, feedback: seq<string>, maxInputTokens: int, fuel: nat)
    requires fuel > 0
    ensures var t := Turn(llm, specs, count, compact, ms, feedbackOn, feedback, maxInputTokens);
      var r := ReActRun(llm, specs, count, compact, ms, feedbackOn, feedback, maxInputTokens, fuel);
      && (t.Stop? ==> r == (t.finish, t.ms))
      && (t.Go? ==> r == ReActRun(llm, specs, count, compact, t.ms, feedbackOn, t.feedback, maxInputTokens, fuel - 1))
  {
  }

  /** A turn after the budget check let the loop go on, case by case. */
  lemma TurnStep(llm: LanguageModel, specs: seq<ToolKits.ToolSpec>, count: seq<Message> -> nat,
                 compact: seq<Message> -> (Finish, seq<Message>), ms: seq<Message>,
                 feedbackOn: bool, feedback: seq<string>, maxInputTokens: int,
                 asked: seq<Message>, reply: Response)
    requires Budgeted(count, compact, ms, maxInputTokens) == (None, asked)
    requires reply == llm(asked, ToolKits.SpecSchemas(specs))
    ensures var next := Answered(specs, asked, reply);
      var t := Turn(llm, specs, count, compact, ms, feedbackOn, feedback, maxInputTokens);
      && (reply.toolCalls != [] ==> t == Go(next, feedback))
      && (reply.toolCalls == [] && !feedbackOn ==> t == Stop(Answer(reply.content), next))
      && (reply.toolCalls == [] && feedbackOn && feedback == [] ==> t == Stop(Crash(EofText), next))
      && (reply.toolCalls == [] && feedbackOn && feedback != [] && Strip(feedback[0]) == [] ==>
            t == Stop(Answer(reply.content), next))
      && (reply.toolCalls == [] && feedbackOn && feedback != [] && Strip(feedback[0]) != [] ==>
            t == Go(next + [UserMessage(Strip(feedback[0]))], feedback[1..]))
  {
  }

  /** The transcript ends on an assistant entry that calls no tool and carries `content`. */
  predicate EndsWithAnswer(ms: seq<Message>, content: Option<string>)
  {
    |ms| > 0 && ms[|ms| - 1].role == "assistant" && ms[|ms| - 1].toolCalls == [] && ms[|ms| - 1].content == content
  }

  /** A turn that stops with an answer ends on the reply that made no tool call. */
  lemma TurnAnswerShape(llm: LanguageModel, specs: seq<ToolKits.ToolSpec>, count: seq<Message> -> nat,
                        compact: seq<Message> -> (Finish, seq<Message>), ms: seq<Message>,
                        feedbackOn: bool, feedback: seq<string>, maxInputTokens: int)
    ensures var t := Turn(llm, specs, count, compact, ms, feedbackOn, feedback, maxInputTokens);
      t.Stop? && t.finish.Answer? ==> EndsWithAnswer(t.ms, t.finish.content)
  {
    var b := Budgeted(count, compact, ms, maxInputTokens);
    if b.0.None? {
      var reply := llm(b.1, ToolKits.SpecSchemas(specs));
      InvokeAnswersEveryCall(specs, b.1, reply);
    }
  }

  /** A run that answers ends on an assistant entry that calls no tool and carries the answer. */
  lemma {:induction false} ReActAnswerShape(llm: LanguageModel, specs: seq<ToolKits.ToolSpec>, count: seq<Message> -> nat,
                                            compact: seq<Message> -> (Finish, seq<Message>), ms: seq<Message>,
                                            feedbackOn: bool, feedback: seq<string>, maxInputTokens: int, fuel: nat)
    ensures var r := ReActRun(llm, specs, count, compact, ms, feedbackOn, feedback, maxInputTokens, fuel);
      r.0.Answer? ==> EndsWithAnswer(r.1, r.0.content)
    decreases fuel
  {
    if fuel > 0 {
      var t := Turn(llm, specs, count, compact, ms, feedbackOn, feedback, maxInputTokens);
      TurnAnswerShape(llm, specs, count, compact, ms, feedbackOn, feedback, maxInputTokens);
      if t.Go? {
        ReActAnswerShape(llm, specs, count, compact, t.ms, feedbackOn, t.feedback, maxInputTokens, fuel - 1);
      }
    }
  }

  /** A turn crashes only where the compaction does or, with feedback on, on exhausted input. */
  lemma TurnCrashCause(llm: LanguageModel, specs: seq<ToolKits.ToolSpec>, count: seq<Message> -> nat,
                       compact: seq<Message> -> (Finish, seq<Message>), ms: seq<Message>,
                       feedbackOn: bool, feedback: seq<string>, maxInputTokens: int)
    ensures var t := Turn(llm, specs, count, compact, ms, feedbackOn, feedback, maxInputTokens);
      t.Stop? && t.finish.Crash? ==>
        (t.finish == compact(ms).0 && count(ms) > maxInputTokens) || (feedbackOn && feedback == [] && t.finish.error == EofText)
  {
  }

  /**
   * A run crashes only where the compaction does (on the first message of
   * an empty transcript) or, with feedback on, on exhausted input.
   */
  lemma {:induction false} ReActCrashCause(llm: LanguageModel, specs: seq<ToolKits.ToolSpec>, count: seq<Message> -> nat,
                                           compact: seq<Message> -> (Finish, seq<Message>), ms: seq<Message>,
                                           feedbackOn: bool, feedback: seq<string>, maxInputTokens: int, fuel: nat)
    requires forall m :: compact(m).0.Crash? ==> compact(m).0.error == IndexErrorText
    ensures var r := ReActRun(llm, specs, count, compact, ms, feedbackOn, feedback, maxInputTokens, fuel);
      r.0.Crash? ==> r.0.error == IndexErrorText || (feedbackOn && r.0.error == EofText)
    decreases fuel
  {
    if fuel > 0 {
      var t := Turn(llm, specs, count, compact, ms, feedbackOn, feedback, maxInputTokens);
      TurnCrashCause(llm, specs, count, compact, ms, feedbackOn, feedback, maxInputTokens);
      if t.Go? {
        ReActCrashCause(llm, specs, count, compact, t.ms, feedbackOn, t.feedback, maxInputTokens, fuel - 1);
      }
    }
  }

  /** With feedback off a turn reads no line: it goes on with the lines it was given. */
  lemma TurnIgnoresFeedback(llm: LanguageModel, specs: seq<ToolKits.ToolSpec>, count: seq<Message> -> nat,
                            compact: seq<Message> -> (Finish, seq<Message>), ms: seq<Message>,
                            feedback: seq<string>, maxInputTokens: int)
    ensures var t := Turn(llm, specs, count, compact, ms, false, feedback, maxInputTokens);
      var u := Turn(llm, specs, count, compact, ms, false, [], maxInputTokens);
      && t.Stop? == u.Stop? && t.ms == u.ms
      && (t.Stop? ==> t.finish == u.finish)
      && (t.Go? ==> t.feedback == feedback)
  {
  }

  /** With feedback off the loop never reads standard input. */
  lemma {:induction false} NoFeedbackReadsNothing(llm: LanguageModel, specs: seq<ToolKits.ToolSpec>, count: seq<Message> -> nat,
                                                  compact: seq<Message> -> (Finish, seq<Message>), ms: seq<Message>,
                                                  feedback: seq<string>, maxInputTokens: int, fuel: nat)
    ensures ReActRun(llm, specs, count, compact, ms, false, feedback, maxInputTokens, fuel) ==
            ReActRun(llm, specs, count, compact, ms, false, [], maxInputTokens, fuel)
    decreases fuel
  {
    if fuel > 0 {
      var t := Turn(llm, specs, count, compact, ms, false, feedback, maxInputTokens);
      var u := Turn(llm, specs, count, compact, ms, false, [], maxInputTokens);
      TurnIgnoresFeedback(llm, specs, count, compact, ms, feedback, maxInputTokens);
      if t.Go? {
        NoFeedbackReadsNothing(llm, specs, count, compact, t.ms, feedback, maxInputTokens, fuel - 1);
        assert u.feedback == [];
      }
    }
  }

  class ReAct {
    const agent: Agent
    const memoryManager: ShortTermMemoryManager

    ghost predicate Valid()
      reads this, agent.tools
    {
      memoryManager.agent == agent && agent.Valid()
    }

    /** `ReAct(agent)`: the memory manager works on the same agent. */
    constructor (agent: Agent, validate: string -> Result<JsonData.Json>, differ: Files.Differ)
      requires agent.Valid()
      ensures Valid()
      ensures this.agent == agent && memoryManager.prompt == RecordingPrompt
    {
      this.agent := agent;
      this.memoryManager := new ShortTermMemoryManager(agent, validate, differ);
    }

    /**
     * `solve(max_input_tokens, feedback)`, whose `max_input_tokens` is
     * `64 * 1024` unless the caller gives one: the lines the user types are
     * `feedback`, the kit the compacting fork holds is `forkKit`, and at
     * most `fuel` invocations (each compaction at most `compactionFuel`)
     * are made.
     */
    method Solve(forkKit: ToolKits.ToolKit, feedbackOn: bool, feedback: seq<string>, maxInputTokens: int,
                 fuel: nat, compactionFuel: nat) returns (r: Finish)
      requires Valid() && forkKit.Valid()
      modifies agent
      ensures (r, agent.messages) ==
        ReActRun(agent.llm, agent.tools.tools, TokenCount(agent.tokenizer),
                 Compaction(agent.llm, forkKit.tools, memoryManager.prompt, compactionFuel),
                 old(agent.messages), feedbackOn, feedback, maxInputTokens, fuel)
    {
      ghost var llm := agent.llm;
      ghost var specs := agent.tools.tools;
      ghost var count := TokenCount(agent.tokenizer);
      ghost var compact := Compaction(llm, forkKit.tools, memoryManager.prompt, compactionFuel);
      ghost var goal := ReActRun(llm, specs, count, compact, agent.messages, feedbackOn, feedback, maxInputTokens, fuel);
      var turns := fuel;
      var lines := feedback;
      while turns > 0
        invariant Valid() && agent.tools.tools == specs && forkKit.Valid()
        invariant compact == Compaction(llm, forkKit.tools, memoryManager.prompt, compactionFuel)
        invariant ReActRun(llm, specs, count, compact, agent.messages, feedbackOn, lines, maxInputTokens, turns) == goal
        decreases turns
      {
        ghost var before := agent.messages;
        turns := turns - 1;
        ghost var b := Budgeted(count, compact, before, maxInputTokens);
        ghost var t := Turn(llm, specs, count, compact, before, feedbackOn, lines, maxInputTokens);
        RunTurn(llm, specs, count, compact, before, feedbackOn, lines, maxInputTokens, turns + 1);
        var tokens := agent.CalcTokenNums();
        if tokens > maxInputTokens {
          var c := memoryManager.Summarize(forkKit, compactionFuel);
          if !c.Answer? {
            return c;
          }
        }
        assert b == (None, agent.messages);
        ghost var asked := agent.messages;
        var reply := agent.Invoke(None);
        assert Asked(asked, None) == asked;
        TurnStep(llm, specs, count, compact, before, feedbackOn, lines, maxInputTokens, asked, reply);
        if reply.toolCalls == [] {
          if !feedbackOn {
            return Answer(reply.content);
          }
          if lines == [] {
            return Crash(EofText);
          }
          var res := Strip(lines[0]);
          lines := lines[1..];
          if res == [] {
            return Answer(reply.content);
          }
          agent.AppendUserMessage(res);
        }
        assert t == Go(agent.messages, lines);
      }
      return OutOfTurns;
    }
  }
}

=== FILE: strings.dfy ===
/**
 * The Python string and list primitives the runtime leans on: rendering
 * numbers, `"\n".join`, `splitlines`, `str.find`, `str.strip`, negative
 * slice indices and the repr of a list of names.
 */
module Strings {
  import opened Wrappers

  // ---------------------------------------------------------------------
  // Numbers
  // ---------------------------------------------------------------------

  predicate IsDigit(c: char) { '0' <= c <= '9' }

  function DigitChar(d: nat): (c: char)
    requires d < 10
    ensures IsDigit(c)
  {
    "0123456789"[d]
  }

  /** Decimal rendering of a natural number, as `str(n)`. */
  function NatToString(n: nat): (s: string)
    ensures |s| >= 1
    ensures forall i :: 0 <= i < |s| ==> IsDigit(s[i])
    decreases n
  {
    if n < 10 then [DigitChar(n)] else NatToString(n / 10) + [DigitChar(n % 10)]
  }

  /** Decimal rendering of an integer, as `str(i)`. */
  function IntToString(i: int): (s: string)
    ensures |s| >= 1
    ensures '\n' !in s
    ensures (s[0] == '-') <==> i < 0
  {
    if i < 0 then "-" + NatToString(-i) else NatToString(i)
  }

  // ---------------------------------------------------------------------
  // Searching
  // ---------------------------------------------------------------------

  /** Does `sub` occur in `s` at position `i`? */
  predicate OccursAt(s: string, sub: string, i: nat)
  {
    i + |sub| <= |s| && s[i..i + |sub|] == sub
  }

  /** First occurrence of `sub` in `s` at or after `from`. */
  function FindFrom(s: string, sub: string, from: nat): (r: Option<nat>)
    requires from <= |s|
    ensures r.Some? ==> from <= r.value && OccursAt(s, sub, r.value)
    ensures r.Some? ==> forall j :: from <= j < r.value ==> !OccursAt(s, sub, j)
    ensures r.None? ==> forall j :: from <= j <= |s| ==> !OccursAt(s, sub, j)
    decreases |s| - from
  {
    if from + |sub| > |s| then None
    else if s[from..from + |sub|] == sub then Some(from)
    else if from == |s| then None
    else FindFrom(s, sub, from + 1)
  }

  /** `s.find(sub)`, with `None` for Python's `-1`. */
  function IndexOf(s: string, sub: string): (r: Option<nat>)
    ensures r.Some? ==> OccursAt(s, sub, r.value)
    ensures r.Some? ==> forall j :: 0 <= j < r.value ==> !OccursAt(s, sub, j)
    ensures r.None? ==> forall j :: 0 <= j <= |s| ==> !OccursAt(s, sub, j)
  {
    FindFrom(s, sub, 0)
  }

  /** `sub in s`. */
  predicate Contains(s: string, sub: string)
  {
    IndexOf(s, sub).Some?
  }

  /** Text found in `s` is still found once something is put before `s`. */
  lemma ContainsAfter(p: string, s: string, sub: string)
    requires Contains(s, sub)
    ensures Contains(p + s, sub)
  {
    var k := IndexOf(s, sub).value;
    assert OccursAt(p + s, sub, |p| + k) by {
      assert (p + s)[|p| + k..|p| + k + |sub|] == s[k..k + |sub|];
    }
  }

  /** The text before the first occurrence of `sub` never contains `sub`. */
  lemma PrefixBeforeFirstOccurrence(s: string, sub: string)
    requires sub != "" && Contains(s, sub)
    ensures !Contains(s[..IndexOf(s, sub).value], sub)
  {
    var k := IndexOf(s, sub).value;
    var p := s[..k];
    if Contains(p, sub) {
      var j := IndexOf(p, sub).value;
      assert p[j..j + |sub|] == s[j..j + |sub|];
      assert OccursAt(s, sub, j);
      assert false;
    }
  }

  /** `s.find(c)` for a single character. */
  function IndexOfChar(s: string, c: char): (r: Option<nat>)
    ensures r.Some? ==> r.value < |s| && s[r.value] == c && c !in s[..r.value]
    ensures r.None? ==> c !in s
  {
    if s == [] then None
    else if s[0] == c then Some(0)
    else match IndexOfChar(s[1..], c)
      case None => None
      case Some(k) =>
        assert s[..k + 1] == [s[0]] + s[1..][..k];
        Some(k + 1)
  }

  predicate StartsWith(s: string, prefix: string)
  {
    |prefix| <= |s| && s[..|prefix|] == prefix
  }

  predicate EndsWith(s: string, suffix: string)
  {
    |suffix| <= |s| && s[|s| - |suffix|..] == suffix
  }

  // ---------------------------------------------------------------------
  // Whitespace
  // ---------------------------------------------------------------------

  /**
   * The characters `str.isspace()` accepts, which `str.strip()` removes:
   * tab to carriage return, the four ASCII separators and the space, next
   * line, no-break space and the Unicode space and separator characters.
   */
  predicate IsWhitespace(c: char)
  {
    ('\t' <= c <= '\r') || ('\U{1C}' <= c <= ' ') || c == '\U{85}' || c == '\U{A0}' || c == '\U{1680}' ||
    ('\U{2000}' <= c <= '\U{200A}') || c == '\U{2028}' || c == '\U{2029}' || c == '\U{202F}' ||
    c == '\U{205F}' || c == '\U{3000}'
  }

  /** Neither end of `s` is whitespace. */
  predicate Stripped(s: string)
  {
    s == [] || (!IsWhitespace(s[0]) && !IsWhitespace(s[|s| - 1]))
  }

  function TrimStart(s: string): (r: string)
    ensures |r| <= |s| && r == s[|s| - |r|..]
    ensures r == [] || !IsWhitespace(r[0])
    ensures forall i :: 0 <= i < |s| - |r| ==> IsWhitespace(s[i])
  {
    if s != [] && IsWhitespace(s[0]) then TrimStart(s[1..]) else s
  }

  function TrimEnd(s: string): (r: string)
    ensures |r| <= |s| && r == s[..|r|]
    ensures r == [] || !IsWhitespace(r[|r| - 1])
    ensures forall i :: |r| <= i < |s| ==> IsWhitespace(s[i])
  {
    if s != [] && IsWhitespace(s[|s| - 1]) then TrimEnd(s[..|s| - 1]) else s
  }

  /** `s.strip()`. */
  function Strip(s: string): (r: string)
    ensures Stripped(r)
    ensures Stripped(s) ==> r == s
  {
    TrimEnd(TrimStart(s))
  }

  // ---------------------------------------------------------------------
  // Lines
  // ---------------------------------------------------------------------

  /** `sep.join(xs)`. */
  function Join(sep: string, xs: seq<string>): string
  {
    if xs == [] then ""
    else if |xs| == 1 then xs[0]
    else xs[0] + sep + Join(sep, xs[1..])
  }

  /** Every element followed by a newline: `"".join(x + "\n" for x in xs)`. */
  function Terminated(xs: seq<string>): string
  {
    if xs == [] then "" else xs[0] + "\n" + Terminated(xs[1..])
  }

  predicate NoNewlines(xs: seq<string>)
  {
    forall i :: 0 <= i < |xs| ==> '\n' !in xs[i]
  }

  /**
   * `s.splitlines()` for text whose only line break is `"\n"`: a trailing
   * break does not open an empty last line, and `""` has no lines.
   */
  function SplitLines(s: string): (lines: seq<string>)
    ensures NoNewlines(lines)
    decreases |s|
  {
    if s == [] then []
    else match IndexOfChar(s, '\n')
      case None => [s]
      case Some(k) => [s[..k]] + SplitLines(s[k + 1..])
  }

  /** A line without a break, then a break: `splitlines` peels off that line. */
  lemma SplitLinesCons(x: string, rest: string)
    requires '\n' !in x
    ensures SplitLines(x + "\n" + rest) == [x] + SplitLines(rest)
  {
    var s := x + "\n" + rest;
    assert s[|x|] == '\n';
    assert s[..|x|] == x;
    assert IndexOfChar(s, '\n') == Some(|x|);
    assert s[|x| + 1..] == rest;
  }

  /** Splitting newline-terminated lines followed by an unterminated tail. */
  lemma {:induction false} SplitLinesAppend(ys: seq<string>, z: string)
    requires NoNewlines(ys) && '\n' !in z
    ensures SplitLines(Terminated(ys) + z) == ys + (if z == "" then [] else [z])
    decreases |ys|
  {
    if ys == [] {
      assert Terminated(ys) + z == z;
    } else {
      var rest := Terminated(ys[1..]) + z;
      assert Terminated(ys) + z == ys[0] + "\n" + rest;
      SplitLinesCons(ys[0], rest);
      SplitLinesAppend(ys[1..], z);
      assert ys == [ys[0]] + ys[1..];
    }
  }

  /** `splitlines` undoes newline termination. */
  lemma SplitTerminated(ys: seq<string>)
    requires NoNewlines(ys)
    ensures SplitLines(Terminated(ys)) == ys
  {
    SplitLinesAppend(ys, "");
    assert Terminated(ys) + "" == Terminated(ys);
  }

  lemma {:induction false} JoinAsTerminated(xs: seq<string>)
    requires xs != []
    ensures Join("\n", xs) == Terminated(xs[..|xs| - 1]) + xs[|xs| - 1]
    decreases |xs|
  {
    if |xs| > 1 {
      JoinAsTerminated(xs[1..]);
      assert xs[1..][..|xs[1..]| - 1] == xs[..|xs| - 1][1..];
    }
  }

  /**
   * `splitlines` undoes `"\n".join` when no element holds a line break and
   * the last element is not empty.
   */
  lemma {:induction false} SplitJoin(xs: seq<string>)
    requires NoNewlines(xs)
    requires xs == [] || xs[|xs| - 1] != ""
    ensures SplitLines(Join("\n", xs)) == xs
  {
    if xs != [] {
      JoinAsTerminated(xs);
      var init := xs[..|xs| - 1];
      var last := xs[|xs| - 1];
      assert NoNewlines(init) && '\n' !in last;
      SplitLinesAppend(init, last);
      assert init + [last] == xs;
    }
  }

  /** Joining two non-empty lists is joining each and putting one separator between. */
  lemma {:induction false} JoinAppend(sep: string, a: seq<string>, b: seq<string>)
    requires a != [] && b != []
    ensures Join(sep, a + b) == Join(sep, a) + sep + Join(sep, b)
    decreases |a|
  {
    assert (a + b)[0] == a[0];
    assert (a + b)[1..] == a[1..] + b;
    if |a| > 1 {
      JoinAppend(sep, a[1..], b);
    }
  }

  // ---------------------------------------------------------------------
  // Python slices and reprs
  // ---------------------------------------------------------------------

  /** The position a Python slice bound `i` denotes in a sequence of length `n`. */
  function PyIndex(i: int, n: nat): (r: nat)
    ensures r <= n
    ensures 0 <= i <= n ==> r == i
    ensures i < 0 && n + i >= 0 ==> r == n + i
    ensures n + i < 0 ==> r == 0
    ensures i > n ==> r == n
  {
    if i < 0 then (if n + i < 0 then 0 else n + i)
    else if i > n then n
    else i
  }

  /** `s[:b]`. */
  function SliceTo<T>(s: seq<T>, b: int): seq<T>
  {
    s[..PyIndex(b, |s|)]
  }

  /** `s[a:]`. */
  function SliceFrom<T>(s: seq<T>, a: int): seq<T>
  {
    s[PyIndex(a, |s|)..]
  }

  // ---------------------------------------------------------------------
  // repr
  // ---------------------------------------------------------------------

  const HexDigits := "0123456789abcdef"

  /** `repr` quotes with `"` only when the text holds `'` and no `"`. */
  function ReprQuote(s: string): (q: char)
    ensures q == '\'' || q == '"'
    ensures q in s ==> '\'' in s && '"' in s
  {
    if IndexOfChar(s, '\'').Some? && IndexOfChar(s, '"').None? then '"' else '\''
  }

  /**
   * How `repr` writes one character between quotes `q`: the quote and the
   * backslash behind a backslash, tab, newline and carriage return as
   * `\t`, `\n`, `\r`, other ASCII control characters as `\xhh`, and
   * everything else as itself.
   */
  function EscapeChar(c: char, q: char): string
  {
    if c == q || c == '\\' then ['\\', c]
    else if c == '\t' then "\\t"
    else if c == '\n' then "\\n"
    else if c == '\r' then "\\r"
    else if c as int < 0x20 || c as int == 0x7f then ['\\', 'x', HexDigits[c as int / 16], HexDigits[c as int % 16]]
    else [c]
  }

  function EscapeAll(s: string, q: char): string
    decreases |s|
  {
    if s == [] then [] else EscapeChar(s[0], q) + EscapeAll(s[1..], q)
  }

  /** `repr(s)`. */
  function Repr(s: string): (r: string)
    ensures |r| >= 2 && r[0] == ReprQuote(s) && r[|r| - 1] == ReprQuote(s)
  {
    [ReprQuote(s)] + EscapeAll(s, ReprQuote(s)) + [ReprQuote(s)]
  }

  /** The value of a lower-case hex digit. */
  function HexValue(c: char): (r: Option<nat>)
    ensures r.Some? ==> r.value < 16 && HexDigits[r.value] == c
  {
    if '0' <= c <= '9' then Some(c as int - '0' as int)
    else if 'a' <= c <= 'f' then Some(c as int - 'a' as int + 10)
    else None
  }

  /**
   * Reads back the inside of a literal quoted with `q`: the escapes
   * `EscapeChar` writes, and any other character but a bare `q`.
   */
  function Unescape(t: string, q: char): Option<string>
    decreases |t|
  {
    if t == [] then Some([])
    else if t[0] == q then None
    else if t[0] != '\\' then
      match Unescape(t[1..], q)
      case None => None
      case Some(rest) => Some([t[0]] + rest)
    else if |t| < 2 then None
    else if t[1] == 'x' then
      if |t| < 4 then None
      else match (HexValue(t[2]), HexValue(t[3]), Unescape(t[4..], q))
        case (Some(hi), Some(lo), Some(rest)) => Some([(16 * hi + lo) as char] + rest)
        case _ => None
    else
      var c := if t[1] == 't' then Some('\t') else if t[1] == 'n' then Some('\n') else if t[1] == 'r' then Some('\r')
        else if t[1] == q || t[1] == '\\' then Some(t[1]) else None;
      match (c, Unescape(t[2..], q))
      case (Some(d), Some(rest)) => Some([d] + rest)
      case _ => None
  }

  /** Reading back one escaped character. */
  lemma UnescapeChar(c: char, q: char, t: string)
    requires q == '\'' || q == '"'
    ensures Unescape(EscapeChar(c, q) + t, q) == match Unescape(t, q) case None => None case Some(rest) => Some([c] + rest)
  {
    var e := EscapeChar(c, q);
    assert (e + t)[0] == e[0];
    if |e| == 1 {
      assert (e + t)[1..] == t;
    } else if |e| == 2 {
      assert (e + t)[1] == e[1];
      assert (e + t)[2..] == t;
    } else {
      var hi, lo := c as int / 16, c as int % 16;
      assert (e + t)[1] == 'x' && (e + t)[2] == HexDigits[hi] && (e + t)[3] == HexDigits[lo];
      assert (e + t)[4..] == t;
      assert HexValue(HexDigits[hi]) == Some(hi) && HexValue(HexDigits[lo]) == Some(lo) by {
        HexValueOfDigit(hi);
        HexValueOfDigit(lo);
      }
    }
  }

  lemma HexValueOfDigit(n: nat)
    requires n < 16
    ensures HexValue(HexDigits[n]) == Some(n)
  {
  }

  /** The escaped text reads back as the text. */
  lemma {:induction false} EscapeRoundTrip(s: string, q: char)
    requires q == '\'' || q == '"'
    ensures Unescape(EscapeAll(s, q), q) == Some(s)
    decreases |s|
  {
    if s != [] {
      EscapeRoundTrip(s[1..], q);
      UnescapeChar(s[0], q, EscapeAll(s[1..], q));
      assert [s[0]] + s[1..] == s;
    }
  }

  /**
   * `repr` is a literal: it is the text between two equal quotes, and the
   * inside reads back as the original text, so different texts have
   * different reprs.
   */
  lemma ReprReadsBack(s: string)
    ensures var r := Repr(s);
      r[0] == r[|r| - 1] && Unescape(r[1..|r| - 1], r[0]) == Some(s)
  {
    var r := Repr(s);
    assert r[1..|r| - 1] == EscapeAll(s, ReprQuote(s));
    EscapeRoundTrip(s, ReprQuote(s));
  }

  lemma ReprInjective(s: string, t: string)
    requires Repr(s) == Repr(t)
    ensures s == t
  {
    ReprReadsBack(s);
    ReprReadsBack(t);
  }

  /** Text without quotes, backslashes or control characters is only wrapped in `'`. */
  lemma {:induction false} ReprPlain(s: string)
    requires forall i :: 0 <= i < |s| ==> s[i] != '\'' && s[i] != '\\' && s[i] as int >= 0x20 && s[i] as int != 0x7f
    ensures Repr(s) == "'" + s + "'"
  {
    EscapePlain(s);
  }

  lemma {:induction false} EscapePlain(s: string)
    requires forall i :: 0 <= i < |s| ==> s[i] != '\'' && s[i] != '\\' && s[i] as int >= 0x20 && s[i] as int != 0x7f
    ensures EscapeAll(s, '\'') == s
    decreases |s|
  {
    if s != [] {
      EscapePlain(s[1..]);
      assert [s[0]] + s[1..] == s;
    }
  }

  // ---------------------------------------------------------------------
  // str of a list of strings
  // ---------------------------------------------------------------------

  /** The parts, separated by `, `. */
  function CommaJoined(parts: seq<string>): string
    decreases |parts|
  {
    if parts == [] then ""
    else if |parts| == 1 then parts[0]
    else parts[0] + ", " + CommaJoined(parts[1..])
  }

  /** `str(names)`: `['a', 'b']`, the reprs of the names joined by `, ` in brackets. */
  function ListRepr(xs: seq<string>): string
  {
    "[" + CommaJoined(seq(|xs|, i requires 0 <= i < |xs| => Repr(xs[i]))) + "]"
  }

  /** Every name of the list appears, as its repr, in the list's. */
  lemma {:induction false} ListReprQuotesEach(xs: seq<string>, i: nat)
    requires i < |xs|
    ensures Contains(ListRepr(xs), Repr(xs[i]))
  {
    var parts := seq(|xs|, i requires 0 <= i < |xs| => Repr(xs[i]));
    var p := PartPosition(parts, i);
    OccursInside("[", CommaJoined(parts), "]", parts[i], p);
    OccursContains(ListRepr(xs), parts[i], 1 + p);
  }

  /** An occurrence stays one, shifted, when text is put around it. */
  lemma OccursInside(a: string, s: string, b: string, sub: string, k: nat)
    requires OccursAt(s, sub, k)
    ensures OccursAt(a + s + b, sub, |a| + k)
  {
    assert (a + s + b)[|a| + k..|a| + k + |sub|] == s[k..k + |sub|];
  }

  lemma OccursContains(s: string, sub: string, k: nat)
    requires OccursAt(s, sub, k)
    ensures Contains(s, sub)
  {
  }

  lemma {:induction false} PartAt(parts: seq<string>, i: nat)
    requires i < |parts|
    ensures OccursAt(CommaJoined(parts), parts[i], PartOffset(parts, i))
    decreases i
  {
    if i == 0 {
      var rest := if |parts| == 1 then "" else ", " + CommaJoined(parts[1..]);
      assert CommaJoined(parts) == parts[0] + rest;
      OccursAtStart(parts[0], rest);
    } else {
      PartAt(parts[1..], i - 1);
      assert parts[1..][i - 1] == parts[i];
      OccursAfter(parts[0] + ", ", CommaJoined(parts[1..]), parts[i], PartOffset(parts[1..], i - 1));
    }
  }

  lemma OccursAtStart(s: string, rest: string)
    ensures OccursAt(s + rest, s, 0)
  {
    assert (s + rest)[..|s|] == s;
  }

  lemma OccursAfter(a: string, s: string, sub: string, k: nat)
    requires OccursAt(s, sub, k)
    ensures OccursAt(a + s, sub, |a| + k)
  {
    assert (a + s)[|a| + k..|a| + k + |sub|] == s[k..k + |sub|];
  }

  function PartOffset(parts: seq<string>, i: nat): nat
    requires i < |parts|
    decreases i
  {
    if i == 0 then 0 else |parts[0]| + 2 + PartOffset(parts[1..], i - 1)
  }

  function PartPosition(parts: seq<string>, i: nat): (p: nat)
    requires i < |parts|
    ensures OccursAt(CommaJoined(parts), parts[i], p)
  {
    PartAt(parts, i);
    PartOffset(parts, i)
  }
}

=== FILE: textedit.dfy ===
/**
 * Editing: `insert_file` puts a new line at a line number, `replace_file`
 * replaces a range of lines, and the `create_file`, `insert_file` and
 * `replace_file` tools expose them (and file creation) to the model.
 *
 * `read_raw_file` reads the file's text; it is modelled as `Files.ReadText`.
 */
module TextEdit {
  import opened Wrappers
  import opened Strings
  import opened JsonData
  import opened Files
  import opened Tools
  import opened TextView

  // ---------------------------------------------------------------------
  // insert_file
  // ---------------------------------------------------------------------

  /** `lines.insert(k - 1, text)` for a line number `k` in range. */
  function Inserted(lines: seq<string>, k: int, text: string): (r: seq<string>)
    requires 1 <= k <= |lines| + 1
    ensures |r| == |lines| + 1
    ensures r[k - 1] == text
    ensures r[..k - 1] == lines[..k - 1]
    ensures r[k..] == lines[k - 1..]
  {
    lines[..k - 1] + [text] + lines[k - 1..]
  }

  const InsertLineRange := "insert_line must be in range [1, "
  const ButGot := "], but got "

  function InsertRangeError(n: nat, k: int): string
  {
    InsertLineRange + IntToString(n + 1) + ButGot + IntToString(k)
  }

  /** The line number an `insert_line` argument denotes: `-1` appends after the last line. */
  function InsertionPoint(insertLine: int, n: nat): (k: int)
    ensures insertLine == -1 ==> k == n + 1
    ensures insertLine != -1 ==> k == insertLine
  {
    if insertLine == -1 then n + 1 else insertLine
  }

  /** The new text of a file with text `content` after inserting `text` at `insertLine`. */
  function InsertedContent(content: string, text: string, insertLine: int): (r: Outcome<string>)
    ensures var n := |SplitLines(content)|;
      r.Raised? <==> insertLine != -1 && (insertLine <= 0 || insertLine > n + 1)
    ensures r.Raised? ==> r.exception == InsertRangeError(|SplitLines(content)|, insertLine)
  {
    var lines := SplitLines(content);
    var k := InsertionPoint(insertLine, |lines|);
    if k <= 0 || k > |lines| + 1 then Raised(InsertRangeError(|lines|, insertLine))
    else Returned(Join("\n", Inserted(lines, k, text)))
  }

  /** What `insert_file(path, text, insert_line)` does to the file system and returns. */
  function InsertFileResult(fs: FileSystem, path: string, text: string, insertLine: int, differ: Differ): (FileSystem, Outcome<string>)
  {
    match ReadText(fs, path)
    case Raised(e) => (fs, Raised(e))
    case Returned(content) =>
      match InsertedContent(content, text, insertLine)
      case Raised(e) => (fs, Raised(e))
      case Returned(newContent) =>
        var (fs', diff) := WriteFile(fs, path, content, newContent, differ);
        (fs', Returned(diff))
  }

  /**
   * `insert_file`: read the file, rewrite `-1`, check the range, insert the
   * line into the list of lines, join and write.
   */
  method InsertFile(fs: FileSystem, path: string, text: string, insertLine: int, differ: Differ)
    returns (fs': FileSystem, r: Outcome<string>)
    ensures (fs', r) == InsertFileResult(fs, path, text, insertLine, differ)
    ensures r.Raised? ==> fs' == fs
    ensures r.Returned? ==> IsFile(fs, path)
    ensures r.Returned? ==>
      var lines := SplitLines(fs[path].content);
      var k := InsertionPoint(insertLine, |lines|);
      1 <= k <= |lines| + 1 &&
      fs' == fs[path := File(Join("\n", Inserted(lines, k, text)))] &&
      r.value == differ(path, fs[path].content, Join("\n", Inserted(lines, k, text)))
  {
    var read := ReadText(fs, path);
    if read.Raised? {
      return fs, Raised(read.exception);
    }
    var oldContent := read.value;
    var lines := SplitLines(oldContent);
    var k := insertLine;
    if k == -1 {
      k := |lines| + 1;
    }
    if k <= 0 || k > |lines| + 1 {
      return fs, Raised(InsertRangeError(|lines|, insertLine));
    }
    ghost var before := lines;
    lines := lines[..k - 1] + [text] + lines[k - 1..];
    assert lines == Inserted(before, k, text);
    var newContent := Join("\n", lines);
    var written := WriteFile(fs, path, oldContent, newContent, differ);
    return written.0, Returned(written.1);
  }

  /**
   * Read back after an insertion, the file's lines are the old lines with
   * the new one at position `k`: earlier lines keep their numbers and later
   * ones move down by one. This needs the inserted text to be a single
   * non-empty line and the file's last line not to be empty, since
   * `splitlines` drops a trailing empty line.
   */
  lemma InsertReadsBack(content: string, text: string, insertLine: int)
    requires text != "" && '\n' !in text
    requires var lines := SplitLines(content); lines == [] || lines[|lines| - 1] != ""
    requires InsertedContent(content, text, insertLine).Returned?
    ensures var lines := SplitLines(content);
      SplitLines(InsertedContent(content, text, insertLine).value) ==
        Inserted(lines, InsertionPoint(insertLine, |lines|), text)
  {
    var lines := SplitLines(content);
    var k := InsertionPoint(insertLine, |lines|);
    InsertedLinesReadBack(lines, k, text);
    assert InsertedContent(content, text, insertLine).value == Join("\n", Inserted(lines, k, text));
  }

  /** Joined and split again, the lines with one more line inserted come back unchanged. */
  lemma InsertedLinesReadBack(lines: seq<string>, k: int, text: string)
    requires NoNewlines(lines) && (lines == [] || lines[|lines| - 1] != "")
    requires 1 <= k <= |lines| + 1 && text != "" && '\n' !in text
    ensures SplitLines(Join("\n", Inserted(lines, k, text))) == Inserted(lines, k, text)
  {
    SplicedLinesReadBack(lines, lines[..k - 1], text, lines[k - 1..], k - 1);
  }

  /** With `insert_line` left at `-1` the text becomes the new last line. */
  lemma InsertDefaultAppends(content: string, text: string)
    ensures InsertedContent(content, text, -1) == Returned(Join("\n", SplitLines(content) + [text]))
  {
    var lines := SplitLines(content);
    assert lines[..|lines|] == lines;
    assert Inserted(lines, |lines| + 1, text) == lines + [text];
  }

  // ---------------------------------------------------------------------
  // replace_file
  // ---------------------------------------------------------------------

  /**
   * `replace_file(path, start_line, end_line, new_content)` as written: the
   * text before and after the range are each joined, and the three parts
   * are joined with newlines even when the first or last part is empty.
   */
  function ReplacedAsWritten(content: string, startLine: int, endLine: int, newText: string): string
  {
    var lines := SplitLines(content);
    var start := ClampStart(startLine);
    var end := ClampEnd(endLine, |lines|);
    var pre := if start > 1 then Join("\n", SliceTo(lines, start - 1)) else "";
    var post := if end < |lines| then Join("\n", SliceFrom(lines, end)) else "";
    Join("\n", [pre, newText, post])
  }

  lemma JoinThree(a: string, b: string, c: string)
    ensures Join("\n", [a, b, c]) == a + "\n" + b + "\n" + c
  {
    assert [a, b, c][1..] == [b, c];
    assert [b, c][1..] == [c];
    assert Join("\n", [c]) == c;
    assert Join("\n", [b, c]) == b + "\n" + c;
    assert Join("\n", [a, b, c]) == a + "\n" + (b + "\n" + c);
  }

  /** The three parts are always separated by two newlines. */
  lemma ReplacedAsWrittenShape(content: string, startLine: int, endLine: int, newText: string)
    ensures var lines := SplitLines(content);
      var start := ClampStart(startLine);
      var end := ClampEnd(endLine, |lines|);
      ReplacedAsWritten(content, startLine, endLine, newText) ==
        (if start > 1 then Join("\n", lines[..PyIndex(start - 1, |lines|)]) else "")
        + "\n" + newText + "\n" +
        (if end < |lines| then Join("\n", lines[PyIndex(end, |lines|)..]) else "")
  {
    var lines := SplitLines(content);
    var start := ClampStart(startLine);
    var end := ClampEnd(endLine, |lines|);
    var pre := if start > 1 then Join("\n", SliceTo(lines, start - 1)) else "";
    var post := if end < |lines| then Join("\n", SliceFrom(lines, end)) else "";
    JoinThree(pre, newText, post);
  }

  /**
   * Away from the ends of the file the written replacement reads back as
   * intended: the lines before `startLine`, the new line, then the lines
   * after `endLine`.
   */
  lemma ReplaceInteriorReadsBack(content: string, startLine: int, endLine: int, newText: string)
    requires '\n' !in newText
    requires var lines := SplitLines(content);
      1 < startLine <= |lines| + 1 && 0 <= endLine < |lines| && lines[|lines| - 1] != ""
    ensures var lines := SplitLines(content);
      SplitLines(ReplacedAsWritten(content, startLine, endLine, newText)) ==
        lines[..startLine - 1] + [newText] + lines[endLine..]
  {
    var lines := SplitLines(content);
    var pre := lines[..startLine - 1];
    var post := lines[endLine..];
    SplicedLinesReadBack(lines, pre, newText, post, endLine);
    JoinAround(pre, newText, post);
    ReplacedAsWrittenInterior(content, startLine, endLine, newText);
  }

  /** Away from the ends the three parts are the joined lines before the range, the new text and the joined lines after it. */
  lemma ReplacedAsWrittenInterior(content: string, startLine: int, endLine: int, newText: string)
    requires var lines := SplitLines(content); 1 < startLine <= |lines| + 1 && 0 <= endLine < |lines|
    ensures var lines := SplitLines(content);
      ReplacedAsWritten(content, startLine, endLine, newText) ==
        Join("\n", lines[..startLine - 1]) + "\n" + newText + "\n" + Join("\n", lines[endLine..])
  {
    ReplacedAsWrittenShape(content, startLine, endLine, newText);
  }

  /** Joining around one element puts a separator on each side of it. */
  lemma JoinAround(pre: seq<string>, x: string, post: seq<string>)
    requires pre != [] && post != []
    ensures Join("\n", pre + [x] + post) == Join("\n", pre) + "\n" + x + "\n" + Join("\n", post)
  {
    assert Join("\n", [x]) == x;
    JoinAppend("\n", pre, [x]);
    JoinAppend("\n", pre + [x], post);
  }

  /** Kept lines around a new line that has no break hold no break. */
  lemma NoNewlinesAround(lines: seq<string>, pre: seq<string>, x: string, post: seq<string>, b: nat)
    requires NoNewlines(lines) && '\n' !in x
    requires |pre| <= |lines| && pre == lines[..|pre|]
    requires b <= |lines| && post == lines[b..]
    ensures NoNewlines(pre + [x] + post)
  {
    var all := pre + [x] + post;
    forall j | 0 <= j < |all| ensures '\n' !in all[j] {
      if j < |pre| {
        assert all[j] == lines[j];
      } else if j > |pre| {
        assert all[j] == lines[b + j - |pre| - 1];
      }
    }
  }

  /** The last of the kept lines around a non-empty new line is not empty. */
  lemma SplicedLast(lines: seq<string>, pre: seq<string>, x: string, post: seq<string>, b: nat)
    requires lines == [] || lines[|lines| - 1] != ""
    requires (x != "" || b < |lines|) && b <= |lines| && post == lines[b..]
    ensures (pre + [x] + post)[|pre| + |post|] != ""
  {
    if post != [] {
      assert (pre + [x] + post)[|pre| + |post|] == post[|post| - 1] == lines[|lines| - 1];
    }
  }

  /**
   * A line without a break, put between a prefix and a suffix of lines
   * that `splitlines` produced, reads back as the spliced lines, provided
   * the result does not end on an empty line.
   */
  lemma SplicedLinesReadBack(lines: seq<string>, pre: seq<string>, x: string, post: seq<string>, b: nat)
    requires NoNewlines(lines) && (lines == [] || lines[|lines| - 1] != "")
    requires (x != "" || b < |lines|) && '\n' !in x
    requires |pre| <= |lines| && pre == lines[..|pre|]
    requires b <= |lines| && post == lines[b..]
    ensures SplitLines(Join("\n", pre + [x] + post)) == pre + [x] + post
  {
    NoNewlinesAround(lines, pre, x, post, b);
    SplicedLast(lines, pre, x, post, b);
    SplitJoin(pre + [x] + post);
  }

  /**
   * Replacing from the first line leaves an empty first line: the empty
   * prefix is still followed by a newline.
   */
  lemma ReplaceFromFirstLineAddsBlankLine(content: string, startLine: int, endLine: int, newText: string)
    requires startLine <= 1
    ensures var r := ReplacedAsWritten(content, startLine, endLine, newText);
      r[0] == '\n' && SplitLines(r)[0] == ""
  {
    var lines := SplitLines(content);
    var end := ClampEnd(endLine, |lines|);
    var post := if end < |lines| then Join("\n", SliceFrom(lines, end)) else "";
    var r := ReplacedAsWritten(content, startLine, endLine, newText);
    JoinThree("", newText, post);
    var rest := newText + "\n" + post;
    assert r == "" + "\n" + rest;
    SplitLinesCons("", rest);
  }

  /** Replacing line 1 of `a`/`b` by `x` gives the lines `""`, `x`, `b`. */
  lemma ReplaceFirstLineExample()
    ensures ReplacedAsWritten("a\nb", 1, 1, "x") == "\nx\nb"
    ensures SplitLines(ReplacedAsWritten("a\nb", 1, 1, "x")) == ["", "x", "b"]
  {
    assert "a\nb" == "a" + "\n" + "b";
    SplitLinesCons("a", "b");
    assert SplitLines("b") == ["b"] by {
      assert IndexOfChar("b", '\n') == None;
    }
    assert SplitLines("a\nb") == ["a", "b"];
    assert SliceFrom(["a", "b"], 1) == ["b"];
    JoinThree("", "x", "b");
    assert ReplacedAsWritten("a\nb", 1, 1, "x") == "\nx\nb";
    assert "\nx\nb" == "" + "\n" + "x\nb";
    SplitLinesCons("", "x\nb");
    assert "x\nb" == "x" + "\n" + "b";
    SplitLinesCons("x", "b");
  }

  /**
   * The replacement with the empty parts left out: the kept lines before
   * the range, the new text and the kept lines after it, joined once.
   */
  function ReplacedLines(content: string, startLine: int, endLine: int, newText: string): string
  {
    var lines := SplitLines(content);
    var start := ClampStart(startLine);
    var end := ClampEnd(endLine, |lines|);
    Join("\n", SliceTo(lines, start - 1) + [newText] + SliceFrom(lines, end))
  }

  /**
   * The corrected replacement reads back as the kept lines before the
   * range, the new line, and the kept lines after it, for every range,
   * including ranges that start at the first line or end at the last.
   */
  lemma ReplaceReadsBack(content: string, startLine: int, endLine: int, newText: string)
    requires newText != "" && '\n' !in newText
    requires var lines := SplitLines(content); lines == [] || lines[|lines| - 1] != ""
    ensures var lines := SplitLines(content);
      var start := ClampStart(startLine);
      var end := ClampEnd(endLine, |lines|);
      SplitLines(ReplacedLines(content, startLine, endLine, newText)) ==
        SliceTo(lines, start - 1) + [newText] + SliceFrom(lines, end)
    ensures var lines := SplitLines(content);
      1 <= startLine <= endLine + 1 && 0 <= endLine <= |lines| ==>
        SplitLines(ReplacedLines(content, startLine, endLine, newText)) ==
          lines[..startLine - 1] + [newText] + lines[endLine..]
  {
    var lines := SplitLines(content);
    var start := ClampStart(startLine);
    var end := ClampEnd(endLine, |lines|);
    SplicedLinesReadBack(lines, SliceTo(lines, start - 1), newText, SliceFrom(lines, end), PyIndex(end, |lines|));
  }

  /** What `replace_file` would do to the file system with the corrected replacement. */
  function ReplaceFile(fs: FileSystem, path: string, startLine: int, endLine: int, newText: string, differ: Differ): (r: (FileSystem, Outcome<string>))
    ensures r.1.Returned? <==> IsFile(fs, path)
    ensures r.1.Raised? ==> r.0 == fs
    ensures r.1.Returned? ==>
      var text := ReplacedLines(fs[path].content, startLine, endLine, newText);
      r.0 == fs[path := File(text)] && r.1.value == differ(path, fs[path].content, text)
  {
    match ReadText(fs, path)
    case Raised(e) => (fs, Raised(e))
    case Returned(content) =>
      var (fs', diff) := WriteFile(fs, path, content, ReplacedLines(content, startLine, endLine, newText), differ);
      (fs', Returned(diff))
  }

  // ---------------------------------------------------------------------
  // The edit tools
  // ---------------------------------------------------------------------

  /**
   * `file_path.parent.mkdir(parents=True, exist_ok=True)` followed by
   * `touch()`: the missing directories above the new path are made, each
   * listed in its parent, and the new empty file is listed in its
   * directory. A file at or above the parent raises, naming the parent.
   */
  function MakeEmptyFile(fs: FileSystem, path: string): (r: Outcome<FileSystem>)
    requires path !in fs
    ensures r.Raised? <==> IsRoot(path) || IsFile(fs, FirstPresent(fs, ParentOf(path).0))
    ensures r.Raised? && !IsRoot(path) ==>
      r.exception == (if IsFile(fs, ParentOf(path).0) then FileExists else NotADirectory) + Repr(ParentOf(path).0)
    ensures r.Returned? ==> ReadText(r.value, path) == Returned("") && Grows(fs, r.value)
    ensures r.Returned? ==> forall p :: p in r.value && p !in fs && p != path ==>
      AncestorOrSelf(p, ParentOf(path).0) && r.value[p].Directory?
    ensures r.Returned? && WellFormed(fs) ==> WellFormed(r.value)
  {
    var parent := ParentOf(path).0;
    match MakeParents(fs, parent)
    case Raised(e) => Raised(e)
    case Returned(fs1) =>
      if IsRoot(path) then WriteText(fs1, path, "")
      else
        TouchAfterMakeDirs(fs, path);
        WriteText(fs1, path, "")
  }

  /** After its directories are made, a new path can be created, and only it and they are new. */
  lemma TouchAfterMakeDirs(fs: FileSystem, path: string)
    requires path !in fs && !IsRoot(path) && MakeDirs(fs, ParentOf(path).0).Returned?
    ensures var fs1 := MakeDirs(fs, ParentOf(path).0).value;
      Writable(fs1, path) && Grows(fs, WriteText(fs1, path, "").value) &&
      (forall p :: p in WriteText(fs1, path, "").value && p !in fs && p != path ==>
        AncestorOrSelf(p, ParentOf(path).0) && fs1[p].Directory?) &&
      (WellFormed(fs) ==> WellFormed(WriteText(fs1, path, "").value))
  {
    var parent := ParentOf(path).0;
    var fs1 := MakeDirs(fs, parent).value;
    MakeDirsGrows(fs, parent);
    assert path !in fs1 by {
      if path in fs1 {
        AncestorRank(path, parent);
        ParentRank(path);
      }
    }
    var r := WriteText(fs1, path, "").value;
    GrowsTransitive(fs, fs1, fs1[path := File("")]);
    GrowsTransitive(fs, fs1[path := File("")], r);
    if WellFormed(fs) {
      MakeDirsWellFormed(fs, parent);
      WriteTextWellFormed(fs1, path, "");
    }
  }

  /** The error `create_file` gives for a path that is already taken. */
  function AlreadyExists(path: string): string
  {
    FileExistsHead + path + FileExistsTail
  }

  const FileExistsHead := "File "
  const FileExistsTail := " already exists."

  /** The `create_file` tool's `_execute(file_path, file_text)`. */
  function CreateBody(fs: FileSystem, args: Json, differ: Differ): (r: (FileSystem, Outcome<ToolResult>))
    ensures StrArg(args, "file_path").Returned? && StrArg(args, "file_text").Returned? ==>
      var path := StrArg(args, "file_path").value;
      var text := StrArg(args, "file_text").value;
      (path in fs ==> r == (fs, Returned(ToolResult("", "", AlreadyExists(path), false)))) &&
      (path !in fs && !IsRoot(path) && !IsFile(fs, FirstPresent(fs, ParentOf(path).0)) ==>
        r.1 == Returned(ToolResult("", differ(path, "", text), "", true)) &&
        ReadText(r.0, path) == Returned(text) && Grows(fs, r.0) &&
        (forall p :: p in r.0 && p !in fs && p != path ==> AncestorOrSelf(p, ParentOf(path).0) && r.0[p].Directory?) &&
        (WellFormed(fs) ==> WellFormed(r.0))) &&
      (path !in fs && !IsRoot(path) && IsFile(fs, FirstPresent(fs, ParentOf(path).0)) ==>
        r == (fs, Raised((if IsFile(fs, ParentOf(path).0) then FileExists else NotADirectory) + Repr(ParentOf(path).0))))
    ensures r.1.Raised? ==> r.0 == fs
  {
    match (StrArg(args, "file_path"), StrArg(args, "file_text"))
    case (Raised(e), _) => (fs, Raised(e))
    case (_, Raised(e)) => (fs, Raised(e))
    case (Returned(path), Returned(text)) =>
      if path in fs then
        (fs, Returned(ToolResult("", "", AlreadyExists(path), false)))
      else
        match MakeEmptyFile(fs, path)
        case Raised(e) => (fs, Raised(e))
        case Returned(fs1) =>
          CreateNewFile(fs, path, text, differ);
          var (fs2, diff) := WriteFile(fs1, path, "", text, differ);
          (fs2, Returned(ToolResult("", diff, "", true)))
  }

  /**
   * A new path whose ancestors hold no file is created empty and then
   * written: it reads back as the text, only directories above it are new
   * besides it, and a well-formed tree stays well formed.
   */
  lemma CreateNewFile(fs: FileSystem, path: string, text: string, differ: Differ)
    requires path !in fs && !IsRoot(path) && !IsFile(fs, FirstPresent(fs, ParentOf(path).0))
    ensures MakeEmptyFile(fs, path).Returned?
    ensures var fs2 := WriteFile(MakeEmptyFile(fs, path).value, path, "", text, differ).0;
      ReadText(fs2, path) == Returned(text) && Grows(fs, fs2) &&
      (forall p :: p in fs2 && p !in fs && p != path ==> AncestorOrSelf(p, ParentOf(path).0) && fs2[p].Directory?) &&
      (WellFormed(fs) ==> WellFormed(fs2))
  {
    var fs1 := MakeEmptyFile(fs, path).value;
    var fs2 := WriteFile(fs1, path, "", text, differ).0;
    assert fs2.Keys == fs1.Keys;
    assert Grows(fs, fs2) by {
      forall p | p in fs
        ensures fs2[p] == fs1[p]
      {
      }
    }
    if WellFormed(fs) {
      WriteFileWellFormed(fs1, path, "", text, differ);
    }
  }

  /** The `insert_file` tool's `_execute(file_path, insert_line, file_text)`. */
  function InsertBody(fs: FileSystem, args: Json, differ: Differ): (r: (FileSystem, Outcome<ToolResult>))
    ensures (StrArg(args, "file_path").Returned? && RequiredIntArg(args, "insert_line").Returned? &&
      StrArg(args, "file_text").Returned?) ==>
      var res := InsertFileResult(fs, StrArg(args, "file_path").value, StrArg(args, "file_text").value,
        RequiredIntArg(args, "insert_line").value, differ);
      r.0 == res.0 &&
      (res.1.Returned? ==> r.1 == Returned(ToolResult("", res.1.value, "", true))) &&
      (res.1.Raised? ==> r.1 == Raised(res.1.exception))
    ensures r.1.Returned? ==> r.1.value.success
  {
    match (StrArg(args, "file_path"), RequiredIntArg(args, "insert_line"), StrArg(args, "file_text"))
    case (Raised(e), _, _) => (fs, Raised(e))
    case (_, Raised(e), _) => (fs, Raised(e))
    case (_, _, Raised(e)) => (fs, Raised(e))
    case (Returned(path), Returned(line), Returned(text)) =>
      var (fs', out) := InsertFileResult(fs, path, text, line, differ);
      match out
      case Raised(e) => (fs', Raised(e))
      case Returned(diff) => (fs', Returned(ToolResult("", diff, "", true)))
  }

  const MissingNewContent := "replace_file() missing 1 required positional argument: 'new_content'"

  /**
   * The `replace_file` tool's `_execute(file_path, old_content, new_content)`:
   * it passes three arguments to the four-parameter `replace_file`, so the
   * call itself raises before anything is read or written.
   */
  function ReplaceBody(fs: FileSystem, args: Json): (r: (FileSystem, Outcome<ToolResult>))
    ensures r.0 == fs && r.1.Raised?
  {
    match (StrArg(args, "file_path"), StrArg(args, "old_content"), StrArg(args, "new_content"))
    case (Raised(e), _, _) => (fs, Raised(e))
    case (_, Raised(e), _) => (fs, Raised(e))
    case (_, _, Raised(e)) => (fs, Raised(e))
    case _ => (fs, Raised(MissingNewContent))
  }

  const FilePathHelp := "Absolute path to file, e.g. `/repo/file.py`."
  const CreateTextHelp := "The content of the file to be created."
  const InsertLineHelp := "The line number to insert the file text."
  const InsertTextHelp := "The content of the file to be inserted after the `insert_line` of `file_path`."
  const OldContentHelp := "The old content to be replaced in `file_path`."
  const NewContentHelp := "The new content to replace the `old_content` in `file_path`."

  /**
   * `CreateFileArgs`, `InsertFileArgs` and `ReplaceFileArgs` as
   * `model_json_schema()` writes them: every field is required, in
   * declaration order.
   */
  const CreateSchema := Obj(map[
    "properties" := Obj(map[
      "file_path" := FieldSchema("File Path", "string", FilePathHelp, None),
      "file_text" := FieldSchema("File Text", "string", CreateTextHelp, None)]),
    "required" := Arr([Str("file_path"), Str("file_text")]),
    "title" := Str("CreateFileArgs"),
    "type" := Str("object")])

  const InsertSchema := Obj(map[
    "properties" := Obj(map[
      "file_path" := FieldSchema("File Path", "string", FilePathHelp, None),
      "insert_line" := FieldSchema("Insert Line", "integer", InsertLineHelp, None),
      "file_text" := FieldSchema("File Text", "string", InsertTextHelp, None)]),
    "required" := Arr([Str("file_path"), Str("insert_line"), Str("file_text")]),
    "title" := Str("InsertFileArgs"),
    "type" := Str("object")])

  const ReplaceSchema := Obj(map[
    "properties" := Obj(map[
      "file_path" := FieldSchema("File Path", "string", FilePathHelp, None),
      "old_content" := FieldSchema("Old Content", "string", OldContentHelp, None),
      "new_content" := FieldSchema("New Content", "string", NewContentHelp, None)]),
    "required" := Arr([Str("file_path"), Str("old_content"), Str("new_content")]),
    "title" := Str("ReplaceFileArgs"),
    "type" := Str("object")])

  const CreateDescription := "Creates a file at the specified path with the given content."

  function CreateFileTool(validate: string -> Result<Json>, differ: Differ): (t: Tool<FileSystem>)
    ensures t.name == "create_file"
    ensures t.parameters == CreateSchema
  {
    Tool("create_file", CreateDescription, CreateSchema,
      validate, Override((fs, args) => CreateBody(fs, args, differ)), fs => fs)
  }

  const InsertDescription := "Inserts the given content after the specified line number in the file."

  function InsertFileTool(validate: string -> Result<Json>, differ: Differ): (t: Tool<FileSystem>)
    ensures t.name == "insert_file"
    ensures t.parameters == InsertSchema
  {
    Tool("insert_file", InsertDescription, InsertSchema,
      validate, Override((fs, args) => InsertBody(fs, args, differ)), fs => fs)
  }

  const ReplaceDescription := "Replaces the old content with the new content in the file."

  function ReplaceFileTool(validate: string -> Result<Json>): (t: Tool<FileSystem>)
    ensures t.name == "replace_file"
    ensures t.parameters == ReplaceSchema
  {
    Tool("replace_file", ReplaceDescription, ReplaceSchema,
      validate, Override((fs, args) => ReplaceBody(fs, args)), fs => fs)
  }



  /** Every call of the `replace_file` tool fails and leaves the files as they were. */
  lemma ReplaceToolAlwaysFails(validate: string -> Result<Json>, fs: FileSystem, call: ToolCall)
    ensures var r := Execute(ReplaceFileTool(validate), fs, call);
      r.0 == fs && !r.1.success && r.1.id == call.id
  {
  }

  /** A `create_file` call on an existing path fails with its message and writes nothing. */
  lemma CreateExistingFails(validate: string -> Result<Json>, differ: Differ, fs: FileSystem, call: ToolCall, path: string, text: string)
    requires validate(call.toolArgs) == Success(Obj(map["file_path" := Str(path), "file_text" := Str(text)]))
    requires path in fs
    ensures var r := Execute(CreateFileTool(validate, differ), fs, call);
      r.0 == fs && r.1 == ToolResult(call.id, "", AlreadyExists(path), false)
  {
    var args := Obj(map["file_path" := Str(path), "file_text" := Str(text)]);
    assert CreateBody(fs, args, differ) == (fs, Returned(ToolResult("", "", AlreadyExists(path), false))) by {
      assert StrArg(args, "file_path") == Returned(path);
      assert StrArg(args, "file_text") == Returned(text);
    }
  }

  /** An out-of-range line number reaches the model as an execution error, and the file is unchanged. */
  lemma InsertOutOfRangeFails(validate: string -> Result<Json>, differ: Differ, fs: FileSystem, call: ToolCall,
                              path: string, line: int, text: string)
    requires validate(call.toolArgs) == Success(Obj(map["file_path" := Str(path), "insert_line" := Num(line), "file_text" := Str(text)]))
    requires IsFile(fs, path)
    requires line != -1 && (line <= 0 || line > |SplitLines(fs[path].content)| + 1)
    ensures var r := Execute(InsertFileTool(validate, differ), fs, call);
      r.0 == fs && r.1 == ToolResult(call.id, "", ExecutionError(call, InsertRangeError(|SplitLines(fs[path].content)|, line)), false)
  {
    var args := Obj(map["file_path" := Str(path), "insert_line" := Num(line), "file_text" := Str(text)]);
    var e := InsertRangeError(|SplitLines(fs[path].content)|, line);
    assert InsertFileResult(fs, path, text, line, differ) == (fs, Raised(e));
    assert InsertBody(fs, args, differ) == (fs, Raised(e)) by {
      assert StrArg(args, "file_path") == Returned(path);
      assert RequiredIntArg(args, "insert_line") == Returned(line);
      assert StrArg(args, "file_text") == Returned(text);
    }
  }
}

=== FILE: textview.dfy ===
/**
 * Viewing: `read_file` renders a numbered window of a file's lines with
 * notes for the lines left out, `view_directory` renders a directory's
 * entries as a one-level tree, and the `view` tool picks one of the two.
 */
module TextView {
  import opened Wrappers
  import opened Strings
  import opened JsonData
  import opened Files
  import opened Tools

  // ---------------------------------------------------------------------
  // read_file
  // ---------------------------------------------------------------------

  /** `max(1, start_line)`. */
  function ClampStart(start: int): (s: int)
    ensures s >= 1 && s >= start
    ensures start >= 1 ==> s == start
  {
    if start < 1 then 1 else start
  }

  /** `min(len(lines), end_line) if end_line != -1 else len(lines)`. */
  function ClampEnd(end: int, n: nat): (e: int)
    ensures e <= n
    ensures end == -1 ==> e == n
    ensures end != -1 && end <= n ==> e == end
    ensures end != -1 && end > n ==> e == n
  {
    if end != -1 then (if n < end then n else end) else n
  }

  /** Line `i` (0-based) rendered as `"{i + 1}: {text}"`. */
  function NumberedLine(lines: seq<string>, i: nat): string
    requires i < |lines|
  {
    IntToString(i + 1) + ": " + lines[i]
  }

  /** The rendered lines for positions `from` up to (not including) `to`; none when `to <= from`. */
  function Entries(lines: seq<string>, from: nat, to: int): (es: seq<string>)
    requires to <= from || to <= |lines|
    ensures |es| == if to <= from then 0 else to - from
    ensures forall j :: 0 <= j < |es| ==> es[j] == NumberedLine(lines, from + j)
  {
    if to <= from then [] else seq(to - from, j requires 0 <= j < to - from => NumberedLine(lines, from + j))
  }

  const FromStartLine := "(From start line "
  const ToEndLine := " to end line "
  const AreOmitted := " are omitted.)"

  function HeadNote(start: int): string
  {
    if start > 1 then FromStartLine + "1" + ToEndLine + IntToString(start - 1) + AreOmitted else ""
  }

  function TailNote(end: int, n: nat): string
  {
    if end < n then FromStartLine + IntToString(end + 1) + ToEndLine + IntToString(n) + AreOmitted else ""
  }

  /** The lines of the rendered window: the head note, the numbered lines, the tail note. */
  function WindowLines(lines: seq<string>, start: int, end: int): seq<string>
    requires start >= 1 && end <= |lines|
  {
    (if start > 1 then [HeadNote(start)] else [])
    + Entries(lines, start - 1, end)
    + (if end < |lines| then [TailNote(end, |lines|)] else [])
  }

  /** What `read_file(path, start_line, end_line)` returns for a file with text `content`. */
  function RenderFile(path: string, content: string, startLine: int, endLine: int): string
  {
    var lines := SplitLines(content);
    var start := ClampStart(startLine);
    var end := ClampEnd(endLine, |lines|);
    "<file path=" + path + ">\n" + Terminated(WindowLines(lines, start, end)) + "</file>"
  }

  /** `read_file`'s loop: the numbered lines from `start` to `end`, each ending with a newline. */
  method NumberLines(lines: seq<string>, start: int, end: int) returns (rangeContent: string)
    requires start >= 1 && end <= |lines|
    ensures rangeContent == Terminated(Entries(lines, start - 1, end))
  {
    rangeContent := "";
    var i := start - 1;
    while i < end
      invariant start - 1 <= i
      invariant i <= end || end < start - 1
      invariant end < start - 1 ==> i == start - 1
      invariant rangeContent == Terminated(Entries(lines, start - 1, i))
    {
      NumberLinesStep(lines, start - 1, i);
      rangeContent := rangeContent + (IntToString(i + 1) + ": " + lines[i] + "\n");
      i := i + 1;
    }
    assert Entries(lines, start - 1, i) == Entries(lines, start - 1, end);
  }

  /**
   * `read_file`: the loop over the window accumulates the numbered lines
   * (`NumberLines`), then the notes are added before and after. A path that is not a
   * readable file raises.
   */
  method ReadFile(fs: FileSystem, path: string, startLine: int, endLine: int) returns (r: Outcome<string>)
    ensures r.Returned? <==> IsFile(fs, path)
    ensures r.Returned? ==> r.value == RenderFile(path, fs[path].content, startLine, endLine)
  {
    var read := ReadText(fs, path);
    if read.Raised? {
      return Raised(read.exception);
    }
    var lines := SplitLines(read.value);
    var start := ClampStart(startLine);
    var end := ClampEnd(endLine, |lines|);
    var rangeContent := NumberLines(lines, start, end);
    ghost var mid := rangeContent;
    ghost var head := if start > 1 then HeadNote(start) + "\n" else "";
    ghost var tail := if end < |lines| then TailNote(end, |lines|) + "\n" else "";
    if start > 1 {
      rangeContent := (HeadNote(start) + "\n") + rangeContent;
    } else {
      assert head + mid == mid;
    }
    assert rangeContent == head + mid;
    if end < |lines| {
      rangeContent := rangeContent + (TailNote(end, |lines|) + "\n");
    } else {
      assert head + mid + tail == head + mid;
    }
    assert rangeContent == head + mid + tail;
    RenderFileParts(path, read.value, startLine, endLine);
    assert fs[path].content == read.value;
    return Returned("<file path=" + path + ">\n" + rangeContent + "</file>");
  }

  /** One more turn of `read_file`'s loop adds line `i`'s entry and its newline. */
  lemma NumberLinesStep(lines: seq<string>, from: nat, i: nat)
    requires from <= i < |lines|
    ensures Terminated(Entries(lines, from, i + 1)) ==
      Terminated(Entries(lines, from, i)) + (IntToString(i + 1) + ": " + lines[i] + "\n")
  {
    EntriesSnoc(lines, from, i);
    TerminatedSnoc(Entries(lines, from, i), NumberedLine(lines, i));
  }

  lemma {:induction false} TerminatedSnoc(xs: seq<string>, x: string)
    ensures Terminated(xs + [x]) == Terminated(xs) + x + "\n"
    decreases |xs|
  {
    if xs == [] {
      assert [x][1..] == [];
    } else {
      assert (xs + [x])[1..] == xs[1..] + [x];
      TerminatedSnoc(xs[1..], x);
    }
  }

  lemma {:induction false} TerminatedAppend(xs: seq<string>, ys: seq<string>)
    ensures Terminated(xs + ys) == Terminated(xs) + Terminated(ys)
    decreases |xs|
  {
    if xs == [] {
      assert xs + ys == ys;
    } else {
      assert (xs + ys)[1..] == xs[1..] + ys;
      TerminatedAppend(xs[1..], ys);
    }
  }

  lemma EntriesSnoc(lines: seq<string>, from: nat, i: nat)
    requires from <= i < |lines|
    ensures Entries(lines, from, i + 1) == Entries(lines, from, i) + [NumberedLine(lines, i)]
  {
    var es := Entries(lines, from, i + 1);
    var before := Entries(lines, from, i);
    var expected := before + [NumberedLine(lines, i)];
    forall j | 0 <= j < |es|
      ensures es[j] == expected[j]
    {
      if j < |before| {
        assert expected[j] == before[j];
      }
    }
  }

  /** `RenderFile` as the method assembles it: notes around the terminated entries, inside the tags. */
  lemma RenderFileParts(path: string, content: string, startLine: int, endLine: int)
    ensures var lines := SplitLines(content);
      var start := ClampStart(startLine);
      var end := ClampEnd(endLine, |lines|);
      RenderFile(path, content, startLine, endLine) ==
        "<file path=" + path + ">\n" +
        ((if start > 1 then HeadNote(start) + "\n" else "")
         + Terminated(Entries(lines, start - 1, end))
         + (if end < |lines| then TailNote(end, |lines|) + "\n" else ""))
        + "</file>"
  {
    var lines := SplitLines(content);
    WindowTerminated(lines, ClampStart(startLine), ClampEnd(endLine, |lines|));
  }

  lemma WindowTerminated(lines: seq<string>, start: int, end: int)
    requires start >= 1 && end <= |lines|
    ensures Terminated(WindowLines(lines, start, end)) ==
      (if start > 1 then HeadNote(start) + "\n" else "")
      + Terminated(Entries(lines, start - 1, end))
      + (if end < |lines| then TailNote(end, |lines|) + "\n" else "")
  {
    var head: seq<string> := if start > 1 then [HeadNote(start)] else [];
    var tail: seq<string> := if end < |lines| then [TailNote(end, |lines|)] else [];
    var mid := Entries(lines, start - 1, end);
    TerminatedAppend(head + mid, tail);
    TerminatedAppend(head, mid);
    assert Terminated([HeadNote(start)]) == HeadNote(start) + "\n";
    assert Terminated([TailNote(end, |lines|)]) == TailNote(end, |lines|) + "\n";
  }

  /**
   * The rendered window, split back into lines, is the head note when
   * lines before `start` are hidden, then `"k: text"` for every `k` from
   * `start` to `end`, then the tail note when lines after `end` are hidden.
   */
  lemma ReadFileShowsWindow(path: string, content: string, startLine: int, endLine: int)
    ensures var lines := SplitLines(content);
      var start := ClampStart(startLine);
      var end := ClampEnd(endLine, |lines|);
      var body := RenderFile(path, content, startLine, endLine);
      var inner := body[|"<file path=" + path + ">\n"|..|body| - |"</file>"|];
      SplitLines(inner) == WindowLines(lines, start, end)
  {
    var lines := SplitLines(content);
    var start := ClampStart(startLine);
    var end := ClampEnd(endLine, |lines|);
    var w := WindowLines(lines, start, end);
    var opening := "<file path=" + path + ">\n";
    var body := opening + Terminated(w) + "</file>";
    assert body[|opening|..|body| - |"</file>"|] == Terminated(w);
    WindowHasNoBreaks(lines, start, end);
    SplitTerminated(w);
  }

  lemma NoNewlinesAppend(a: seq<string>, b: seq<string>)
    requires NoNewlines(a) && NoNewlines(b)
    ensures NoNewlines(a + b)
  {
    forall j | 0 <= j < |a + b| ensures '\n' !in (a + b)[j] {
      if j >= |a| {
        assert (a + b)[j] == b[j - |a|];
      }
    }
  }

  lemma NumberedLineHasNoBreak(lines: seq<string>, i: nat)
    requires NoNewlines(lines) && i < |lines|
    ensures '\n' !in NumberedLine(lines, i)
  {
    assert '\n' !in lines[i];
    assert '\n' !in IntToString(i + 1);
  }

  lemma NotesHaveNoBreaks(start: int, end: int, n: nat)
    ensures '\n' !in HeadNote(start) && '\n' !in TailNote(end, n)
  {
    assert '\n' !in FromStartLine && '\n' !in ToEndLine && '\n' !in AreOmitted;
    if start > 1 {
      var a := FromStartLine + "1";
      assert '\n' !in a;
      var b := a + ToEndLine;
      assert '\n' !in b;
      var c := b + IntToString(start - 1);
      assert '\n' !in c;
      assert HeadNote(start) == c + AreOmitted;
    }
    if end < n {
      var a := FromStartLine + IntToString(end + 1);
      assert '\n' !in a;
      var b := a + ToEndLine;
      assert '\n' !in b;
      var c := b + IntToString(n);
      assert '\n' !in c;
      assert TailNote(end, n) == c + AreOmitted;
    }
  }

  lemma WindowHasNoBreaks(lines: seq<string>, start: int, end: int)
    requires start >= 1 && end <= |lines| && NoNewlines(lines)
    ensures NoNewlines(WindowLines(lines, start, end))
  {
    var head: seq<string> := if start > 1 then [HeadNote(start)] else [];
    var mid := Entries(lines, start - 1, end);
    var tail: seq<string> := if end < |lines| then [TailNote(end, |lines|)] else [];
    NotesHaveNoBreaks(start, end, |lines|);
    forall j | 0 <= j < |mid| ensures '\n' !in mid[j] {
      NumberedLineHasNoBreak(lines, start - 1 + j);
    }
    NoNewlinesAppend(head, mid);
    NoNewlinesAppend(head + mid, tail);
  }

  /** With the defaults (1 and -1) every line is shown and nothing is noted as omitted. */
  lemma ReadWholeFile(lines: seq<string>)
    ensures WindowLines(lines, ClampStart(1), ClampEnd(-1, |lines|)) ==
      seq(|lines|, k requires 0 <= k < |lines| => NumberedLine(lines, k))
  {
  }

  // ---------------------------------------------------------------------
  // view_directory
  // ---------------------------------------------------------------------

  const LastBranch := "\U{2514}\U{2500} "
  const MidBranch := "\U{251c}\U{2500} "

  /** Entry `i` of a listing of `n` entries: its branch, its name, and `/` when it is a directory. */
  function TreeLine(fs: FileSystem, directory: string, names: seq<string>, i: nat): string
    requires i < |names|
  {
    (if i == |names| - 1 then LastBranch else MidBranch)
    + names[i]
    + (if IsDir(fs, Child(directory, names[i])) then "/" else "")
  }

  function TreeLines(fs: FileSystem, directory: string, names: seq<string>): (ls: seq<string>)
    ensures |ls| == |names|
    ensures forall i :: 0 <= i < |names| ==> ls[i] == TreeLine(fs, directory, names, i)
  {
    seq(|names|, i requires 0 <= i < |names| => TreeLine(fs, directory, names, i))
  }

  /** What `view_directory(directory)` returns: one tree line per entry, wrapped. */
  function DirectoryListing(fs: FileSystem, directory: string): Outcome<string>
  {
    if !IsDir(fs, directory) then Raised("Path " + directory + " is not a directory.")
    else
      Returned("<directory path=" + directory + ">\n" + Terminated(TreeLines(fs, directory, fs[directory].entries)) + "</directory>")
  }

  /** `view_directory`: the loop appends each entry's line to the result. */
  method ViewDirectory(fs: FileSystem, directory: string) returns (r: Outcome<string>)
    ensures r == DirectoryListing(fs, directory)
    ensures r.Raised? <==> !IsDir(fs, directory)
  {
    if !IsDir(fs, directory) {
      return Raised("Path " + directory + " is not a directory.");
    }
    var files := fs[directory].entries;
    var result := "";
    for i := 0 to |files|
      invariant result == Terminated(TreeLines(fs, directory, files)[..i])
    {
      ghost var before := result;
      ghost var mark := "";
      var prefix := if i == |files| - 1 then LastBranch else MidBranch;
      result := result + prefix + files[i];
      if IsDir(fs, Child(directory, files[i])) {
        result := result + "/";
        mark := "/";
      }
      result := result + "\n";
      ListingStep(fs, directory, files, i, before, mark);
    }
    assert TreeLines(fs, directory, files)[..|files|] == TreeLines(fs, directory, files);
    return Returned("<directory path=" + directory + ">\n" + result + "</directory>");
  }

  /** One more entry's line extends the listing body by that line. */
  lemma ListingStep(fs: FileSystem, directory: string, names: seq<string>, i: nat, before: string, mark: string)
    requires i < |names|
    requires before == Terminated(TreeLines(fs, directory, names)[..i])
    requires mark == if IsDir(fs, Child(directory, names[i])) then "/" else ""
    ensures before + (if i == |names| - 1 then LastBranch else MidBranch) + names[i] + mark + "\n" ==
      Terminated(TreeLines(fs, directory, names)[..i + 1])
  {
    var ls := TreeLines(fs, directory, names);
    assert ls[..i + 1] == ls[..i] + [ls[i]];
    TerminatedSnoc(ls[..i], ls[i]);
  }

  /** A tree line opens with its branch and holds no line break when the name holds none. */
  lemma TreeLineShape(fs: FileSystem, directory: string, names: seq<string>, i: nat)
    requires i < |names|
    requires '\n' !in names[i]
    ensures var prefix := if i == |names| - 1 then LastBranch else MidBranch;
      '\n' !in TreeLine(fs, directory, names, i) && StartsWith(TreeLine(fs, directory, names, i), prefix)
  {
    var prefix := if i == |names| - 1 then LastBranch else MidBranch;
    var suffix := if IsDir(fs, Child(directory, names[i])) then "/" else "";
    var line := prefix + names[i] + suffix;
    assert TreeLine(fs, directory, names, i) == line;
    assert line[..|prefix|] == prefix;
  }

  /**
   * A tree line ends with `/` exactly when the entry's path, as `iterdir`
   * yields it, is a directory, for a name that holds no `/` (as no file
   * name does).
   */
  lemma TreeLineMark(fs: FileSystem, directory: string, names: seq<string>, i: nat)
    requires i < |names|
    requires '/' !in names[i]
    ensures EndsWith(TreeLine(fs, directory, names, i), "/") <==> IsDir(fs, Child(directory, names[i]))
  {
    var prefix := if i == |names| - 1 then LastBranch else MidBranch;
    var line := TreeLine(fs, directory, names, i);
    if !IsDir(fs, Child(directory, names[i])) {
      assert line == prefix + names[i];
      if names[i] == [] {
        assert line[|line| - 1] == ' ';
      } else {
        assert line[|line| - 1] == names[i][|names[i]| - 1];
      }
    }
  }

  /**
   * The listing body has one line per entry in iteration order: the last
   * entry's line starts with the closing branch, every other with the
   * middle branch, and a line ends with `/` exactly when its entry is a
   * directory. An empty directory has an empty body.
   */
  lemma DirectoryListingLines(fs: FileSystem, directory: string)
    requires IsDir(fs, directory)
    requires forall i :: 0 <= i < |fs[directory].entries| ==>
      '\n' !in fs[directory].entries[i] && '/' !in fs[directory].entries[i]
    ensures var names := fs[directory].entries;
      var body := Terminated(TreeLines(fs, directory, names));
      SplitLines(body) == TreeLines(fs, directory, names) &&
      (names == [] <==> body == "") &&
      (forall i :: 0 <= i < |names| ==>
        StartsWith(SplitLines(body)[i], if i == |names| - 1 then LastBranch else MidBranch)) &&
      (forall i :: 0 <= i < |names| ==>
        (EndsWith(SplitLines(body)[i], "/") <==> IsDir(fs, Child(directory, names[i]))))
  {
    var names := fs[directory].entries;
    var ls := TreeLines(fs, directory, names);
    forall i | 0 <= i < |ls|
      ensures '\n' !in ls[i] && StartsWith(ls[i], if i == |names| - 1 then LastBranch else MidBranch)
      ensures EndsWith(ls[i], "/") <==> IsDir(fs, Child(directory, names[i]))
    {
      TreeLineShape(fs, directory, names, i);
      TreeLineMark(fs, directory, names, i);
    }
    SplitTerminated(ls);
    if names != [] {
      assert |Terminated(ls)| >= 1;
    }
  }

  /** Listing `.` and `/` marks their subdirectories, as `view_directory(Path("."))` does. */
  lemma ListingMarksTopLevelDirs()
    ensures DirectoryListing(map["." := Directory(["foo"]), "foo" := Directory([])], ".")
      == Returned("<directory path=.>\n" + LastBranch + "foo/\n</directory>")
    ensures DirectoryListing(map["/" := Directory(["etc"]), "/etc" := Directory([])], "/")
      == Returned("<directory path=/>\n" + LastBranch + "etc/\n</directory>")
  {
    SingleEntryListing(map["." := Directory(["foo"]), "foo" := Directory([])], ".", "foo");
    assert "<directory path=" + "." + ">\n" == "<directory path=.>\n";
    assert "foo" + "/" + "\n" + "</directory>" == "foo/\n</directory>";
    assert Child("/", "etc") == "/etc";
    SingleEntryListing(map["/" := Directory(["etc"]), "/etc" := Directory([])], "/", "etc");
    assert "<directory path=" + "/" + ">\n" == "<directory path=/>\n";
    assert "etc" + "/" + "\n" + "</directory>" == "etc/\n</directory>";
  }

  /** The listing of a directory holding one subdirectory. */
  lemma SingleEntryListing(fs: FileSystem, directory: string, name: string)
    requires IsDir(fs, directory) && fs[directory].entries == [name]
    requires IsDir(fs, Child(directory, name))
    ensures DirectoryListing(fs, directory) ==
      Returned("<directory path=" + directory + ">\n" + LastBranch + (name + "/" + "\n" + "</directory>"))
  {
    assert TreeLines(fs, directory, [name]) == [LastBranch + name + "/"];
    assert [LastBranch + name + "/"][1..] == [];
    assert Terminated([LastBranch + name + "/"]) == LastBranch + name + "/" + "\n";
    var head := "<directory path=" + directory + ">\n";
    assert DirectoryListing(fs, directory) == Returned(head + (LastBranch + name + "/" + "\n") + "</directory>");
    assert head + (LastBranch + name + "/" + "\n") + "</directory>" == head + LastBranch + (name + "/" + "\n" + "</directory>");
  }

  // ---------------------------------------------------------------------
  // The view tool
  // ---------------------------------------------------------------------

  /** The error of `_execute(**args)` when `args` lacks a required parameter. */
  function MissingArgument(key: string): string
  {
    "_execute() missing 1 required positional argument: '" + key + "'"
  }

  /** A required string parameter bound from the validated arguments. */
  function StrArg(args: Json, key: string): (r: Outcome<string>)
    ensures r.Returned? <==> args.Obj? && key in args.fields && args.fields[key].Str?
    ensures r.Raised? ==> r.exception == MissingArgument(key)
  {
    if args.Obj? && key in args.fields && args.fields[key].Str? then Returned(args.fields[key].s)
    else Raised(MissingArgument(key))
  }

  /** A required integer parameter bound from the validated arguments. */
  function RequiredIntArg(args: Json, key: string): (r: Outcome<int>)
    ensures r.Returned? <==> args.Obj? && key in args.fields && args.fields[key].Num?
    ensures r.Raised? ==> r.exception == MissingArgument(key)
  {
    if args.Obj? && key in args.fields && args.fields[key].Num? then Returned(args.fields[key].n)
    else Raised(MissingArgument(key))
  }

  /** An integer field of the validated arguments, or its default when absent. */
  function IntArg(args: Json, key: string, default: int): int
  {
    if args.Obj? && key in args.fields && args.fields[key].Num? then args.fields[key].n else default
  }

  /** `ViewTool._execute(path, start_line=1, end_line=-1)`. */
  function ViewBody(fs: FileSystem, args: Json): (r: (FileSystem, Outcome<ToolResult>))
    ensures r.0 == fs
    ensures StrArg(args, "path").Returned? && IsDir(fs, StrArg(args, "path").value) ==>
      r.1 == Returned(ToolResult("", DirectoryListing(fs, StrArg(args, "path").value).value, "", true))
    ensures StrArg(args, "path").Returned? && IsFile(fs, StrArg(args, "path").value) ==>
      var p := StrArg(args, "path").value;
      r.1 == Returned(ToolResult("", RenderFile(p, fs[p].content, IntArg(args, "start_line", 1), IntArg(args, "end_line", -1)), "", true))
    ensures r.1.Returned? ==> r.1.value.success
  {
    match StrArg(args, "path")
    case Raised(e) => (fs, Raised(e))
    case Returned(path) =>
      if IsDir(fs, path) then
        (fs, Returned(ToolResult("", DirectoryListing(fs, path).value, "", true)))
      else
        match ReadText(fs, path)
        case Raised(e) => (fs, Raised(e))
        case Returned(content) =>
          var start := IntArg(args, "start_line", 1);
          var end := IntArg(args, "end_line", -1);
          (fs, Returned(ToolResult("", RenderFile(path, content, start, end), "", true)))
  }

  const ViewDescription := "Views the content of a file or directory tree. If the path is a directory, it will view the directory tree. If the path is a file, it will view the file content."

  const PathHelp := "Absolute path to file or directory, e.g. `/repo/file.py` or `/repo`."
  const StartLineHelp := "The start line number to read from. 1 means the first line."
  const EndLineHelp := "The end line number to read to. -1 means the last line."

  /**
   * `ViewArgs.model_json_schema()`, which `json_definition` sends as the
   * tool's parameters: only `path` is required, and the line numbers are
   * integers defaulting to 1 and -1.
   */
  const ViewSchema := Obj(map[
    "properties" := Obj(map[
      "path" := FieldSchema("Path", "string", PathHelp, None),
      "start_line" := FieldSchema("Start Line", "integer", StartLineHelp, Some(Num(1))),
      "end_line" := FieldSchema("End Line", "integer", EndLineHelp, Some(Num(-1)))]),
    "required" := Arr([Str("path")]),
    "title" := Str("ViewArgs"),
    "type" := Str("object")])

  /** The `view` tool; `validate` is pydantic's validation of its arguments. */
  function ViewTool(validate: string -> Result<Json>): (t: Tool<FileSystem>)
    ensures t.name == "view"
    ensures t.parameters == ViewSchema
  {
    Tool("view",
      ViewDescription,
      ViewSchema,
      validate,
      Override((fs, args) => ViewBody(fs, args)),
      fs => fs)
  }



}

=== FILE: todo.dfy ===
/**
 * Todo items: the status and priority enumerations with their string
 * values, the item record with its defaults, and the item's dict form
 * (`model_dump` with enum values) and validation (`model_validate`).
 */
module Todos {
  import opened Wrappers
  import opened JsonData

  datatype Status = Pending | InProgress | Completed | Cancelled

  datatype Priority = High | Medium | Low

  function StatusValue(s: Status): string
  {
    match s
    case Pending => "pending"
    case InProgress => "in_progress"
    case Completed => "completed"
    case Cancelled => "cancelled"
  }

  /** The member whose value is `v`; only the four values name one. */
  function ParseStatus(v: string): (r: Option<Status>)
    ensures r.Some? <==> v in {"pending", "in_progress", "completed", "cancelled"}
    ensures r.Some? ==> StatusValue(r.value) == v
  {
    if v == "pending" then Some(Pending)
    else if v == "in_progress" then Some(InProgress)
    else if v == "completed" then Some(Completed)
    else if v == "cancelled" then Some(Cancelled)
    else None
  }

  /** Every status is found again from its value. */
  lemma StatusRoundTrip(s: Status)
    ensures ParseStatus(StatusValue(s)) == Some(s)
  {
  }

  function PriorityValue(p: Priority): string
  {
    match p
    case High => "high"
    case Medium => "medium"
    case Low => "low"
  }

  function ParsePriority(v: string): (r: Option<Priority>)
    ensures r.Some? <==> v in {"high", "medium", "low"}
    ensures r.Some? ==> PriorityValue(r.value) == v
  {
    if v == "high" then Some(High)
    else if v == "medium" then Some(Medium)
    else if v == "low" then Some(Low)
    else None
  }

  lemma PriorityRoundTrip(p: Priority)
    ensures ParsePriority(PriorityValue(p)) == Some(p)
  {
  }

  /** A unit of work. */
  datatype Todo = Todo(id: string, status: Status, context: string, progress: string, priority: Priority)

  /** `Todo()`: `id` is the fresh hex identifier the default factory draws. */
  function NewTodo(freshId: string): (t: Todo)
    ensures t.id == freshId && t.status == Pending && t.priority == Medium
    ensures t.context == "" && t.progress == ""
  {
    Todo(freshId, Pending, "", "", Medium)
  }

  /** `model_dump()` with `use_enum_values`: a dict of the five fields, enums as their values. */
  function TodoToJson(t: Todo): Json
  {
    Obj(map[
      "id" := Str(t.id),
      "status" := Str(StatusValue(t.status)),
      "context" := Str(t.context),
      "progress" := Str(t.progress),
      "priority" := Str(PriorityValue(t.priority))])
  }

  const NotAString := "Input should be a valid string"
  const NotAStatus := "Input should be 'pending', 'in_progress', 'completed' or 'cancelled'"
  const NotAPriority := "Input should be 'high', 'medium' or 'low'"
  const NotADict := "Input should be a valid dictionary or instance of Todo"

  /** A string field: absent gives the default, present must be a string. */
  function StrField(fields: map<string, Json>, key: string, default: string): (r: Result<string>)
    ensures key !in fields ==> r == Success(default)
    ensures key in fields ==> (r.Success? <==> fields[key].Str?)
    ensures key in fields && fields[key].Str? ==> r == Success(fields[key].s)
  {
    if key !in fields then Success(default)
    else if fields[key].Str? then Success(fields[key].s)
    else Failure(NotAString)
  }

  function StatusField(fields: map<string, Json>): (r: Result<Status>)
    ensures "status" !in fields ==> r == Success(Pending)
  {
    if "status" !in fields then Success(Pending)
    else match fields["status"]
      case Str(v) => (match ParseStatus(v) case Some(s) => Success(s) case None => Failure(NotAStatus))
      case _ => Failure(NotAStatus)
  }

  function PriorityField(fields: map<string, Json>): (r: Result<Priority>)
    ensures "priority" !in fields ==> r == Success(Medium)
  {
    if "priority" !in fields then Success(Medium)
    else match fields["priority"]
      case Str(v) => (match ParsePriority(v) case Some(p) => Success(p) case None => Failure(NotAPriority))
      case _ => Failure(NotAPriority)
  }

  /**
   * `Todo.model_validate(item)`: a dict whose fields have the right types;
   * an absent field takes its default, and an absent `id` the fresh one.
   * Keys that are not fields are ignored.
   */
  function TodoFromJson(j: Json, freshId: string): (r: Result<Todo>)
    ensures r.Success? ==> j.Obj?
    ensures j == Obj(map[]) ==> r == Success(NewTodo(freshId))
  {
    if !j.Obj? then Failure(NotADict)
    else
      var f := j.fields;
      match (StrField(f, "id", freshId), StatusField(f), StrField(f, "context", ""), StrField(f, "progress", ""), PriorityField(f))
      case (Success(id), Success(s), Success(c), Success(p), Success(pr)) => Success(Todo(id, s, c, p, pr))
      case (Failure(e), _, _, _, _) => Failure(e)
      case (_, Failure(e), _, _, _) => Failure(e)
      case (_, _, Failure(e), _, _) => Failure(e)
      case (_, _, _, Failure(e), _) => Failure(e)
      case (_, _, _, _, Failure(e)) => Failure(e)
  }

  /** Validating a dumped item gives the item back; its own id wins over a fresh one. */
  lemma TodoRoundTrip(t: Todo, freshId: string)
    ensures TodoFromJson(TodoToJson(t), freshId) == Success(t)
  {
    StatusRoundTrip(t.status);
    PriorityRoundTrip(t.priority);
  }

  /** `[t.model_dump() for t in todos]`. */
  function TodosToJson(ts: seq<Todo>): (j: Json)
    ensures j.Arr? && |j.items| == |ts|
    ensures forall i :: 0 <= i < |ts| ==> j.items[i] == TodoToJson(ts[i])
  {
    Arr(seq(|ts|, i requires 0 <= i < |ts| => TodoToJson(ts[i])))
  }

  /**
   * `[Todo.model_validate(item) for item in items]`, item `i` drawing
   * `freshIds(from + i)` when it has no id; the first invalid item fails the
   * whole list.
   */
  function ItemsFromJson(items: seq<Json>, freshIds: nat -> string, from: nat): (r: Result<seq<Todo>>)
    ensures r.Success? ==> |r.value| == |items|
    decreases |items|
  {
    if items == [] then Success([])
    else match (TodoFromJson(items[0], freshIds(from)), ItemsFromJson(items[1..], freshIds, from + 1))
      case (Failure(e), _) => Failure(e)
      case (_, Failure(e)) => Failure(e)
      case (Success(t), Success(rest)) => Success([t] + rest)
  }

  const NotAList := "Input should be a valid list"

  /** `List[Todo]` validation: only a list of valid item dicts is accepted. */
  function TodosFromJson(j: Json, freshIds: nat -> string): (r: Result<seq<Todo>>)
    ensures !j.Arr? ==> r == Failure(NotAList)
  {
    match j
    case Arr(items) => ItemsFromJson(items, freshIds, 0)
    case _ => Failure(NotAList)
  }

  lemma {:induction false} ItemsRoundTrip(ts: seq<Todo>, freshIds: nat -> string, from: nat)
    ensures ItemsFromJson(TodosToJson(ts).items, freshIds, from) == Success(ts)
    decreases |ts|
  {
    if ts != [] {
      var items := TodosToJson(ts).items;
      TodoRoundTrip(ts[0], freshIds(from));
      assert items[1..] == TodosToJson(ts[1..]).items;
      ItemsRoundTrip(ts[1..], freshIds, from + 1);
      assert ts == [ts[0]] + ts[1..];
    }
  }

  /** Validating a dumped list gives the list back. */
  lemma TodosRoundTrip(ts: seq<Todo>, freshIds: nat -> string)
    ensures TodosFromJson(TodosToJson(ts), freshIds) == Success(ts)
  {
    ItemsRoundTrip(ts, freshIds, 0);
  }
}

=== FILE: todotool.dfy ===
/**
 * The `manage_todo` tool: one session's todo list kept as a JSON file
 * under a storage directory, read and rewritten whole.
 *
 * The JSON text layer (`json.dumps` with `indent=4` and `json.loads`) is
 * a pair of functions given to the tool; the dict layer is `Todos`.
 */
module TodoTools {
  import opened Wrappers
  import opened Strings
  import opened JsonData
  import opened Files
  import opened Tools
  import opened Todos

  // ---------------------------------------------------------------------
  // Where the list is stored
  // ---------------------------------------------------------------------

  /** `os.path.isabs` on POSIX. */
  predicate IsAbs(p: string)
  {
    StartsWith(p, "/")
  }

  /** `os.path.join(a, b)` on POSIX: an absolute `b` replaces `a`. */
  function PathJoin(a: string, b: string): (r: string)
    ensures IsAbs(b) ==> r == b
    ensures !IsAbs(b) ==> StartsWith(r, a) && EndsWith(r, b)
  {
    if IsAbs(b) then b
    else if a == "" || EndsWith(a, "/") then a + b
    else a + "/" + b
  }

  /** `os.path.join(".cache", "todos")`. */
  const DefaultBasePath := ".cache/todos"

  /** `_ensure_storage_directory`'s choice: an absolute base path, else the base path under `cwd`. */
  function BaseDir(basePath: string, cwd: string): (d: string)
    ensures IsAbs(basePath) ==> d == basePath
    ensures IsAbs(cwd) ==> IsAbs(d)
  {
    if IsAbs(basePath) then basePath else PathJoin(cwd, basePath)
  }

  /** `_get_file_path`: `<base_dir>/<session_id>.json`. */
  function TodoFilePath(baseDir: string, sessionId: string): string
  {
    PathJoin(baseDir, sessionId + ".json")
  }

  /**
   * Under an absolute working directory the storage file is absolute, and
   * for a plain session name it is the base directory, a slash and the
   * name with `.json`.
   */
  lemma TodoFileUnderBaseDir(basePath: string, cwd: string, sessionId: string)
    requires IsAbs(cwd)
    ensures IsAbs(TodoFilePath(BaseDir(basePath, cwd), sessionId))
    ensures var d := BaseDir(basePath, cwd);
      !IsAbs(sessionId) && !EndsWith(d, "/") ==> TodoFilePath(d, sessionId) == d + "/" + sessionId + ".json"
  {
    var d := BaseDir(basePath, cwd);
    var name := sessionId + ".json";
  }

  // ---------------------------------------------------------------------
  // Reading and writing the list
  // ---------------------------------------------------------------------

  /** `json.dumps(..., indent=4)` and `json.loads`. */
  datatype TextCodec = TextCodec(dumps: Json -> string, loads: string -> Result<Json>)

  /**
   * `[Todo.model_validate(item) for item in value]` on whatever the file
   * decoded to: a list is validated item by item, a dict iterates over its
   * keys and a string over its characters (neither of which is an item),
   * and any other value is not iterable.
   */
  function IterateStored(j: Json, freshIds: nat -> string): (r: Result<seq<Todo>>)
    ensures j.Arr? ==> r == TodosFromJson(j, freshIds)
    ensures j.Obj? ==> (r.Success? <==> j.fields == map[])
    ensures j.Str? ==> (r.Success? <==> j.s == "")
    ensures j.Null? || j.Bool? || j.Num? ==> r == Failure("'" + TypeName(j) + "' object is not iterable")
  {
    match j
    case Arr(_) => TodosFromJson(j, freshIds)
    case Obj(fields) => if fields == map[] then Success([]) else Failure(NotADict)
    case Str(s) => if s == "" then Success([]) else Failure(NotADict)
    case _ => Failure("'" + TypeName(j) + "' object is not iterable")
  }

  /**
   * `_read_todo_list`: no file, or a file of whitespace only, is the empty
   * list; otherwise the file's JSON is validated item by item.
   */
  function StoredTodos(fs: FileSystem, path: string, codec: TextCodec, freshIds: nat -> string): (r: Outcome<seq<Todo>>)
    ensures path !in fs ==> r == Returned([])
    ensures IsFile(fs, path) && Strip(fs[path].content) == "" ==> r == Returned([])
    ensures IsDir(fs, path) ==> r.Raised?
  {
    if path !in fs then Returned([])
    else match ReadText(fs, path)
      case Raised(e) => Raised(e)
      case Returned(content) =>
        if Strip(content) == "" then Returned([])
        else match codec.loads(content)
          case Failure(e) => Raised(e)
          case Success(j) =>
            match IterateStored(j, freshIds)
            case Failure(e) => Raised(e)
            case Success(ts) => Returned(ts)
  }

  const NoneNotIterable := "'NoneType' object is not iterable"

  /**
   * `_write_todo_list`: `open(path, "w")` creates or empties the file
   * before the list is dumped into it, so a `None` list, which is not
   * iterable, leaves the file empty; a path that cannot be opened for
   * writing raises and changes nothing.
   */
  function WrittenStore(fs: FileSystem, path: string, codec: TextCodec, todos: Option<seq<Todo>>): (r: (FileSystem, Outcome<()>))
    ensures !Writable(fs, path) ==> r == (fs, Raised(WriteText(fs, path, "").exception))
    ensures IsDir(fs, path) ==> r == (fs, Raised(IsADirectory + Repr(path)))
    ensures Writable(fs, path) && todos.Some? ==>
      r == (WriteText(fs, path, codec.dumps(TodosToJson(todos.value))).value, Returned(()))
    ensures Writable(fs, path) && todos.None? ==> r == (WriteText(fs, path, "").value, Raised(NoneNotIterable))
  {
    match WriteText(fs, path, "")
    case Raised(e) => (fs, Raised(e))
    case Returned(emptied) =>
      match todos
      case None => (emptied, Raised(NoneNotIterable))
      case Some(ts) =>
        var dumped := codec.dumps(TodosToJson(ts));
        WriteTextTwice(fs, path, "", dumped);
        (emptied[path := File(dumped)], Returned(()))
  }

  /** Writing the list keeps a well-formed tree well formed. */
  lemma WrittenStoreWellFormed(fs: FileSystem, path: string, codec: TextCodec, todos: Option<seq<Todo>>)
    requires WellFormed(fs)
    ensures WellFormed(WrittenStore(fs, path, codec, todos).0)
  {
    if Writable(fs, path) {
      WriteTextWellFormed(fs, path, if todos.Some? then codec.dumps(TodosToJson(todos.value)) else "");
    }
  }

  /**
   * A write followed by a read gives back the written list, provided the
   * text layer reads back what it wrote and writes more than whitespace
   * (a JSON list always starts with `[`).
   */
  lemma WriteThenRead(fs: FileSystem, path: string, codec: TextCodec, freshIds: nat -> string, ts: seq<Todo>)
    requires Writable(fs, path)
    requires codec.loads(codec.dumps(TodosToJson(ts))) == Success(TodosToJson(ts))
    requires Strip(codec.dumps(TodosToJson(ts))) != ""
    ensures StoredTodos(WrittenStore(fs, path, codec, Some(ts)).0, path, codec, freshIds) == Returned(ts)
  {
    TodosRoundTrip(ts, freshIds);
  }

  /** Writing `None` fails, and the list read afterwards is empty. */
  lemma NullWriteClearsList(fs: FileSystem, path: string, codec: TextCodec, freshIds: nat -> string)
    requires Writable(fs, path)
    ensures WrittenStore(fs, path, codec, None).1.Raised?
    ensures StoredTodos(WrittenStore(fs, path, codec, None).0, path, codec, freshIds) == Returned([])
  {
    assert Stripped("");
  }

  /** A write replaces the whole list: what was stored before does not matter. */
  lemma WriteReplacesWholeList(fs: FileSystem, path: string, codec: TextCodec, before: Option<seq<Todo>>, after: Option<seq<Todo>>)
    ensures WrittenStore(WrittenStore(fs, path, codec, before).0, path, codec, after).0 == WrittenStore(fs, path, codec, after).0
  {
    if Writable(fs, path) {
      var first := if before.Some? then codec.dumps(TodosToJson(before.value)) else "";
      var second := if after.Some? then codec.dumps(TodosToJson(after.value)) else "";
      WriteTextTwice(fs, path, first, "");
      WriteTextTwice(fs, path, first, second);
    }
  }

  // ---------------------------------------------------------------------
  // The tool
  // ---------------------------------------------------------------------

  datatype Command = ReadTodo | WriteTodo

  /** `TodoArgs`: the command, and the list to write (`None` when given as `null`). */
  datatype TodoArgs = TodoArgs(command: Command, todos: Option<seq<Todo>>)

  const NotACommand := "Input should be 'read_todo' or 'write_todo'"

  /** `TodoArgs.model_validate`: `todos` defaults to the empty list. */
  function ParseArgs(j: Json, freshIds: nat -> string): (r: Result<TodoArgs>)
    ensures r.Success? ==> j.Obj? && "command" in j.fields
    ensures j.Obj? && j.fields.Keys == {"command"} && j.fields["command"] == Str("write_todo") ==>
      r == Success(TodoArgs(WriteTodo, Some([])))
  {
    if !j.Obj? then Failure("Input should be a valid dictionary or instance of TodoArgs")
    else if "command" !in j.fields then Failure("Field required")
    else
      var command :=
        if j.fields["command"] == Str("read_todo") then Success(ReadTodo)
        else if j.fields["command"] == Str("write_todo") then Success(WriteTodo)
        else Failure(NotACommand);
      var todos :=
        if "todos" !in j.fields then Success(Some([]))
        else if j.fields["todos"] == Null then Success(None)
        else match TodosFromJson(j.fields["todos"], freshIds)
          case Success(ts) => Success(Some(ts))
          case Failure(e) => Failure(e)
      ;
      match (command, todos)
      case (Failure(e), _) => Failure(e)
      case (_, Failure(e)) => Failure(e)
      case (Success(c), Success(t)) => Success(TodoArgs(c, t))
  }

  const UpdatedText := "Todo list updated successfully"

  /** The file system the tools work on, shared by reference. */
  class Disk {
    var fs: FileSystem

    constructor (fs: FileSystem)
      ensures this.fs == fs
    {
      this.fs := fs;
    }
  }

  class TodoTool {
    const sessionId: string
    const basePath: string
    const baseDir: string
    const filePath: string
    const codec: TextCodec
    const freshIds: nat -> string
    const disk: Disk

    /**
     * The attributes `TodoTool(session_id, base_path)` sets: the storage
     * directory and file. `cwd` is the process's working directory;
     * `freshIds` are the hex identifiers drawn for items given without one.
     */
    constructor (sessionId: string, basePath: string, cwd: string, codec: TextCodec, freshIds: nat -> string, disk: Disk)
      ensures this.sessionId == sessionId && this.basePath == basePath
      ensures baseDir == BaseDir(basePath, cwd) && filePath == TodoFilePath(baseDir, sessionId)
      ensures this.codec == codec && this.freshIds == freshIds && this.disk == disk
    {
      this.sessionId := sessionId;
      this.basePath := basePath;
      var dir := BaseDir(basePath, cwd);
      baseDir := dir;
      filePath := TodoFilePath(dir, sessionId);
      this.codec := codec;
      this.freshIds := freshIds;
      this.disk := disk;
    }

    /**
     * `TodoTool(session_id, base_path)`: `_ensure_storage_directory` makes
     * the storage directory and its missing parents, and raises, leaving
     * no tool, when a file is in the way.
     */
    static method Create(sessionId: string, basePath: string, cwd: string, codec: TextCodec, freshIds: nat -> string, disk: Disk)
      returns (r: Outcome<TodoTool>)
      modifies disk
      ensures var made := MakeDirs(old(disk.fs), BaseDir(basePath, cwd));
        (made.Raised? ==> r == Raised(made.exception) && disk.fs == old(disk.fs)) &&
        (made.Returned? ==> r.Returned? && disk.fs == made.value && IsDir(disk.fs, r.value.baseDir))
      ensures r.Returned? ==> fresh(r.value) && r.value.disk == disk && r.value.baseDir == BaseDir(basePath, cwd)
      ensures r.Returned? ==> r.value.filePath == TodoFilePath(BaseDir(basePath, cwd), sessionId)
      ensures r.Returned? ==> r.value.sessionId == sessionId && r.value.codec == codec && r.value.freshIds == freshIds
      ensures WellFormed(old(disk.fs)) ==> WellFormed(disk.fs)
    {
      var dir := BaseDir(basePath, cwd);
      var made := MakeDirs(disk.fs, dir);
      if made.Raised? {
        return Raised(made.exception);
      }
      if WellFormed(disk.fs) {
        MakeDirsWellFormed(disk.fs, dir);
      }
      disk.fs := made.value;
      var tool := new TodoTool(sessionId, basePath, cwd, codec, freshIds, disk);
      return Returned(tool);
    }

    /** `_read_todo_list`. */
    method ReadTodoList() returns (r: Outcome<seq<Todo>>)
      ensures r == StoredTodos(disk.fs, filePath, codec, freshIds)
    {
      if filePath !in disk.fs {
        return Returned([]);
      }
      var content := ReadText(disk.fs, filePath);
      if content.Raised? {
        return Raised(content.exception);
      }
      if Strip(content.value) == "" {
        return Returned([]);
      }
      var j := codec.loads(content.value);
      if j.Failure? {
        return Raised(j.error);
      }
      var ts := IterateStored(j.value, freshIds);
      if ts.Failure? {
        return Raised(ts.error);
      }
      return Returned(ts.value);
    }

    /** `_write_todo_list`. */
    method WriteTodoList(todos: Option<seq<Todo>>) returns (r: Outcome<()>)
      modifies disk
      ensures (disk.fs, r) == WrittenStore(old(disk.fs), filePath, codec, todos)
      ensures WellFormed(old(disk.fs)) ==> WellFormed(disk.fs)
    {
      if WellFormed(disk.fs) {
        WrittenStoreWellFormed(disk.fs, filePath, codec, todos);
      }
      var emptied := WriteText(disk.fs, filePath, "");
      if emptied.Raised? {
        return Raised(emptied.exception);
      }
      disk.fs := emptied.value;
      if todos.None? {
        return Raised(NoneNotIterable);
      }
      disk.fs := disk.fs[filePath := File(codec.dumps(TodosToJson(todos.value)))];
      return Returned(());
    }

    /**
     * `Tool.execute` of `manage_todo`: validate the arguments, then read
     * the stored list and report it dumped, or overwrite it.
     */
    method Execute(call: ToolCall) returns (r: ToolResult)
      modifies disk
      ensures r.id == call.id
      ensures var p := ParsedCall(call);
        p.Failure? ==> r == ToolResult(call.id, "", ValidationError(call, p.error), false) && disk.fs == old(disk.fs)
      ensures var p := ParsedCall(call);
        p.Success? && p.value.command == ReadTodo ==>
          disk.fs == old(disk.fs) &&
          match StoredTodos(old(disk.fs), filePath, codec, freshIds)
          case Returned(ts) => r == ToolResult(call.id, codec.dumps(TodosToJson(ts)), "", true)
          case Raised(e) => r == ToolResult(call.id, "", ExecutionError(call, e), false)
      ensures var p := ParsedCall(call);
        p.Success? && p.value.command == WriteTodo ==>
          var (fs, w) := WrittenStore(old(disk.fs), filePath, codec, p.value.todos);
          disk.fs == fs &&
          match w
          case Returned(_) => r == ToolResult(call.id, UpdatedText, "", true)
          case Raised(e) => r == ToolResult(call.id, "", ExecutionError(call, e), false)
      ensures WellFormed(old(disk.fs)) ==> WellFormed(disk.fs)
    {
      r := FailedResult(call.id);
      var parsed := ParsedCall(call);
      if parsed.Failure? {
        r := r.(error := ValidationError(call, parsed.error));
        return;
      }
      var args := parsed.value;
      if args.command == ReadTodo {
        var todos := ReadTodoList();
        match todos {
          case Raised(e) =>
            r := r.(error := ExecutionError(call, e));
          case Returned(ts) =>
            r := r.(output := codec.dumps(TodosToJson(ts)), error := "", success := true);
        }
      } else {
        var written := WriteTodoList(args.todos);
        match written {
          case Raised(e) =>
            r := r.(error := ExecutionError(call, e));
          case Returned(_) =>
            r := r.(output := UpdatedText, error := "", success := true);
        }
      }
    }

    /** `TodoArgs.model_validate_json(tool_args)`. */
    function ParsedCall(call: ToolCall): Result<TodoArgs>
    {
      match codec.loads(call.toolArgs)
      case Failure(e) => Failure(e)
      case Success(j) => ParseArgs(j, freshIds)
    }
  }
}

=== FILE: toolkit.dfy ===
/**
 * The older tool interface: `ToolSpec`s collected in a `ToolKit`, which
 * keeps parallel lists of names and schemas and two dicts keyed by name,
 * grows through `add_tool`, and answers a call with a plain string; and
 * the `ToolRegistry` that fills a kit from local specs and the MCP
 * server's specs.
 */
module ToolKits {
  import opened Wrappers
  import opened Strings
  import opened JsonData
  import opened Indexing
  import Tools

  /** A call as this interface sees it: a name and a JSON argument string. */
  datatype ToolCall = ToolCall(toolName: string, toolArgs: string)

  /**
   * A tool's arguments: the schema the model is shown, and how the argument
   * string is parsed (pydantic validation and dump for a model class,
   * `json.loads` for a plain dict schema).
   */
  datatype ArgSpec = ArgSpec(schema: Json, parse: string -> Result<Json>)

  /** A tool callback: it receives the parsed arguments as keywords. */
  type Callback = Json -> Outcome<string>

  datatype ToolSpec = ToolSpec(toolName: string, toolDesc: string, toolArgs: ArgSpec, toolCallback: Callback)

  /** `tool_schema`: the same function definition shape the tool base class gives the model. */
  function ToolSchema(spec: ToolSpec): (s: Json)
    ensures s.Obj? && s.fields.Keys == {"type", "function"}
    ensures s.fields["type"] == Str("function")
    ensures s.fields["function"].Obj? && s.fields["function"].fields.Keys == {"name", "description", "parameters"}
    ensures s.fields["function"].fields["name"] == Str(spec.toolName)
    ensures s.fields["function"].fields["description"] == Str(spec.toolDesc)
    ensures s.fields["function"].fields["parameters"] == spec.toolArgs.schema
  {
    Tools.FunctionSchema(spec.toolName, spec.toolDesc, spec.toolArgs.schema)
  }

  function SpecNames(specs: seq<ToolSpec>): (names: seq<string>)
    ensures |names| == |specs|
  {
    seq(|specs|, i requires 0 <= i < |specs| => specs[i].toolName)
  }

  function SpecSchemas(specs: seq<ToolSpec>): (schemas: seq<Json>)
    ensures |schemas| == |specs|
  {
    seq(|specs|, i requires 0 <= i < |specs| => ToolSchema(specs[i]))
  }

  function SpecArgs(specs: seq<ToolSpec>): seq<ArgSpec>
  {
    seq(|specs|, i requires 0 <= i < |specs| => specs[i].toolArgs)
  }

  function SpecCallbacks(specs: seq<ToolSpec>): seq<Callback>
  {
    seq(|specs|, i requires 0 <= i < |specs| => specs[i].toolCallback)
  }

  const UnavailableHead := "The tool name "
  const UnavailableTail := " is unavailable. The available tools are: "
  const ValidationHead := "Validating the the tool `"
  const ExecutionHead := "Executing the tool `"
  const WithArgs := "` with args `"
  const FailedWith := "` failed: "

  function UnavailableText(name: string, names: seq<string>): string
  {
    UnavailableHead + name + UnavailableTail + ListRepr(names)
  }

  function ValidationText(call: ToolCall, e: string): string
  {
    ValidationHead + call.toolName + WithArgs + call.toolArgs + FailedWith + e
  }

  function ExecutionText(call: ToolCall, e: string): string
  {
    ExecutionHead + call.toolName + WithArgs + call.toolArgs + FailedWith + e
  }

  const NotAMapping := "argument after ** must be a mapping, not "

  /** `callback(**args)`: a non-dict argument value cannot be spread as keywords. */
  function CallWithKeywords(callback: Callback, args: Json): Outcome<string>
  {
    if args.Obj? then callback(args)
    else Raised(NotAMapping + TypeName(args))
  }

  /**
   * The text `execute_tool` gives back for `call` from a kit holding
   * `specs`, in terms of the specs alone.
   */
  function AnswerCall(specs: seq<ToolSpec>, call: ToolCall): string
  {
    var names := SpecNames(specs);
    if call.toolName !in names then UnavailableText(call.toolName, names)
    else
      var spec := specs[LastIndex(names, call.toolName)];
      match spec.toolArgs.parse(call.toolArgs)
      case Failure(e) => ValidationText(call, e)
      case Success(args) =>
        match CallWithKeywords(spec.toolCallback, args)
        case Returned(s) => s
        case Raised(e) => ExecutionText(call, e)
  }

  /**
   * A call no spec is named for is reported unavailable; otherwise it is
   * answered as a kit holding only the last spec under its name would.
   */
  lemma AnswerUnavailable(specs: seq<ToolSpec>, call: ToolCall)
    ensures (forall i :: 0 <= i < |specs| ==> specs[i].toolName != call.toolName) ==>
      AnswerCall(specs, call) == UnavailableText(call.toolName, SpecNames(specs))
    ensures call.toolName in SpecNames(specs) ==>
      AnswerCall(specs, call) == AnswerCall([specs[LastIndex(SpecNames(specs), call.toolName)]], call)
  {
    var names := SpecNames(specs);
    if call.toolName in names {
      var spec := specs[LastIndex(names, call.toolName)];
      assert SpecNames([spec]) == [spec.toolName];
      LastIsUnique([spec.toolName], call.toolName, 0);
    } else {
      assert call.toolName !in names;
    }
  }

  /** A tool added under a name already present shadows the earlier one. */
  lemma AnswerCallShadowing(specs: seq<ToolSpec>, spec: ToolSpec, call: ToolCall)
    requires call.toolName == spec.toolName
    ensures AnswerCall(specs + [spec], call) == AnswerCall([spec], call)
  {
    var names := SpecNames(specs + [spec]);
    assert names[|specs|] == call.toolName;
    LastIsUnique(names, call.toolName, |specs|);
    assert SpecNames([spec]) == [spec.toolName];
    LastIsUnique([spec.toolName], call.toolName, 0);
  }

  /** Adding a tool under another name leaves the answers to calls of the existing tools alone. */
  lemma AnswerCallFrame(specs: seq<ToolSpec>, spec: ToolSpec, call: ToolCall)
    requires call.toolName != spec.toolName && call.toolName in SpecNames(specs)
    ensures AnswerCall(specs + [spec], call) == AnswerCall(specs, call)
  {
    var names := SpecNames(specs);
    var longer := SpecNames(specs + [spec]);
    assert longer == names + [spec.toolName];
    var k := LastIndex(names, call.toolName);
    LastIsUnique(longer, call.toolName, k);
  }

  class ToolKit {
    var tools: seq<ToolSpec>
    var toolNames: seq<string>
    var toolSchemas: seq<Json>
    var toolArgs: map<string, ArgSpec>
    var toolCallbacks: map<string, Callback>

    /** The lists follow `tools` position by position; the dicts index them by name. */
    ghost predicate Valid()
      reads this
    {
      toolNames == SpecNames(tools) &&
      toolSchemas == SpecSchemas(tools) &&
      toolArgs == Index(toolNames, SpecArgs(tools)) &&
      toolCallbacks == Index(toolNames, SpecCallbacks(tools))
    }

    /** `ToolKit(tools)`. */
    constructor (specs: seq<ToolSpec>)
      ensures Valid()
      ensures tools == specs
    {
      tools := specs;
      toolNames := SpecNames(specs);
      toolSchemas := SpecSchemas(specs);
      toolArgs := Index(SpecNames(specs), SpecArgs(specs));
      toolCallbacks := Index(SpecNames(specs), SpecCallbacks(specs));
    }

    /** `add_tool`: append to the three lists and overwrite the name's dict entries. */
    method AddTool(spec: ToolSpec)
      requires Valid()
      modifies this
      ensures Valid()
      ensures tools == old(tools) + [spec]
      ensures toolNames == old(toolNames) + [spec.toolName]
      ensures toolSchemas == old(toolSchemas) + [ToolSchema(spec)]
      ensures toolArgs == old(toolArgs)[spec.toolName := spec.toolArgs]
      ensures toolCallbacks == old(toolCallbacks)[spec.toolName := spec.toolCallback]
    {
      IndexSnoc(toolNames, SpecArgs(tools), spec.toolName, spec.toolArgs);
      IndexSnoc(toolNames, SpecCallbacks(tools), spec.toolName, spec.toolCallback);
      assert SpecArgs(tools + [spec]) == SpecArgs(tools) + [spec.toolArgs];
      assert SpecCallbacks(tools + [spec]) == SpecCallbacks(tools) + [spec.toolCallback];
      assert SpecNames(tools + [spec]) == toolNames + [spec.toolName];
      assert SpecSchemas(tools + [spec]) == toolSchemas + [ToolSchema(spec)];
      tools := tools + [spec];
      toolNames := toolNames + [spec.toolName];
      toolSchemas := toolSchemas + [ToolSchema(spec)];
      toolArgs := toolArgs[spec.toolName := spec.toolArgs];
      toolCallbacks := toolCallbacks[spec.toolName := spec.toolCallback];
    }

    /** `get_tool_schemas`. */
    function GetToolSchemas(): (s: seq<Json>)
      reads this
      requires Valid()
      ensures s == SpecSchemas(tools)
      ensures |s| == |tools|
      ensures forall i :: 0 <= i < |tools| ==> s[i] == ToolSchema(tools[i])
    {
      toolSchemas
    }

    /** The spec a name resolves to: the last one added under that name. */
    function Resolve(name: string): (spec: ToolSpec)
      reads this
      requires Valid() && name in toolNames
    {
      tools[LastIndex(toolNames, name)]
    }

    /**
     * `execute_tool`: every failure is reported as text, never raised. The
     * spec used is the last one registered under the call's name.
     */
    function ExecuteTool(call: ToolCall): (r: string)
      reads this
      requires Valid()
      ensures r == AnswerCall(tools, call)
      ensures call.toolName !in toolNames ==> r == UnavailableText(call.toolName, toolNames)
    {
      if call.toolName !in toolNames then UnavailableText(call.toolName, toolNames)
      else
        IndexKeepsLast(toolNames, SpecArgs(tools), call.toolName);
        IndexKeepsLast(toolNames, SpecCallbacks(tools), call.toolName);
        match toolArgs[call.toolName].parse(call.toolArgs)
        case Failure(e) => ValidationText(call, e)
        case Success(args) =>
          match CallWithKeywords(toolCallbacks[call.toolName], args)
          case Returned(s) => s
          case Raised(e) => ExecutionText(call, e)
    }
  }

  /** The registry's name filter: a non-empty include list admits only its names; a non-empty exclude list rejects its names. */
  predicate Admitted(name: string, includeTools: seq<string>, excludeTools: seq<string>)
  {
    (includeTools == [] || name in includeTools) && (excludeTools == [] || name !in excludeTools)
  }

  /** The local specs surviving the include list, then the exclude list, in their order. */
  function FilterSpecs(specs: seq<ToolSpec>, includeTools: seq<string>, excludeTools: seq<string>): seq<ToolSpec>
    decreases |specs|
  {
    if specs == [] then []
    else
      var rest := FilterSpecs(specs[1..], includeTools, excludeTools);
      if Admitted(specs[0].toolName, includeTools, excludeTools) then [specs[0]] + rest else rest
  }

  /** A spec survives the filters exactly when its name is admitted. */
  lemma {:induction false} FilterSpecsMembers(specs: seq<ToolSpec>, includeTools: seq<string>, excludeTools: seq<string>)
    ensures var r := FilterSpecs(specs, includeTools, excludeTools);
      |r| <= |specs| &&
      (forall i :: 0 <= i < |r| ==> r[i] in specs && Admitted(r[i].toolName, includeTools, excludeTools)) &&
      (forall i :: 0 <= i < |specs| && Admitted(specs[i].toolName, includeTools, excludeTools) ==> specs[i] in r)
    decreases |specs|
  {
    if specs != [] {
      FilterSpecsMembers(specs[1..], includeTools, excludeTools);
      assert forall s :: s in specs[1..] ==> s in specs;
      assert forall i :: 1 <= i < |specs| ==> specs[i] == specs[1..][i - 1];
    }
  }

  /** Filtering keeps the order: the kept specs of a concatenation are the kept specs of each part. */
  lemma {:induction false} FilterSpecsAppend(a: seq<ToolSpec>, b: seq<ToolSpec>, includeTools: seq<string>, excludeTools: seq<string>)
    ensures FilterSpecs(a + b, includeTools, excludeTools) ==
      FilterSpecs(a, includeTools, excludeTools) + FilterSpecs(b, includeTools, excludeTools)
    decreases |a|
  {
    if a == [] {
      assert a + b == b;
    } else {
      assert (a + b)[0] == a[0];
      assert (a + b)[1..] == a[1..] + b;
      FilterSpecsAppend(a[1..], b, includeTools, excludeTools);
    }
  }

  /**
   * `ToolRegistry(tool_specs, include_tools, exclude_tools)` given the specs
   * the MCP server lists: the filtered local specs, then every admitted MCP
   * spec added with `add_tool`, in listing order.
   */
  method NewToolRegistry(specs: seq<ToolSpec>, includeTools: seq<string>, excludeTools: seq<string>,
                         mcpSpecs: seq<ToolSpec>) returns (kit: ToolKit)
    ensures fresh(kit) && kit.Valid()
    ensures kit.tools == FilterSpecs(specs + mcpSpecs, includeTools, excludeTools)
  {
    var local := specs;
    if specs != [] {
      if includeTools != [] {
        local := KeepIncluded(local, includeTools);
      }
      if excludeTools != [] {
        local := KeepNotExcluded(local, excludeTools);
      }
    }
    LocalFilters(specs, includeTools, excludeTools);
    kit := new ToolKit(local);
    AddAdmittedMcpTools(kit, mcpSpecs, includeTools, excludeTools);
    FilterSpecsAppend(specs, mcpSpecs, includeTools, excludeTools);
  }

  /** The registry's loop over the MCP listing: skip what the lists keep out, `add_tool` the rest. */
  method AddAdmittedMcpTools(kit: ToolKit, mcpSpecs: seq<ToolSpec>, includeTools: seq<string>, excludeTools: seq<string>)
    requires kit.Valid()
    modifies kit
    ensures kit.Valid()
    ensures kit.tools == old(kit.tools) + FilterSpecs(mcpSpecs, includeTools, excludeTools)
  {
    for i := 0 to |mcpSpecs|
      invariant kit.Valid()
      invariant kit.tools == old(kit.tools) + FilterSpecs(mcpSpecs[..i], includeTools, excludeTools)
    {
      FilterSpecsSnoc(mcpSpecs[..i], mcpSpecs[i], includeTools, excludeTools);
      assert mcpSpecs[..i + 1] == mcpSpecs[..i] + [mcpSpecs[i]];
      AddUnlessFiltered(kit, mcpSpecs[i], includeTools, excludeTools);
    }
    assert mcpSpecs[..|mcpSpecs|] == mcpSpecs;
  }

  /** One pass of the registry's MCP loop. */
  method AddUnlessFiltered(kit: ToolKit, spec: ToolSpec, includeTools: seq<string>, excludeTools: seq<string>)
    requires kit.Valid()
    modifies kit
    ensures kit.Valid()
    ensures kit.tools == old(kit.tools) + (if Admitted(spec.toolName, includeTools, excludeTools) then [spec] else [])
  {
    if includeTools != [] && spec.toolName !in includeTools {
      return;
    }
    if excludeTools != [] && spec.toolName in excludeTools {
      return;
    }
    kit.AddTool(spec);
  }

  lemma FilterSpecsSnoc(specs: seq<ToolSpec>, spec: ToolSpec, includeTools: seq<string>, excludeTools: seq<string>)
    ensures FilterSpecs(specs + [spec], includeTools, excludeTools) ==
      FilterSpecs(specs, includeTools, excludeTools) + (if Admitted(spec.toolName, includeTools, excludeTools) then [spec] else [])
  {
    FilterSpecsAppend(specs, [spec], includeTools, excludeTools);
    assert FilterSpecs([spec], includeTools, excludeTools) ==
      (if Admitted(spec.toolName, includeTools, excludeTools) then [spec] else []) + FilterSpecs([], includeTools, excludeTools);
  }

  /** `[tool for tool in tool_specs if tool.tool_name in include_tools]`. */
  function KeepIncluded(specs: seq<ToolSpec>, includeTools: seq<string>): seq<ToolSpec>
    decreases |specs|
  {
    if specs == [] then []
    else (if specs[0].toolName in includeTools then [specs[0]] else []) + KeepIncluded(specs[1..], includeTools)
  }

  /** `[tool for tool in tool_specs if tool.tool_name not in exclude_tools]`. */
  function KeepNotExcluded(specs: seq<ToolSpec>, excludeTools: seq<string>): seq<ToolSpec>
    decreases |specs|
  {
    if specs == [] then []
    else (if specs[0].toolName !in excludeTools then [specs[0]] else []) + KeepNotExcluded(specs[1..], excludeTools)
  }

  lemma {:induction false} KeepNotExcludedAppend(a: seq<ToolSpec>, b: seq<ToolSpec>, excludeTools: seq<string>)
    ensures KeepNotExcluded(a + b, excludeTools) == KeepNotExcluded(a, excludeTools) + KeepNotExcluded(b, excludeTools)
    decreases |a|
  {
    if a == [] {
      assert a + b == b;
    } else {
      assert (a + b)[0] == a[0];
      assert (a + b)[1..] == a[1..] + b;
      KeepNotExcludedAppend(a[1..], b, excludeTools);
    }
  }

  /** The include comprehension when the list is given, then the exclude comprehension when that one is. */
  function LocalFiltered(specs: seq<ToolSpec>, includeTools: seq<string>, excludeTools: seq<string>): seq<ToolSpec>
  {
    var included := if includeTools != [] then KeepIncluded(specs, includeTools) else specs;
    if excludeTools != [] then KeepNotExcluded(included, excludeTools) else included
  }

  /** The comprehensions keep the first spec exactly when its name is admitted, and treat the rest alike. */
  lemma LocalFilteredCons(specs: seq<ToolSpec>, includeTools: seq<string>, excludeTools: seq<string>)
    requires specs != []
    ensures LocalFiltered(specs, includeTools, excludeTools) ==
      (if Admitted(specs[0].toolName, includeTools, excludeTools) then [specs[0]] else []) +
      LocalFiltered(specs[1..], includeTools, excludeTools)
  {
    var s := specs[0];
    var tail := specs[1..];
    var head := if includeTools == [] || s.toolName in includeTools then [s] else [];
    var restIncluded := if includeTools != [] then KeepIncluded(tail, includeTools) else tail;
    var included := if includeTools != [] then KeepIncluded(specs, includeTools) else specs;
    assert included == head + restIncluded by {
      assert specs == [s] + tail;
    }
    if excludeTools != [] {
      KeepNotExcludedAppend(head, restIncluded, excludeTools);
      if head != [] {
        assert KeepNotExcluded(head, excludeTools) ==
          (if s.toolName !in excludeTools then [s] else []) + KeepNotExcluded([], excludeTools);
      }
    }
  }

  /** The two comprehensions in a row are the registry filter. */
  lemma {:induction false} LocalFilters(specs: seq<ToolSpec>, includeTools: seq<string>, excludeTools: seq<string>)
    ensures FilterSpecs(specs, includeTools, excludeTools) == LocalFiltered(specs, includeTools, excludeTools)
    decreases |specs|
  {
    if specs != [] {
      LocalFilters(specs[1..], includeTools, excludeTools);
      LocalFilteredCons(specs, includeTools, excludeTools);
    }
  }
}

=== FILE: tools.dfy ===
/**
 * The tool abstraction of the runtime: a tool call as the model emits it,
 * the result a tool reports, and `Tool.execute`, which parses the call's
 * JSON arguments and runs the tool, turning every failure into a result.
 *
 * Tools act on a world `W` (the file system, say) that is threaded through
 * each execution as a value.
 */
module Tools {
  import opened Wrappers
  import opened Strings
  import opened JsonData

  /** A request from the model to run a tool; every field defaults to `""`. */
  datatype ToolCall = ToolCall(id: string, toolName: string, toolArgs: string)

  /** What a tool reports; the defaults are `""`, `""`, `""` and `False`. */
  datatype ToolResult = ToolResult(id: string, output: string, error: string, success: bool)

  const DefaultToolCall := ToolCall("", "", "")

  /** `ToolResult(id=id, success=False)`: the result `execute` starts from. */
  function FailedResult(id: string): ToolResult
  {
    ToolResult(id, "", "", false)
  }

  /**
   * How a tool runs once its arguments are parsed. A subclass that overrides
   * `_execute` gets the parsed arguments and the world; the base class's own
   * `_execute(self, args)` uses the callback given at construction, if any.
   */
  datatype Body<!W> =
    | Override(run: (W, Json) -> (W, Outcome<ToolResult>))
    | Default(callback: Option<Json -> Outcome<ToolResult>>)

  /**
   * A tool. `parse` is what happens to the argument string: pydantic's
   * `model_validate_json(...).model_dump()` when the parameters are a model
   * class, `json.loads` when they are a plain schema dict. `close` is what
   * the tool's `close()` does to the world; the base class's does nothing.
   */
  datatype Tool<!W> = Tool(
    name: string,
    description: string,
    parameters: Json,
    parse: string -> Result<Json>,
    body: Body<W>,
    close: W -> W)

  /**
   * `{"type": "function", "function": {"name": ..., "description": ...,
   * "parameters": ...}}`: how a tool is described to the model.
   */
  function FunctionSchema(name: string, description: string, parameters: Json): (d: Json)
    ensures d.Obj? && d.fields.Keys == {"type", "function"}
    ensures d.fields["type"] == Str("function")
    ensures d.fields["function"].Obj? && d.fields["function"].fields.Keys == {"name", "description", "parameters"}
    ensures d.fields["function"].fields["name"] == Str(name)
    ensures d.fields["function"].fields["description"] == Str(description)
    ensures d.fields["function"].fields["parameters"] == parameters
  {
    Obj(map[
      "type" := Str("function"),
      "function" := Obj(map[
        "name" := Str(name),
        "description" := Str(description),
        "parameters" := parameters])])
  }

  /** `json_definition`: the tool's name, description and parameter schema in the function shape. */
  function JsonDefinition<W>(tool: Tool<W>): Json
  {
    FunctionSchema(tool.name, tool.description, tool.parameters)
  }

  // ---------------------------------------------------------------------
  // `model_json_schema()` of a pydantic argument model
  // ---------------------------------------------------------------------

  /**
   * The schema pydantic writes for a string or integer field: its title
   * (the field name title-cased with `_` read as a space), its JSON type,
   * its description, and its default when it has one.
   */
  function FieldSchema(title: string, jsonType: string, description: string, default: Option<Json>): Json
  {
    var base := map["title" := Str(title), "type" := Str(jsonType), "description" := Str(description)];
    match default
    case None => Obj(base)
    case Some(v) => Obj(base["default" := v])
  }

  /**
   * `self._execute(**args)` on the base class: the parsed arguments must be
   * a dict whose only key is `args`, which binds the single parameter.
   * Keywords are matched before positions are counted, so a stray keyword
   * is reported even when `args` is missing too.
   */
  function BindArgs(args: Json): (r: Outcome<Json>)
    ensures r.Returned? <==> args.Obj? && args.fields.Keys == {"args"}
    ensures r.Returned? ==> r.value == args.fields["args"]
    ensures !args.Obj? ==> r == Raised(NotAMappingText + TypeName(args))
    ensures args.Obj? && (exists k :: k in args.fields && k != "args") ==> r == Raised(UnexpectedKeywordText)
    ensures args.Obj? && args.fields == map[] ==> r == Raised(MissingArgsText)
  {
    if !args.Obj? then
      Raised(NotAMappingText + TypeName(args))
    else if exists k :: k in args.fields && k != "args" then
      Raised(UnexpectedKeywordText)
    else if "args" in args.fields then
      Returned(args.fields["args"])
    else
      Raised(MissingArgsText)
  }

  const NotAMappingText := "Tool._execute() argument after ** must be a mapping, not "
  const UnexpectedKeywordText := "Tool._execute() got an unexpected keyword argument"
  const MissingArgsText := "Tool._execute() missing 1 required positional argument: 'args'"

  const NotImplementedText := "Must implement _execute method"

  /** Running the body of a tool on parsed arguments. */
  function Run<W>(body: Body<W>, w: W, args: Json): (W, Outcome<ToolResult>)
  {
    match body
    case Override(run) => run(w, args)
    case Default(callback) =>
      match BindArgs(args)
      case Raised(e) => (w, Raised(e))
      case Returned(a) =>
        match callback
        case Some(f) => (w, f(a))
        case None => (w, Raised(NotImplementedText))
  }

  const ValidatingTool := "Validating the tool `"
  const ExecutingTool := "Executing the tool `"
  const WithArgs := "` with args `"
  const FailedWith := "` failed: "

  function ValidationError(call: ToolCall, e: string): string
  {
    ValidatingTool + call.toolName + WithArgs + call.toolArgs + FailedWith + e
  }

  function ExecutionError(call: ToolCall, e: string): string
  {
    ExecutingTool + call.toolName + WithArgs + call.toolArgs + FailedWith + e
  }

  /**
   * `Tool.execute`: parse the arguments, run the tool, and copy what it
   * reports into a result carrying the call's id. A parse failure leaves the
   * world untouched; an exception from the tool becomes an error result.
   */
  function Execute<W>(tool: Tool<W>, w: W, call: ToolCall): (r: (W, ToolResult))
    ensures r.1.id == call.id
    ensures tool.parse(call.toolArgs).Failure? ==>
      r.0 == w && r.1 == ToolResult(call.id, "", ValidationError(call, tool.parse(call.toolArgs).error), false)
    ensures tool.parse(call.toolArgs).Success? ==>
      var (w', out) := Run(tool.body, w, tool.parse(call.toolArgs).value);
      r.0 == w' &&
      match out
      case Returned(res) => r.1 == res.(id := call.id)
      case Raised(e) => r.1 == ToolResult(call.id, "", ExecutionError(call, e), false)
    ensures r.1.success ==> tool.parse(call.toolArgs).Success?
  {
    var result := FailedResult(call.id);
    match tool.parse(call.toolArgs)
    case Failure(e) => (w, result.(error := ValidationError(call, e)))
    case Success(args) =>
      var (w', out) := Run(tool.body, w, args);
      match out
      case Returned(res) => (w', result.(output := res.output, error := res.error, success := res.success))
      case Raised(e) => (w', result.(error := ExecutionError(call, e)))
  }

  /** A tool built without a callback and without `_execute` never succeeds. */
  lemma UnimplementedToolFails<W>(tool: Tool<W>, w: W, call: ToolCall)
    requires tool.body == Default(None)
    ensures !Execute(tool, w, call).1.success
    ensures Execute(tool, w, call).0 == w
    ensures tool.parse(call.toolArgs) == Success(Obj(map["args" := Null])) ==>
      Execute(tool, w, call).1.error == ExecutionError(call, NotImplementedText)
  {
    assert map["args" := Null].Keys == {"args"};
  }

  /** A failed parse is reported as a validation failure naming the tool and the arguments. */
  lemma ValidationFailureReported<W>(tool: Tool<W>, w: W, call: ToolCall)
    requires tool.parse(call.toolArgs).Failure?
    ensures var r := Execute(tool, w, call).1;
      !r.success && r.output == "" &&
      StartsWith(r.error, ValidatingTool + call.toolName + WithArgs + call.toolArgs)
  {
    var r := Execute(tool, w, call).1;
    var p := ValidatingTool + call.toolName + WithArgs + call.toolArgs;
    assert r.error == p + FailedWith + tool.parse(call.toolArgs).error;
    assert r.error[..|p|] == p;
  }
}

=== FILE: wrappers.dfy ===
/**
 * Failure-carrying values shared by the whole model: an optional value, a
 * parse result, and the outcome of Python code that may raise.
 */
module Wrappers {

  datatype Option<+T> = None | Some(value: T)

  /** The result of a parser: the parsed value, or the parser's error text. */
  datatype Result<+T> = Success(value: T) | Failure(error: string)

  /**
   * What a Python call ends with: the value it returned, or the text
   * (`str(e)`) of the exception it raised.
   */
  datatype Outcome<+T> = Returned(value: T) | Raised(exception: string)
}
